=== FILE: README.md ===
# Jarvis voice assistant — a Dafny model of its command pipeline

Jarvis is a Python voice assistant. It waits for a wake word, records a spoken command and
transcribes it with Whisper. A local language model turns the text into an intent and its
parameters, and a table of handlers answers. The handlers drive Home Assistant and a media
controller (MPD first, Spotify second), and the answer is spoken through Piper or Coqui.
A small control plane starts and stops the services.

This project models that pipeline as pure Dafny functions and a few loop methods, and proves
properties about them. Every engine is an oracle passed in as a parameter:

- the language model (`IntentParse.Generator`) and `json.loads` (`IntentParse.Decoder`);
- Home Assistant's REST answers;
- MPD and Spotify;
- the microphone frames and the wake-word engine's keyword index per frame;
- Whisper, the speech synthesisers and the file system;
- the clock.

Exceptions that the source catches become `Try`/`Option` results or a `fault` step index.
Each Python module maps to one Dafny module:

| Dafny module | file | Python source |
|---|---|---|
| `Base`, `Text`, `Values` | base.dfy, text.dfy, values.dfy | shared helpers: `Option`/`Try`, Python string operations, JSON values with Python truthiness and `str()` |
| `IntentParse` | intent_parse.dfy | `CommandProcessor._parse_command` |
| `CommandProcessor` | command_processor.dfy | handler table and `process_command` |
| `HomeHandlers`, `MediaHandlers`, `InfoHandlers` | home_handlers.dfy, media_handlers.dfy, info_handlers.dfy | the twelve `_handle_*` handlers |
| `HomeAssistant` | home_assistant.dfy | `HomeAssistantClient` caches, `find_entities`, `call_service` |
| `Media` | media.dfy | `MediaController` |
| `SpeechToText` | stt.dfy | `SpeechToText` |
| `TextToSpeech` | tts.dfy | `TextToSpeech` |
| `WakeWord` | wake_word.dfy | `WakeWordDetector` |
| `AudioListener` | audio_listener.dfy | `AudioListener` |
| `ControlPlane` | control_plane.dfy | `MicroservicesControlPlane` |

Behaviour worth knowing:

- JSON extraction is greedy. It runs from the first `{` to the last `}` and does not look
  for a balanced object.
- A reply can be empty. A general query returns the generator's text verbatim, and the
  generator answers `""` when it fails.
- `SYSTEM_COMMAND:*` replies are handed to the audio listener and spoken like any other
  reply. Nothing in the modelled files intercepts them.
- One second of silence is `int(1.0 * 16000 / 1024)` = 15 chunks, not 16.
- The device-status branch for `binary_sensor.` is dead. Entity types are matched by
  substring, and `"sensor."` is matched first.
- A decoded intent that is a JSON list or object is unhashable. The dictionary lookup
  raises on it, and that is the only route to the processor's fixed apology.

## Model

| member | source | states |
|---|---|---|
| Values.ToParams | Jarvis_v1/core/command-processor.py:143 | An absent `"parameters"` entry gives `{}` and a JSON object gives its fields; any other JSON value is a non-dict on which the handlers' `.get` raises |
| IntentParse.ExtractJsonSpan | Jarvis_v1/core/command-processor.py:139 | There is a candidate exactly when some `{` precedes some `}`; the candidate starts with `{`, ends with `}`, and has no `{` before it or `}` after it in the reply |
| IntentParse.GreedyExtraction | Jarvis_v1/core/command-processor.py:139-141 | Two objects in one reply are taken as one span covering both, and `} {` yields no candidate |
| IntentParse.Parse | Jarvis_v1/core/command-processor.py:96-151 | No candidate or a decode failure yields `("general_query", {"query": command})`; otherwise the intent defaults to `"general_query"` and the parameters to `{}` |
| IntentParse.MissingIntent | Jarvis_v1/core/command-processor.py:142-143 | A decoded object without `"intent"` becomes a general query with its own parameters, not `{"query": command}` |
| IntentParse.SilentGeneratorFallsBack | Jarvis_v1/core/command-processor.py:139-147 | A generator answering `""` always leads to the fallback query on the command |
| CommandProcessor.FromTag | Jarvis_v1/core/command-processor.py:72-94 | A key finds an intent exactly when it is one of the twelve registered keys, and that intent's key is the one looked up |
| CommandProcessor.TableComplete | Jarvis_v1/core/command-processor.py:75-94 | The table has twelve distinct keys, one per intent, and each key leads back to its intent |
| CommandProcessor.Lookup | Jarvis_v1/core/command-processor.py:171 | An intent that is a list or an object makes `intent in self.handlers` raise; otherwise the lookup finds a handler exactly when the handlers are registered and the intent is one of the twelve keys, and then the intent is that key |
| CommandProcessor.Handle | Jarvis_v1/core/command-processor.py:72-94 | Each of the twelve intents runs its own handler on the parsed parameters, with the Home Assistant, media, clock or generator environment that handler uses |
| CommandProcessor.Process | Jarvis_v1/core/command-processor.py:153-190 | The reply is spoken exactly when a listener is attached; unhashable intents give the fixed apology, table intents run their handler, and any other intent runs the general query on `{"query": command}` |
| CommandProcessor.EmptyReplyPossible | Jarvis_v1/core/command-processor.py:725-741 | With a generator that always fails, a non-empty command gets the empty reply, and that empty reply is spoken |
| CommandProcessor.MissingIntentNotSure | Jarvis_v1/core/command-processor.py:728-731 | A decoded object with neither intent nor parameters ends in "I'm not sure what you're asking" |
| CommandProcessor.SystemCommandSpoken | Jarvis_v1/core/command-processor.py:177-181 | A shutdown system command's reply `SYSTEM_COMMAND:SHUTDOWN` is handed to the listener to speak |
| CommandProcessor.UnknownIntentFallsBack | Jarvis_v1/core/command-processor.py:171-175 | A hashable intent outside the table asks the generator the original command, or gets "I'm not sure" when the command is empty |
| CommandProcessor.UnregisteredFallsBack | Jarvis_v1/core/command-processor.py:153-175 | While the handler table is still the empty one `__init__` creates, every hashable intent is answered as a general query on the original command, and an unhashable one gets the fixed apology |
| InfoHandlers.Time | Jarvis_v1/core/command-processor.py:699-723 | A non-dict parameter gives the time apology; the default or a time action tells the time, a date action the date, a date-time action both, and any other action is echoed back as unknown |
| InfoHandlers.TimeDefaultsToTime | Jarvis_v1/core/command-processor.py:704-708 | With no action at all the handler tells the time |
| InfoHandlers.TimeUnknownExactly | Jarvis_v1/core/command-processor.py:704-719 | The reply reports an unknown time action exactly when the action is none of the six recognised ones |
| InfoHandlers.TvControl | Jarvis_v1/core/command-processor.py:630-638 | TV control always answers that it is not implemented yet, whatever the parameters |
| InfoHandlers.GeneralQuery | Jarvis_v1/core/command-processor.py:725-745 | A falsy query is not asked; a truthy one is answered by the generator verbatim; a non-dict gives the apology |
| InfoHandlers.SystemCommand | Jarvis_v1/core/command-processor.py:752-763 | Exactly the eight recognised actions map to a command, in four groups: SHUTDOWN, RESTART, MUTE, UNMUTE |
| InfoHandlers.SystemControlReplies | Jarvis_v1/core/command-processor.py:747-770 | A reply starts with `SYSTEM_COMMAND:` exactly when the action is recognised; any other action is echoed back as unknown |
| InfoHandlers.SystemControl | Jarvis_v1/core/command-processor.py:747-770 | A non-dict parameter gives the system apology; a recognised action gives `SYSTEM_COMMAND:` and its command; any other action is echoed back as unknown |
| HomeHandlers.JoinNames | Jarvis_v1/core/command-processor.py:245-247 | No names gives no reply text (an `IndexError`); one name is shown as it is; several names join only when all are strings |
| HomeHandlers.JoinNamesShape | Jarvis_v1/core/command-processor.py:247 | Several joined names end with `" and "` and the last name, and every name occurs in the result |
| HomeHandlers.Calls | Jarvis_v1/core/command-processor.py:212-242 | One service call per matched entity, in order, each targeting that entity with the plan's service and extra data |
| HomeHandlers.BatchReply | Jarvis_v1/core/command-processor.py:244-262 | An unrecognised action ends in the apology; one failed call gives the trouble reply; when all succeed, the plan's reply on the joined friendly names, or the apology when joining raises |
| HomeHandlers.DeviceControl | Jarvis_v1/core/command-processor.py:193-262 | Without Home Assistant the handler says it is unavailable; a non-dict parameter gives the apology; no device asks which one; no match names the device; otherwise one call per match, with the trouble reply on any failure and the plan's reply on the joined names when all succeed |
| HomeHandlers.LightControl | Jarvis_v1/core/command-processor.py:193-262 | Light control is the shared device body with the light wording and the plan its action and brightness/colour select |
| HomeHandlers.OnOffPlan | Jarvis_v1/core/command-processor.py:214-242 | on/turn_on, off/turn_off and toggle pick their service; only turning on carries brightness and colour; other actions make no calls |
| HomeHandlers.LightExtras | Jarvis_v1/core/command-processor.py:216-220 | Brightness is sent when present (even if falsy) and colour only when truthy; the entity id is never overridden |
| HomeHandlers.LightControlReplies | Jarvis_v1/core/command-processor.py:193-262 | For a light found by name, on/turn_on, off/turn_off and toggle each call their own service on every match (only turning on sends brightness and colour); one failed call gives the trouble reply, and all succeeding give "Turned on ", "Turned off " or "Toggled " before the joined names |
| HomeHandlers.SwitchToggleOne | Jarvis_v1/core/command-processor.py:329-390 | Toggling a single matched switch reports it by friendly name on success and reports trouble on failure |
| HomeHandlers.SwitchControl | Jarvis_v1/core/command-processor.py:329-390 | Switch control is the shared device body with the switch wording and the on/off/toggle plan without extra data |
| HomeHandlers.ClimatePlan | Jarvis_v1/core/command-processor.py:284-308 | set_temperature needs a temperature and set_mode a truthy mode; off/turn_off needs nothing; each maps to its climate service |
| HomeHandlers.ClimateNeedsTemperature | Jarvis_v1/core/command-processor.py:285-327 | Asking to set a temperature without one makes no call and ends in the climate apology |
| HomeHandlers.ClimateControl | Jarvis_v1/core/command-processor.py:264-327 | Climate control is the shared device body with the climate wording and the plan its action, temperature and mode select |
| HomeHandlers.OnOff | Jarvis_v1/core/command-processor.py:422 | The status is "on" exactly when the state is "on", and "off" for anything else including no state |
| HomeHandlers.BinarySensorReadAsSensor | Jarvis_v1/core/command-processor.py:434-441 | A binary sensor's id contains "sensor.", so it is reported by the sensor branch, never the binary-sensor one |
| HomeHandlers.StatusLines | Jarvis_v1/core/command-processor.py:416-442 | Any raising entity aborts the report; otherwise there is at most one line per entity, and exactly one when every entity has a recognised type |
| HomeHandlers.StatusLineForDomainEntity | Jarvis_v1/core/command-processor.py:403-441 | Every entity found in the searched domains gets a status line when its line does not raise |
| HomeHandlers.DeviceStatus | Jarvis_v1/core/command-processor.py:392-450 | Without Home Assistant it is unavailable; no device asks which one; nothing found in the five domains names the device; a raising entity gives the apology; otherwise the lines joined by newlines, or "I couldn't get the status of" the device when there are none |
| HomeHandlers.DeviceStatusOneLineEach | Jarvis_v1/core/command-processor.py:403-446 | When every found entity is in its searched domain and no line raises, the report has exactly one line per found entity |
| HomeHandlers.ForecastPart | Jarvis_v1/core/command-processor.py:679-691 | A falsy forecast adds nothing; a truthy one is read without raising exactly when it is a list whose first element is an object |
| HomeHandlers.WeatherReportStartsWithState | Jarvis_v1/core/command-processor.py:640-693 | A weather entity with attributes and no forecast yields a report that opens with its current state |
| HomeHandlers.Weather | Jarvis_v1/core/command-processor.py:640-697 | No weather entity, no attributes and a malformed forecast each give their own reply; otherwise the report is "Current weather: " and the first weather entity's state, then a temperature, humidity and wind part for each attribute present (with its unit), then the forecast part |
| HomeHandlers.WeatherEndsWithForecast | Jarvis_v1/core/command-processor.py:679-693 | A report with a well-formed forecast ends with the forecast part |
| MediaHandlers.SpotifyRequestFor | Jarvis_v1/core/command-processor.py:466-478 | Spotify is asked only when an artist, playlist or genre is truthy; artist with track asks for the track; every request has a search |
| MediaHandlers.MpdRequestFor | Jarvis_v1/core/command-processor.py:494-509 | The MPD request never names a playlist, searches on at most two fields, and searches on nothing only when no field is truthy |
| MediaHandlers.PlayMusicRouting | Jarvis_v1/core/command-processor.py:452-534 | Source "spotify" in any case goes to Spotify, "mpd" or an empty source to MPD, and any other source is refused |
| MediaHandlers.SpotifyReplyFollowsFields | Jarvis_v1/core/command-processor.py:480-490 | A track with a playlist and no artist plays the playlist but is reported as "Playing T by  on Spotify" |
| MediaHandlers.SpotifySuccess | Jarvis_v1/core/command-processor.py:480-490 | The Spotify reply starts with "Playing ", ends with " on Spotify", and names the track and the artist whenever a track is given |
| MediaHandlers.MpdSuccess | Jarvis_v1/core/command-processor.py:511-526 | The MPD reply starts with "Playing ", is "Playing music" when no field is given, and names the track and artist when both are given |
| MediaHandlers.SpotifyReply | Jarvis_v1/core/command-processor.py:466-491 | Without an artist, playlist or genre the user is asked what to play; otherwise Spotify's outcome picks the success reply or "Sorry, I couldn't play that on Spotify" |
| MediaHandlers.MpdReply | Jarvis_v1/core/command-processor.py:493-527 | MPD is asked with the request built from the fields, and its outcome picks the success reply or "Sorry, I couldn't play that music" |
| MediaHandlers.PlayMusic | Jarvis_v1/core/command-processor.py:452-534 | Without a media controller it is unavailable; a non-dict or non-string source gives the apology; "spotify" in any case goes to Spotify, "mpd" or no source to MPD, and any other source is refused by name |
| MediaHandlers.ControlFor | Jarvis_v1/core/command-processor.py:544-577 | Exactly the listed actions map to a playback control, and none of them sets the volume |
| MediaHandlers.MediaControl | Jarvis_v1/core/command-processor.py:536-581 | Without a media controller it is unavailable; parameters that are not a dict give the media apology; an unknown action is echoed back; a known one reports success or failure of its command |
| MediaHandlers.StepUp | Jarvis_v1/core/command-processor.py:600 | The raised level never exceeds 100 and equals current plus step whenever that fits |
| MediaHandlers.StepDown | Jarvis_v1/core/command-processor.py:609 | The lowered level is never below 0 and equals current minus step whenever that fits |
| MediaHandlers.VolumeUpDefaultStep | Jarvis_v1/core/command-processor.py:591-613 | With no step given, "up" asks for min(100, v + 10); without a known current volume it fails |
| MediaHandlers.VolumeSetReportsUnclamped | Jarvis_v1/core/command-processor.py:593-595 | Setting 150 reports "Volume set to 150%" although the controller applies 100 |
| MediaHandlers.VolumeControl | Jarvis_v1/core/command-processor.py:583-628 | Without a media controller it is unavailable; otherwise set with a numeric level, up/down by a clamped step, mute and unmute each report their outcome; a level that is not a number gives the volume apology; any other action is echoed back as unknown |
| MediaHandlers.VolumeSetWithoutLevel | Jarvis_v1/core/command-processor.py:593-624 | "set" without a level is not a set: it ends as an unknown volume action |
| HomeAssistant.Store | Jarvis_v1/integrations/home-assistant.py:134-135 | Storing an entity keeps both caches agreeing; a new id goes to the end of the insertion order and an existing id keeps its place |
| HomeAssistant.Rebuild | Jarvis_v1/integrations/home-assistant.py:64-65 | The caches rebuilt from a fetch list each id once and agree on every state |
| HomeAssistant.RebuildKeys | Jarvis_v1/integrations/home-assistant.py:64-65 | After a fetch, the cache holds exactly the fetched ids |
| HomeAssistant.RebuildKeepsLastOccurrence | Jarvis_v1/integrations/home-assistant.py:64-65 | An id fetched more than once is cached with its last entity, and the state cache holds that entity's state |
| HomeAssistant.CachedList | Jarvis_v1/integrations/home-assistant.py:55 | The cached list has one entity per cached id, in insertion order |
| HomeAssistant.GetEntities | Jarvis_v1/integrations/home-assistant.py:44-75 | A non-empty cache answers unless forced; a fetch that does not answer 200 or raises before the caches are touched returns `[]` and leaves them unchanged; a fetch replaces both caches, which still agree |
| HomeAssistant.GetEntity | Jarvis_v1/integrations/home-assistant.py:113-144 | A cached entity answers unless forced; otherwise the fetch result is returned and, when present, stored in both caches; a failed fetch leaves them unchanged |
| HomeAssistant.GetEntityState | Jarvis_v1/integrations/home-assistant.py:146-164 | A cached state answers without fetching; any state returned is the one now cached; `None` exactly when uncached and the fetch fails |
| HomeAssistant.GetEntityAttributes | Jarvis_v1/integrations/home-assistant.py:166-181 | A cached entity's attributes answer unless forced, otherwise the fetched entity's; any attributes returned are those now cached, and the caches still agree |
| HomeAssistant.GetEntityName | Jarvis_v1/integrations/home-assistant.py:183-197 | The friendly name when the entity has one, else the id itself |
| HomeAssistant.Positions | Jarvis_v1/integrations/home-assistant.py:97-105 | The positions the filter keeps are all kept positions of the ids, each once and strictly increasing |
| HomeAssistant.Scan | Jarvis_v1/integrations/home-assistant.py:97-107 | The loop raises exactly when an in-domain entity has a non-string friendly name; otherwise it keeps exactly the in-domain entities that match the filter, each once, in the order of the ids scanned |
| HomeAssistant.FindEntitiesSelects | Jarvis_v1/integrations/home-assistant.py:77-111 | `find_entities` returns exactly the cached in-domain entities whose lower-cased name or id contains the lower-cased filter, in the cache's insertion order, or `[]` when it raises |
| HomeAssistant.FindEntities | Jarvis_v1/integrations/home-assistant.py:77-111 | The caches stay consistent and are untouched when already filled; a non-string filter gives `[]`; every entity returned is a cached entity of the domain |
| HomeAssistant.FindEntitiesEmptyFilter | Jarvis_v1/integrations/home-assistant.py:104 | An empty filter returns every cached entity of the domain |
| HomeAssistant.TargetIds | Jarvis_v1/integrations/home-assistant.py:224-227 | A single string id is refreshed as a one-element list, and no `entity_id` refreshes nothing |
| HomeAssistant.RefreshAll | Jarvis_v1/integrations/home-assistant.py:229-230 | Refreshing one id after another keeps the caches agreeing |
| HomeAssistant.RefreshAllEffect | Jarvis_v1/integrations/home-assistant.py:229-230 | Each listed id the server answered for is cached with what it returned, and unlisted ids are untouched |
| HomeAssistant.CallService | Jarvis_v1/integrations/home-assistant.py:199-239 | Success exactly on status 200 or 201; a failure refreshes nothing; a success refreshes each targeted id and touches no other |
| Media.AfterMpd | Jarvis_v1/integrations/media-controller.py:59-80 | A lost connection drops the MPD client and changes nothing else |
| Media.Clamp | Jarvis_v1/integrations/media-controller.py:348 | The level sent is within 0..100, unchanged when already in range, and pinned to the nearer bound otherwise |
| Media.Issued | Jarvis_v1/integrations/media-controller.py:337-348 | Only a volume command is altered, and only by clamping its level |
| Media.Control | Jarvis_v1/integrations/media-controller.py:240-257 | MPD carries the command exactly when it exists and the call works; Spotify only otherwise; success exactly when one of them carried it |
| Media.FallbackOrder | Jarvis_v1/integrations/media-controller.py:240-257 | Spotify is consulted only when MPD did not carry the command out, and the call fails only when neither did |
| Media.GetVolume | Jarvis_v1/integrations/media-controller.py:316-335 | MPD's reported volume wins; the result is unknown exactly when neither backend reports one |
| Media.RestoreLevel | Jarvis_v1/integrations/media-controller.py:398-409 | Unmuting restores the saved volume, or 50 when none was ever saved |
| Media.SetMute | Jarvis_v1/integrations/media-controller.py:367-414 | Muting sets 0 and saves the reported volume; unmuting restores the saved level of the backend that serves it and saves nothing; MPD first, then Spotify |
| Media.MuteThenUnmuteRestores | Jarvis_v1/integrations/media-controller.py:380-409 | Muting through MPD at volume v and then unmuting through MPD sets v again |
| Media.SearchTerms | Jarvis_v1/integrations/media-controller.py:122-134 | The query holds exactly the truthy fields among artist, album, title and genre, and is empty exactly when none is truthy |
| Media.FirstPartial | Jarvis_v1/integrations/media-controller.py:113-115 | The chosen name is the first one containing the wanted name case-insensitively, and none is chosen exactly when no name matches |
| Media.ResolvePlaylist | Jarvis_v1/integrations/media-controller.py:104-118 | A resolved playlist is one of the server's; an exact name resolves to itself; any other resolution contains the wanted name case-insensitively |
| Media.ResolvePlaylistChoice | Jarvis_v1/integrations/media-controller.py:104-118 | An exact name wins even over an earlier partial match; otherwise the first partial match; no playlist exactly when neither exists |
| Media.PlayMpd | Jarvis_v1/integrations/media-controller.py:82-152 | Playing succeeds exactly when the connection is live and the server works, and either the requested playlist resolves or the search has no terms or finds something; a playlist request loads and queues nothing else; a search request queues the search results, or everything when there are no terms |
| Media.PlayMpdEmptySearch | Jarvis_v1/integrations/media-controller.py:137-141 | A search with no results reports failure without starting playback |
| Media.ChooseDevice | Jarvis_v1/integrations/media-controller.py:180-183 | The target is the first active device, or the first device when none is active |
| Media.QueryFor | Jarvis_v1/integrations/media-controller.py:185-230 | There is a search exactly when an artist, playlist or genre is truthy; artist with track searches a track; an artist search uses the artist's name |
| Media.PlaySpotify | Jarvis_v1/integrations/media-controller.py:155-237 | A device is chosen exactly when there is a client and at least one device, and it is the one `ChooseDevice` picks; a URI is searched only then; success exactly when a URI was found and playback started |
| SpeechToText.ChunksFor | Jarvis_v1/core/stt.py:73-74 | The chunk count is the largest whole number of 1024-sample chunks that fits the duration at 16 kHz |
| SpeechToText.DefaultChunkCounts | Jarvis_v1/core/stt.py:65-74 | One second of silence is 15 chunks, ten seconds of recording 156 and five seconds 78 |
| SpeechToText.RecordAudio | Jarvis_v1/core/stt.py:48-122 | The frames kept are a capture of the input (`Recorded`): a prefix bounded by the maximum and by a stop request, with no earlier frame meeting the silence rule, ended for one of the four reasons; the flag says the silence run reached its length |
| SpeechToText.RecordedUnique | Jarvis_v1/core/stt.py:86-106 | The capture is determined by the frames, the limits and the stop request: two captures of the same input are equal |
| SpeechToText.RecordedKeepsSpeech | Jarvis_v1/core/stt.py:86-106 | Frames that are never silent, within the maximum and before any stop request, are all captured |
| SpeechToText.TranscribeAudio | Jarvis_v1/core/stt.py:138-194 | Samples win over a file; a missing or nonexistent file or a failure gives `""`; otherwise the stripped text, which has no whitespace at either end |
| SpeechToText.ListenAndTranscribe | Jarvis_v1/core/stt.py:196-214 | A microphone stream that fails to open raises with nothing captured; otherwise the frames are the capture with the ten-second maximum and one-second silence rule, and the answer is `""` when no samples were captured and their transcription otherwise |
| SpeechToText.StopRecording | Jarvis_v1/core/stt.py:216-218 | Stopping clears the recording flag and leaves the audio interface alone |
| SpeechToText.Cleanup | Jarvis_v1/core/stt.py:221-227 | Cleanup releases the audio interface and leaves the recording flag alone |
| SpeechToText.StopAndCleanupIdempotent | Jarvis_v1/core/stt.py:216-227 | Stopping twice or cleaning up twice is the same as doing it once |
| TextToSpeech.SelectEngine | Jarvis_v1/core/tts.py:29 | Piper is used exactly when "piper" occurs in the lower-cased model name |
| TextToSpeech.EngineIgnoresCase | Jarvis_v1/core/tts.py:29 | A model name selects the same engine as its lower-cased form |
| TextToSpeech.PiperModelName | Jarvis_v1/core/tts.py:113-114 | The voice name is a suffix of the model setting, contains no "/", and is preceded by a "/" unless it is the whole setting |
| TextToSpeech.PiperNameOfPlainModel | Jarvis_v1/core/tts.py:113-114 | A model setting without "/" is its own voice name, so the fallback voice is never used |
| TextToSpeech.PiperModelPath | Jarvis_v1/core/tts.py:125 | Piper runs the model file `/app/models/piper/<name>.onnx` |
| TextToSpeech.Request | Jarvis_v1/core/tts.py:141-155 | The run uses Piper exactly when Piper is selected, with its model path; it writes to the requested file, or a temporary file when none is given |
| TextToSpeech.Synthesize | Jarvis_v1/core/tts.py:141-155 | Synthesis yields the output file only when the engine succeeded, and `""` otherwise |
| TextToSpeech.Speak | Jarvis_v1/core/tts.py:177-214 | Empty text does nothing; a file is played exactly when synthesis produced an existing file; a temporary file is deleted; the path is returned only when a save file was given |
| TextToSpeech.SpeakReturnsSavedFile | Jarvis_v1/core/tts.py:204-210 | A returned path is the requested save file, which was played and exists; without a save file nothing is returned |
| TextToSpeech.Initialize | Jarvis_v1/core/tts.py:31-56 | Initialisation succeeds exactly when the engine comes up and the audio interface opens; only a Coqui engine is held, and it stays when the audio interface then fails; the audio interface is held exactly after success |
| TextToSpeech.PiperHoldsNoEngine | Jarvis_v1/core/tts.py:33-46 | Initialising for Piper never holds an engine, whatever the probe and the audio interface do |
| TextToSpeech.CleanupAfterInitialize | Jarvis_v1/core/tts.py:216-223 | Cleanup after initialisation, successful or not, leaves the same state as cleanup alone |
| TextToSpeech.Cleanup | Jarvis_v1/core/tts.py:216-223 | After cleanup neither the audio interface nor the engine is held |
| TextToSpeech.CleanupIdempotent | Jarvis_v1/core/tts.py:216-223 | Cleaning up twice is the same as once |
| WakeWord.SelectKeyword | Jarvis_v1/core/wake-word.py:33-45 | The custom keyword file is used exactly when its path is set and exists; otherwise the built-in "computer" |
| WakeWord.Initialize | Jarvis_v1/core/wake-word.py:29-55 | Initialisation succeeds exactly when the engine can be created, with the selected keyword and an open audio interface |
| WakeWord.Stop | Jarvis_v1/core/wake-word.py:104-113 | Stopping clears the running flag, closes the stream and keeps the engine and callback |
| WakeWord.Cleanup | Jarvis_v1/core/wake-word.py:115-127 | Cleanup stops, then releases the engine and the audio interface |
| WakeWord.StopAndCleanupIdempotent | Jarvis_v1/core/wake-word.py:104-127 | Stop and cleanup may be repeated; cleanup after stop, and stop after cleanup, change nothing more |
| WakeWord.Detections | Jarvis_v1/core/wake-word.py:94-98 | The callback fires for exactly the frames whose keyword index is non-negative, once each, in order |
| WakeWord.Start | Jarvis_v1/core/wake-word.py:57-102 | Start while running does nothing; it raises exactly when there is no engine and none can be created, after cleaning up; otherwise it ends stopped with the engine it used and the callback flag, reads every frame up to the stop request when the stream opens (none otherwise), and fires the callback once per detected frame read |
| WakeWord.Listen | Jarvis_v1/core/wake-word.py:87-102 | The loop reads up to the stop request or the end of the frames, fires on exactly the detected frames read, and leaves the detector stopped |
| AudioListener.WakeReaction | Jarvis_v1/core/audio-listener.py:44-66 | Every wake-up first says "Yes?" and then listens |
| AudioListener.WakeReactionCases | Jarvis_v1/core/audio-listener.py:58-63 | A non-empty transcript reaches a stored callback exactly once; an empty one is answered "I didn't hear anything" and never dispatched; without a callback a transcript is dropped |
| AudioListener.WakeCallback | Jarvis_v1/core/audio-listener.py:44-66 | When the stream fails to open only "Yes?" is said and the error is swallowed; otherwise the transcript is what the ten-second capture of the frames was heard as, the reaction follows it, and silence throughout means "I didn't hear anything" |
| AudioListener.Start | Jarvis_v1/core/audio-listener.py:78-97 | Start while running changes nothing; otherwise it stores the callback and sets the running flag |
| AudioListener.StartTwiceKeepsFirst | Jarvis_v1/core/audio-listener.py:85-90 | A second start keeps the first callback |
| AudioListener.Stop | Jarvis_v1/core/audio-listener.py:99-115 | Stop clears the running flag, stops the detector and the recording, and keeps the callback |
| AudioListener.Cleanup | Jarvis_v1/core/audio-listener.py:142-155 | Cleanup leaves the detector, the recorder and the speech engine all released |
| AudioListener.StopAndCleanupIdempotent | Jarvis_v1/core/audio-listener.py:99-155 | Stop and cleanup may be repeated |
| AudioListener.ListenWorker | Jarvis_v1/core/audio-listener.py:68-76 | A running detector is left alone; a detector that cannot be created stops the listener with no wake-ups; otherwise the worker wakes exactly on the detected frames read before the stop request, and none when no stream opens |
| AudioListener.SayText | Jarvis_v1/core/audio-listener.py:117-127 | `say` never returns a file, because it never asks to save one |
| AudioListener.ListenOnce | Jarvis_v1/core/audio-listener.py:129-140 | "Listening" is said first; a stream that fails to open raises to the caller; otherwise the result is what the ten-second capture of the frames was heard as, and silence gives `""` |
| AudioListener.Initialize | Jarvis_v1/core/audio-listener.py:25-42 | Initialisation succeeds exactly when the wake-word detector does, with its selected keyword and audio; a failed detector is cleaned up and nothing else changes; speech-to-text and text-to-speech failures are only logged, and the speech engine is held as text-to-speech initialisation leaves it |
| AudioListener.InitializeIgnoresSpeechFailures | Jarvis_v1/core/audio-listener.py:25-42 | Whether speech-to-text or text-to-speech initialise does not change whether the listener initialises or its detector |
| ControlPlane.Initialize | Jarvis_v1/mcp/mcp-controller.py:30-59 | Services are created in order and the processor is wired to the listener; success exactly when none of the four creation steps raises; services created before a failure stay; the processor is wired after success, or when a failed run did not get to replace an already wired one |
| ControlPlane.WiringNeverFails | Jarvis_v1/core/command-processor.py:29-51 | Wiring the processor to the listener cannot fail, because the processor's own initialisation catches every exception |
| ControlPlane.StopSteps | Jarvis_v1/mcp/mcp-controller.py:108-127 | Shutdown stops the listener, API server and scheduler that exist, in that order, then joins threads, then cleans up the listener |
| ControlPlane.Stop | Jarvis_v1/mcp/mcp-controller.py:98-134 | Stop when not running returns true and does nothing; otherwise it clears the flag first, and succeeds exactly when every shutdown step ran |
| ControlPlane.StopOrdered | Jarvis_v1/mcp/mcp-controller.py:98-134 | Whatever raises, the steps taken are in shutdown order, and a second stop does nothing |
| ControlPlane.SignalHandler | Jarvis_v1/mcp/mcp-controller.py:183-186 | A signal leaves the plane stopped |
| ControlPlane.SignalAfterStopIsNoop | Jarvis_v1/mcp/mcp-controller.py:183-186 | A signal after a completed stop does nothing |
| ControlPlane.StartFault | Jarvis_v1/mcp/mcp-controller.py:69-96 | Start fails exactly when a step raises or the listener or processor is missing |
| ControlPlane.Start | Jarvis_v1/mcp/mcp-controller.py:61-96 | Start when running returns true and does nothing; success sets the flag after all four steps; a failure runs stop and returns false with the flag cleared |
| ControlPlane.FrontEndsShareHandler | Jarvis_v1/mcp/mcp-controller.py:144-166 | Every handler that the API server, the scheduler or the audio listener is given during start is the command processor's `process_command`, so all front ends share one handler |
| ControlPlane.FailedStartUnwinds | Jarvis_v1/mcp/mcp-controller.py:93-96 | A failed start leaves the plane as it was before, stopped, and the shutdown it ran is in order |
| ControlPlane.RetryAfterFailedStart | Jarvis_v1/mcp/mcp-controller.py:61-96 | After a failed start a retry is not a no-op, and it succeeds exactly when the listener and processor exist |
| ControlPlane.ProcessCommand | Jarvis_v1/mcp/mcp-controller.py:168-181 | Without a processor the reply is "Command processor is not available"; otherwise the processor's reply, using its handler table only once initialisation wired it |
| ControlPlane.InitializedProcessesCommands | Jarvis_v1/mcp/mcp-controller.py:52 | After a successful initialisation, commands reach the processor and its replies are spoken |
| ControlPlane.UnwiredProcessorFallsBack | Jarvis_v1/mcp/mcp-controller.py:30-59 | When initialisation fails after creating the processor but before wiring it, even on a plane that was wired before, the new processor's empty handler table answers every hashable intent as a general query and nothing is spoken |

## Left out

- Network, audio and model I/O is left out: HTTP requests, PyAudio streams, Whisper, Porcupine, Piper, Coqui, `json.loads` and the language model. Each is an oracle parameter.
- The language-model client (Jarvis_v1/core/llm-integration.py) is left out. It is the `Generator` oracle, which answers `""` on failure.
- The HTTP front-end (Jarvis_v1/api/), the command-line entry points and the settings module are left out. They are plumbing around a callback call.
- Threads and concurrency are modelled sequentially. Another thread's `stop()` is a `stopAt` read count, and thread joins are recorded as one step.
- Floating point is left out: JSON numbers are integers, and the mean-amplitude silence test is a per-frame boolean.
- Python's `str()` of lists and dicts is the decoder's text, not computed. Case-folding and whitespace cover ASCII only.
- HomeAssistant.GetEntities: every fetched entity is assumed to carry a string "state". A record without one raises after `entities_cache` was already replaced, so the caches would disagree; the model's caches always agree, so that path is not modelled.
- HomeAssistant.GetEntity: the same assumption. A fetched record without "state" raises after it was stored in `entities_cache` but not in `states_cache`, which the model does not represent.
- Handlers reach Home Assistant and the media controller through oracle records. The link to the `HomeAssistant` cache model and the `Media` controller model is not modelled.
- HomeHandlers.LightControl: its fallback reply "Light control command completed" is not modelled. All calls succeeding with an unrecognised action means no calls, and then indexing the empty name list raises first.
- HomeHandlers.ClimateControl: its fallback "Climate control command completed" is unreachable for the same reason and is not modelled.
- SpeechToText.RecordAudio: it models the loop after the stream has opened; a failed open is the `openOk` parameter of `ListenAndTranscribe`. The recording flag it sets on entry and clears on return is not returned, so the flag left set by a failed open is not modelled either. A `stop_recording` during the loop is the `stopAt` parameter.
- WakeWord.Start: the detection loop runs until a read fails or `stop()` is called, so the finite frame list ends in a failing read.
- ControlPlane.Stop: only the order of shutdown steps is modelled. Whether an individual service's `stop` raises is a step index, not a property of that service.
- TextToSpeech.Speak: playback errors are swallowed by `play_audio_file` and do not change the result, so playback is not modelled further.
- Camera images, the current-track query and the task scheduler's own behaviour are not part of this model.

=== FILE: audio_listener.dfy ===
/** `AudioListener`: the wake word detector, speech-to-text and text-to-speech put together.
    What a wake-up does is recorded as a trace of events. */
module AudioListener {
  import opened Base
  import WakeWord
  import SpeechToText
  import TextToSpeech

  /** One visible step of the listener: something spoken, a capture-and-transcribe, or a
      transcript handed to the command callback. */
  datatype Event = Say(text: string) | Listen | Dispatch(command: string)

  const Acknowledge := "Yes?"
  const NothingHeard := "I didn't hear anything"
  const ListeningPrompt := "Listening"

  /** What `_wake_word_callback` does once the transcript is known; `hasCallback` says
      whether a command callback is stored. */
  function WakeReaction(transcript: string, hasCallback: bool): (trace: seq<Event>)
    ensures |trace| >= 2 && trace[0] == Say(Acknowledge) && trace[1] == Listen
  {
    [Say(Acknowledge), Listen]
      + (if transcript != "" && hasCallback then [Dispatch(transcript)]
         else if transcript == "" then [Say(NothingHeard)]
         else [])
  }

  /** The number of commands a trace hands to the callback. */
  function Dispatches(trace: seq<Event>): (n: nat)
    ensures n <= |trace|
  {
    if |trace| == 0 then 0 else Dispatches(trace[..|trace| - 1]) + (if trace[|trace| - 1].Dispatch? then 1 else 0)
  }

  /** Every wake-up acknowledges first; a non-empty transcript reaches the callback exactly
      once when one is stored; an empty transcript is answered and never dispatched; a
      non-empty transcript without a callback is dropped silently. */
  lemma WakeReactionCases(transcript: string, hasCallback: bool)
    ensures var trace := WakeReaction(transcript, hasCallback);
      && (transcript != "" && hasCallback ==>
            trace == [Say(Acknowledge), Listen, Dispatch(transcript)] && Dispatches(trace) == 1)
      && (transcript == "" ==>
            trace == [Say(Acknowledge), Listen, Say(NothingHeard)] && Dispatches(trace) == 0)
      && (transcript != "" && !hasCallback ==>
            trace == [Say(Acknowledge), Listen] && Dispatches(trace) == 0)
  {
    var opening := [Say(Acknowledge), Listen];
    DispatchesAppend([Say(Acknowledge)], [Listen]);
    assert [Say(Acknowledge)] + [Listen] == opening;
    var rest := WakeReaction(transcript, hasCallback)[2..];
    assert WakeReaction(transcript, hasCallback) == opening + rest;
    DispatchesAppend(opening, rest);
  }

  /** The dispatches of two traces run one after the other add up. */
  lemma {:induction false} DispatchesAppend(a: seq<Event>, b: seq<Event>)
    ensures Dispatches(a + b) == Dispatches(a) + Dispatches(b)
    decreases |b|
  {
    if |b| == 0 {
      assert a + b == a;
    } else {
      var front := b[..|b| - 1];
      assert (a + b)[..|a + b| - 1] == a + front;
      DispatchesAppend(a, front);
    }
  }

  /** `_wake_word_callback()`: acknowledge, capture and transcribe from `mic` with the
      ten-second maximum, then react to the transcript. `openOk` says whether the microphone
      stream opens; when it does not, the exception is caught by the callback's own handler
      after the acknowledgement, so nothing else is said or dispatched. */
  method WakeCallback(mic: seq<SpeechToText.Frame>, openOk: bool, stopAt: Option<nat>, whisper: SpeechToText.Whisper, hasCallback: bool)
    returns (trace: seq<Event>, captured: seq<SpeechToText.Frame>, transcript: Try<string>)
    ensures !openOk ==> trace == [Say(Acknowledge)] && captured == [] && transcript == Raised
    ensures openOk ==> SpeechToText.Recorded(mic, SpeechToText.ChunksFor(SpeechToText.ListenMs), SpeechToText.ChunksFor(SpeechToText.SilenceMs), stopAt, captured)
    ensures openOk ==> transcript == Ok(SpeechToText.Heard(captured, whisper))
    ensures openOk ==> trace == WakeReaction(transcript.value, hasCallback)
    ensures openOk && (forall k :: 0 <= k < |mic| ==> mic[k].samples == []) ==> trace == [Say(Acknowledge), Listen, Say(NothingHeard)]
  {
    captured, transcript := SpeechToText.ListenAndTranscribe(mic, openOk, stopAt, whisper);
    if transcript.Raised? {
      trace := [Say(Acknowledge)];
    } else {
      trace := WakeReaction(transcript.value, hasCallback);
      WakeReactionCases(transcript.value, hasCallback);
    }
  }

  /** The listener's state: the running flag, the stored command callback (identified by a
      number), and the state of its three components. */
  datatype Listener = Listener(
    running: bool,
    callback: Option<nat>,
    detector: WakeWord.Detector,
    recorder: SpeechToText.Recorder,
    speech: TextToSpeech.Resources)

  /** `start(command_callback)`: a no-op while running; otherwise stores the callback and sets
      the running flag (the worker thread is `ListenWorker`). */
  function Start(l: Listener, callback: nat): (s: Listener)
    ensures l.running ==> s == l
    ensures !l.running ==> s == l.(running := true, callback := Some(callback))
    ensures s.running
  {
    if l.running then l else l.(callback := Some(callback), running := true)
  }

  /** A second `start` keeps the first callback. */
  lemma StartTwiceKeepsFirst(l: Listener, first: nat, second: nat)
    requires !l.running
    ensures Start(Start(l, first), second).callback == Some(first)
  {
  }

  /** `stop()`: clears the running flag, stops the detector and the recording; the thread
      join is not modelled. */
  function Stop(l: Listener): (s: Listener)
    ensures !s.running && !s.detector.running && !s.detector.stream && !s.recorder.recording
    ensures s.callback == l.callback && s.speech == l.speech
  {
    l.(running := false, detector := WakeWord.Stop(l.detector), recorder := SpeechToText.StopRecording(l.recorder))
  }

  /** `cleanup()`: `stop()`, then the detector's, the recorder's and the speech engine's
      cleanups. */
  function Cleanup(l: Listener): (s: Listener)
    ensures !s.running && s.detector.engine.None? && !s.detector.audio
    ensures !s.recorder.recording && !s.recorder.audioOpen
    ensures !s.speech.engine && !s.speech.audio
  {
    var stopped := Stop(l);
    stopped.(
      detector := WakeWord.Cleanup(stopped.detector),
      recorder := SpeechToText.Cleanup(stopped.recorder),
      speech := TextToSpeech.Cleanup(stopped.speech))
  }

  /** Stopping and cleaning up may be repeated. */
  lemma StopAndCleanupIdempotent(l: Listener)
    ensures Stop(Stop(l)) == Stop(l)
    ensures Cleanup(Cleanup(l)) == Cleanup(l)
  {
    WakeWord.StopAndCleanupIdempotent(l.detector);
    SpeechToText.StopAndCleanupIdempotent(l.recorder);
  }

  /** `_listen_worker()`: runs the detector with the wake-up callback (always callable) and
      stops the listener when the detector raises. Returns the frames that woke it. */
  method ListenWorker(l: Listener, cfg: WakeWord.Config, openOk: bool, frames: seq<int>, stopAt: Option<nat>)
    returns (after: Listener, wakes: seq<nat>)
    ensures l.detector.running ==> after == l && wakes == []
    ensures !l.detector.running && l.detector.engine.None? && !cfg.createOk ==>
      wakes == [] && after == Stop(l.(detector := WakeWord.Cleanup(l.detector)))
    ensures !l.detector.running && (l.detector.engine.Some? || cfg.createOk) ==>
      && after == l.(detector := WakeWord.Detector(WakeWord.EngineFor(l.detector, cfg), WakeWord.AudioFor(l.detector), false, false, true))
      && wakes == (if WakeWord.AudioFor(l.detector) && openOk
                   then WakeWord.Detections(frames[..WakeWord.Reads(frames, stopAt)]) else [])
  {
    var r := WakeWord.Start(l.detector, cfg, true, openOk, frames, stopAt);
    wakes := r.fired;
    if r.raised {
      after := Stop(l.(detector := r.after));
    } else {
      after := l.(detector := r.after);
    }
  }

  /** `say(text)`: speaks without saving, so it never returns a file. */
  function SayText(model: string, text: string, temp: string, run: TextToSpeech.SynthRequest -> bool, exists_: string -> bool): (r: Option<string>)
    ensures r.None?
  {
    TextToSpeech.Speak(model, text, "", temp, run, exists_).returned
  }

  /** `listen_once()`: says "Listening", then returns the transcript of one capture with the
      ten-second maximum. Nothing catches a microphone stream that fails to open (`openOk`
      false), so the exception reaches the caller. */
  method ListenOnce(mic: seq<SpeechToText.Frame>, openOk: bool, stopAt: Option<nat>, whisper: SpeechToText.Whisper)
    returns (trace: seq<Event>, captured: seq<SpeechToText.Frame>, transcript: Try<string>)
    ensures !openOk ==> trace == [Say(ListeningPrompt)] && captured == [] && transcript == Raised
    ensures openOk ==> trace == [Say(ListeningPrompt), Listen]
    ensures openOk ==> SpeechToText.Recorded(mic, SpeechToText.ChunksFor(SpeechToText.ListenMs), SpeechToText.ChunksFor(SpeechToText.SilenceMs), stopAt, captured)
    ensures openOk ==> transcript == Ok(SpeechToText.Heard(captured, whisper))
    ensures openOk && (forall k :: 0 <= k < |mic| ==> mic[k].samples == []) ==> transcript == Ok("")
  {
    captured, transcript := SpeechToText.ListenAndTranscribe(mic, openOk, stopAt, whisper);
    trace := if openOk then [Say(ListeningPrompt), Listen] else [Say(ListeningPrompt)];
  }

  /** `initialize()`: initialises the detector, speech-to-text and text-to-speech in that
      order. Only the detector raises; the other two catch their own errors and answer
      `false`, which is ignored, so the result is whether the detector came up. `sttOk` says
      whether speech-to-text opened its audio interface; `ttsModel` and `tts` are the
      text-to-speech model setting and what its initialisation meets. */
  function Initialize(l: Listener, cfg: WakeWord.Config, sttOk: bool, ttsModel: string, tts: TextToSpeech.Setup): (r: (bool, Listener))
    ensures r.0 <==> cfg.createOk
    ensures cfg.createOk ==> r.1.detector.engine == Some(WakeWord.SelectKeyword(cfg.keywordPath, cfg.exists_)) && r.1.detector.audio
    ensures !cfg.createOk ==> r.1 == l.(detector := WakeWord.Cleanup(l.detector))
    ensures cfg.createOk ==> r.1.recorder.audioOpen == (sttOk || l.recorder.audioOpen)
    ensures cfg.createOk ==> r.1.speech.audio == (l.speech.audio || (tts.engineOk && tts.audioOk))
    ensures cfg.createOk ==> r.1.speech.engine == (l.speech.engine || (TextToSpeech.SelectEngine(ttsModel) == TextToSpeech.Coqui && tts.engineOk))
    ensures r.1.running == l.running && r.1.callback == l.callback
  {
    match WakeWord.Initialize(l.detector, cfg)
    case Raised => (false, l.(detector := WakeWord.Cleanup(l.detector)))
    case Ok(d) =>
      var recorder := if sttOk then l.recorder.(audioOpen := true) else l.recorder;
      var speech := TextToSpeech.Initialize(l.speech, ttsModel, tts).1;
      (true, l.(detector := d, recorder := recorder, speech := speech))
  }

  /** A speech component that fails to come up does not fail the listener: only the detector
      decides the result. */
  lemma InitializeIgnoresSpeechFailures(l: Listener, cfg: WakeWord.Config, sttOk: bool, ttsModel: string, tts: TextToSpeech.Setup)
    ensures Initialize(l, cfg, sttOk, ttsModel, tts).0 == Initialize(l, cfg, true, ttsModel, TextToSpeech.Setup(true, true)).0
    ensures Initialize(l, cfg, sttOk, ttsModel, tts).1.detector == Initialize(l, cfg, true, ttsModel, TextToSpeech.Setup(true, true)).1.detector
  {
  }
}

=== FILE: base.dfy ===
/** Optional values, shared by every module of the model. */
module Base {

  /** A value that may be absent: Python's `None` versus a present value. */
  datatype Option<+T> = None | Some(value: T) {

    /** The present value, or `default` when absent. */
    function GetOr(default: T): T {
      match this
      case Some(v) => v
      case None => default
    }
  }

  /** The outcome of a Python computation that may raise: the model never follows an
      exception's type or message, only the fact that one escaped. */
  datatype Try<+T> = Ok(value: T) | Raised {

    /** The result, or `fallback` when an exception escaped (an `except` clause returning it). */
    function Catch(fallback: T): T {
      match this
      case Ok(v) => v
      case Raised => fallback
    }
  }
}

=== FILE: command_processor.dfy ===
/** `CommandProcessor.process_command`: parse the command, look the intent up in the
    handler table, run the handler, and speak the reply when an audio listener is attached. */
module CommandProcessor {
  import opened Base
  import opened Text
  import opened Values
  import opened IntentParse
  import HomeHandlers
  import MediaHandlers
  import InfoHandlers

  /** The twelve intents of the handler table. */
  datatype Intent =
    | LightControl | ClimateControl | SwitchControl | DeviceStatus
    | PlayMusic | MediaControl | VolumeControl | TvControl
    | Weather | Time | GeneralQuery | SystemControl

  /** The table key of each intent. */
  function Tag(i: Intent): string {
    match i
    case LightControl => "light_control"
    case ClimateControl => "climate_control"
    case SwitchControl => "switch_control"
    case DeviceStatus => "device_status"
    case PlayMusic => "play_music"
    case MediaControl => "media_control"
    case VolumeControl => "volume_control"
    case TvControl => "tv_control"
    case Weather => "weather"
    case Time => "time"
    case GeneralQuery => "general_query"
    case SystemControl => "system_control"
  }

  /** The keys of the handler table, in registration order. */
  const Table: seq<string> := [
    "light_control", "climate_control", "switch_control", "device_status",
    "play_music", "media_control", "volume_control", "tv_control",
    "weather", "time", "general_query", "system_control"]

  /** The intent registered under a key, if any. */
  function FromTag(s: string): (r: Option<Intent>)
    ensures r.Some? ==> Tag(r.value) == s
    ensures r.Some? <==> s in Table
  {
    if s == "light_control" then Some(LightControl)
    else if s == "climate_control" then Some(ClimateControl)
    else if s == "switch_control" then Some(SwitchControl)
    else if s == "device_status" then Some(DeviceStatus)
    else if s == "play_music" then Some(PlayMusic)
    else if s == "media_control" then Some(MediaControl)
    else if s == "volume_control" then Some(VolumeControl)
    else if s == "tv_control" then Some(TvControl)
    else if s == "weather" then Some(Weather)
    else if s == "time" then Some(Time)
    else if s == "general_query" then Some(GeneralQuery)
    else if s == "system_control" then Some(SystemControl)
    else None
  }

  /** The table has twelve distinct keys, one per intent, and every key leads back to its
      intent. */
  lemma TableComplete(i: Intent)
    ensures |Table| == 12
    ensures forall a, b :: 0 <= a < b < |Table| ==> Table[a] != Table[b]
    ensures Tag(i) in Table
    ensures FromTag(Tag(i)) == Some(i)
  {
  }

  /** `intent in self.handlers` for a decoded intent. `registered` says whether
      `initialize` has filled the table; until then it is empty. A list or dict raises
      `TypeError` (unhashable) even on the empty table; a string finds its entry when there
      is one; nothing else is ever a key. */
  function Lookup(intent: Value, registered: bool): (r: Try<Option<Intent>>)
    ensures r.Raised? <==> !Hashable(intent)
    ensures r.Ok? && r.value.Some? <==> registered && intent.Str? && intent.s in Table
    ensures r.Ok? && r.value.Some? ==> intent == Str(Tag(r.value.value))
  {
    if !Hashable(intent) then Raised
    else if registered && intent.Str? then Ok(FromTag(intent.s))
    else Ok(None)
  }

  /** Everything a command can reach: the Home Assistant client and media controller (absent
      when they could not be created), the clock, the text generator and the JSON decoder. */
  datatype Env = Env(
    home: Option<HomeHandlers.Home>,
    media: Option<MediaHandlers.MediaEnv>,
    clock: InfoHandlers.Clock,
    llm: Generator,
    decode: Decoder)

  /** Run the handler registered for an intent: each key of the table is bound to its own
      handler, which gets the parsed parameters and the integration it needs. */
  function Handle(i: Intent, env: Env, p: Params): (reply: string)
    ensures i == LightControl ==> reply == HomeHandlers.LightControl(env.home, p)
    ensures i == ClimateControl ==> reply == HomeHandlers.ClimateControl(env.home, p)
    ensures i == SwitchControl ==> reply == HomeHandlers.SwitchControl(env.home, p)
    ensures i == DeviceStatus ==> reply == HomeHandlers.DeviceStatus(env.home, p)
    ensures i == PlayMusic ==> reply == MediaHandlers.PlayMusic(env.media, p)
    ensures i == MediaControl ==> reply == MediaHandlers.MediaControl(env.media, p)
    ensures i == VolumeControl ==> reply == MediaHandlers.VolumeControl(env.media, p)
    ensures i == TvControl ==> reply == InfoHandlers.TvControl(p)
    ensures i == Weather ==> reply == HomeHandlers.Weather(env.home)
    ensures i == Time ==> reply == InfoHandlers.Time(env.clock, p)
    ensures i == GeneralQuery ==> reply == InfoHandlers.GeneralQuery(env.llm, p)
    ensures i == SystemControl ==> reply == InfoHandlers.SystemControl(p)
  {
    match i
    case LightControl => HomeHandlers.LightControl(env.home, p)
    case ClimateControl => HomeHandlers.ClimateControl(env.home, p)
    case SwitchControl => HomeHandlers.SwitchControl(env.home, p)
    case DeviceStatus => HomeHandlers.DeviceStatus(env.home, p)
    case PlayMusic => MediaHandlers.PlayMusic(env.media, p)
    case MediaControl => MediaHandlers.MediaControl(env.media, p)
    case VolumeControl => MediaHandlers.VolumeControl(env.media, p)
    case TvControl => InfoHandlers.TvControl(p)
    case Weather => HomeHandlers.Weather(env.home)
    case Time => InfoHandlers.Time(env.clock, p)
    case GeneralQuery => InfoHandlers.GeneralQuery(env.llm, p)
    case SystemControl => InfoHandlers.SystemControl(p)
  }

  const ErrorReply := "Sorry, I encountered an error while processing your command."

  /** What processing a command produced: the reply and what the audio listener was asked
      to say. */
  datatype Processed = Processed(reply: string, spoken: seq<string>)

  /** `process_command(command)`; `listener` says whether an audio listener is attached,
      `registered` whether `initialize` has registered the handlers. */
  function Process(command: string, env: Env, listener: bool, registered: bool): (r: Processed)
    ensures r.spoken == (if listener then [r.reply] else [])
    ensures var parsed := Parse(command, env.llm, env.decode);
      && (!Hashable(parsed.intent) ==> r.reply == ErrorReply)
      && (registered && parsed.intent.Str? && parsed.intent.s in Table ==>
            r.reply == Handle(FromTag(parsed.intent.s).value, env, parsed.params))
      && (Hashable(parsed.intent) && !(registered && parsed.intent.Str? && parsed.intent.s in Table) ==>
            r.reply == InfoHandlers.GeneralQuery(env.llm, Dict(map["query" := Str(command)])))
  {
    var parsed := Parse(command, env.llm, env.decode);
    var reply :=
      match Lookup(parsed.intent, registered)
      case Raised => ErrorReply
      case Ok(Some(i)) => Handle(i, env, parsed.params)
      case Ok(None) => InfoHandlers.GeneralQuery(env.llm, Dict(map["query" := Str(command)]));
    Processed(reply, if listener then [reply] else [])
  }

  /** A reply can be empty: when the generator fails it answers `""` to the parsing prompt,
      the command falls back to a general query, and the empty answer to that is the reply,
      spoken as it is. */
  lemma EmptyReplyPossible(command: string, env: Env)
    requires command != ""
    requires forall q :: env.llm(q) == ""
    ensures Process(command, env, true, true) == Processed("", [""])
  {
    assert env.llm(ParseRequest(ParsePrompt(command))) == "";
    assert ExtractJson("") == None;
    assert Truthy(Str(command));
    assert env.llm(Question(Str(command))) == "";
  }

  /** A decoded object with neither "intent" nor "parameters" runs the general query on `{}`,
      which answers that it is not sure what was asked, not the command itself. */
  lemma MissingIntentNotSure(command: string, env: Env, listener: bool)
    requires var span := ExtractJson(env.llm(ParseRequest(ParsePrompt(command))));
      span.Some? && env.decode(span.value) == Some(Decoded(None, None))
    ensures Process(command, env, listener, true).reply == "I'm not sure what you're asking"
  {
    assert FromTag("general_query") == Some(GeneralQuery);
  }

  /** A system command reply is handed to the audio listener like any other reply: nothing
      here intercepts it. */
  lemma SystemCommandSpoken(command: string, env: Env, e: map<string, Value>)
    requires var span := ExtractJson(env.llm(ParseRequest(ParsePrompt(command))));
      span.Some? && env.decode(span.value).Some?
      && env.decode(span.value).value.intent == Some(Str("system_control"))
      && env.decode(span.value).value.parameters == Some(Object(e, "{}"))
    requires Get(e, "action", Str("")) == Str("shutdown")
    ensures Process(command, env, true, true).spoken == ["SYSTEM_COMMAND:SHUTDOWN"]
  {
    var parsed := Parse(command, env.llm, env.decode);
    assert parsed == Parsed(Str("system_control"), Dict(e));
    assert FromTag("system_control") == Some(SystemControl);
    assert IsOneOf(Str("shutdown"), ["stop", "shutdown", "exit"]);
    assert InfoHandlers.SystemControl(Dict(e)) == "SYSTEM_COMMAND:SHUTDOWN";
  }

  /** An intent that is a string outside the table, or a number, runs the general query on
      the original command; a list or dict intent ends in the fixed apology. */
  lemma UnknownIntentFallsBack(command: string, env: Env, listener: bool)
    requires var p := Parse(command, env.llm, env.decode); Hashable(p.intent) && !(p.intent.Str? && p.intent.s in Table)
    ensures Process(command, env, listener, true).reply ==
      (if command == "" then "I'm not sure what you're asking" else env.llm(Question(Str(command))))
  {
  }

  /** Before `initialize` the handler table is empty: every hashable intent, even one the
      table would know, runs the general query on the original command. */
  lemma UnregisteredFallsBack(command: string, env: Env, listener: bool)
    ensures var parsed := Parse(command, env.llm, env.decode);
      Process(command, env, listener, false).reply ==
        (if Hashable(parsed.intent) then InfoHandlers.GeneralQuery(env.llm, Dict(map["query" := Str(command)])) else ErrorReply)
  {
  }
}

=== FILE: control_plane.dfy ===
/** `MicroservicesControlPlane`: creating and wiring the services, starting and stopping them
    in order, and routing commands to the command processor. Threads are recorded as the
    steps that start and join them; an exception is a step index (`fault`) at which the
    step raises. */
module ControlPlane {
  import opened Base
  import CommandProcessor

  /** The objects that have a `process_command`: the command processor and the control plane
      itself (which guards against a missing processor). */
  datatype Owner = Processor | Plane

  /** The command handler a front-end is given: some object's bound `process_command`. */
  datatype Handler = ProcessCommandOf(owner: Owner)

  /** One step of `initialize`, `start` or `stop`. */
  datatype Step =
    | CreateAudio | CreateProcessor | CreateScheduler | CreateApi | WireProcessor
    | InstallSignals | StartApi(api: Handler) | StartScheduler(scheduler: Handler) | StartAudio(audio: Handler)
    | StopAudio | StopApi | StopScheduler | JoinThreads | CleanupAudio

  /** Which services exist, whether the current processor was wired to the audio listener
      (a newly created processor is not), and the running flag. */
  datatype Plane = Plane(running: bool, audio: bool, processor: bool, scheduler: bool, api: bool, wired: bool)

  /** The steps that run before a fault at `fault`: all of them when there is none. */
  function UpTo(steps: seq<Step>, fault: Option<nat>): (done: seq<Step>)
    ensures |done| <= |steps| && done == steps[..|done|]
    ensures |done| == |steps| <==> fault.None? || fault.value >= |steps|
    ensures |done| < |steps| ==> fault == Some(|done|)
  {
    if fault.Some? && fault.value < |steps| then steps[..fault.value] else steps
  }

  const InitSteps := [CreateAudio, CreateProcessor, CreateScheduler, CreateApi, WireProcessor]

  /** The steps of `initialize` that can raise: creating the four services. Wiring cannot,
      because `CommandProcessor.initialize` catches every exception itself and its result is
      ignored. */
  const RaisingInitSteps := 4

  /** `initialize()`: creates the audio listener, the command processor, the scheduler and the
      API server, then gives the processor the listener. A failure while creating a service
      ends it with `false`; the services created before it stay, the others keep their
      previous values. A processor created in a run that then fails replaces the previous
      one unwired, even when the previous one had been wired. */
  function Initialize(p: Plane, fault: Option<nat>): (r: (bool, Plane, seq<Step>))
    ensures r.0 <==> fault.None? || fault.value >= RaisingInitSteps
    ensures r.0 ==> r.2 == InitSteps
    ensures !r.0 ==> r.2 == InitSteps[..fault.value]
    ensures r.1.audio == (p.audio || CreateAudio in r.2)
    ensures r.1.processor == (p.processor || CreateProcessor in r.2)
    ensures r.1.scheduler == (p.scheduler || CreateScheduler in r.2)
    ensures r.1.api == (p.api || CreateApi in r.2)
    ensures r.1.wired == (r.0 || (p.wired && CreateProcessor !in r.2))
    ensures r.1.running == p.running
  {
    var effective := if fault.Some? && fault.value < RaisingInitSteps then fault else None;
    var done := UpTo(InitSteps, effective);
    forall k | 0 <= k < |InitSteps|
      ensures InitSteps[k] in done <==> k < |done|
    {
      assert Order(InitSteps[k]) == k;
      if k < |done| {
        assert done[k] == InitSteps[k];
      }
    }
    assert InitSteps[0] == CreateAudio && InitSteps[1] == CreateProcessor && InitSteps[2] == CreateScheduler;
    assert InitSteps[3] == CreateApi && InitSteps[4] == WireProcessor;
    var q := p.(
      audio := p.audio || |done| > 0,
      processor := p.processor || |done| > 1,
      scheduler := p.scheduler || |done| > 2,
      api := p.api || |done| > 3,
      wired := (p.wired && |done| <= 1) || |done| > 4);
    (|done| == |InitSteps|, q, done)
  }

  /** Wiring the processor never fails: a fault named at the wiring step or later leaves
      `initialize` exactly as without one. */
  lemma WiringNeverFails(p: Plane, fault: nat)
    requires fault >= RaisingInitSteps
    ensures Initialize(p, Some(fault)) == Initialize(p, None)
  {
  }

  /** The position of a step in the order `initialize`, `start` and `stop` take them. */
  function Order(s: Step): nat {
    match s
    case CreateAudio => 0
    case CreateProcessor => 1
    case CreateScheduler => 2
    case CreateApi => 3
    case WireProcessor => 4
    case InstallSignals => 5
    case StartApi(_) => 6
    case StartScheduler(_) => 7
    case StartAudio(_) => 8
    case StopAudio => 9
    case StopApi => 10
    case StopScheduler => 11
    case JoinThreads => 12
    case CleanupAudio => 13
  }

  /** Each step comes strictly after the ones before it in the shutdown order. */
  predicate Ranked(steps: seq<Step>) {
    forall i, j :: 0 <= i < j < |steps| ==> Order(steps[i]) < Order(steps[j])
  }

  /** Every shutdown step, in order. */
  const Shutdown := [StopAudio, StopApi, StopScheduler, JoinThreads, CleanupAudio]

  /** Whether `stop` takes a shutdown step: the listener, API server and scheduler steps need
      their service. */
  predicate Applies(p: Plane, s: Step) {
    match s
    case StopAudio => p.audio
    case CleanupAudio => p.audio
    case StopApi => p.api
    case StopScheduler => p.scheduler
    case _ => true
  }

  /** The steps of `steps` that apply to `p`, in their order. */
  function Applicable(p: Plane, steps: seq<Step>): (kept: seq<Step>)
    ensures forall s :: s in kept <==> s in steps && Applies(p, s)
    ensures Ranked(steps) ==> Ranked(kept)
  {
    if |steps| == 0 then []
    else
      var front := steps[..|steps| - 1];
      var last := steps[|steps| - 1];
      var kept := Applicable(p, front);
      RankedBeforeLast(steps, kept);
      if Applies(p, last) then kept + [last] else kept
  }

  /** In ranked steps, whatever was drawn from the steps before the last one ranks below it. */
  lemma RankedBeforeLast(steps: seq<Step>, drawn: seq<Step>)
    requires |steps| > 0
    requires forall s :: s in drawn ==> s in steps[..|steps| - 1]
    ensures Ranked(steps) ==> forall x :: x in drawn ==> Order(x) < Order(steps[|steps| - 1])
  {
    if Ranked(steps) {
      forall x | x in drawn
        ensures Order(x) < Order(steps[|steps| - 1])
      {
        var i :| 0 <= i < |steps| - 1 && steps[..|steps| - 1][i] == x;
        assert steps[i] == x;
      }
    }
  }

  /** The steps `stop` goes through when nothing raises. */
  function StopSteps(p: Plane): (steps: seq<Step>)
    ensures Ranked(steps)
    ensures JoinThreads in steps
    ensures StopAudio in steps <==> p.audio
    ensures StopApi in steps <==> p.api
    ensures StopScheduler in steps <==> p.scheduler
    ensures CleanupAudio in steps <==> p.audio
  {
    assert Shutdown[3] == JoinThreads;
    Applicable(p, Shutdown)
  }

  /** `stop()`: `true` with nothing done when not running. Otherwise clears the flag first,
      then stops the audio listener, the API server and the scheduler, joins the threads and
      cleans up the listener; a step that raises ends it with `false`. */
  function Stop(p: Plane, fault: Option<nat>): (r: (bool, Plane, seq<Step>))
    ensures !p.running ==> r == (true, p, [])
    ensures !r.1.running && r.1 == p.(running := false)
    ensures p.running ==> r.2 == UpTo(StopSteps(p), fault)
    ensures p.running ==> (r.0 <==> r.2 == StopSteps(p))
  {
    if !p.running then (true, p, [])
    else
      var done := UpTo(StopSteps(p), fault);
      (|done| == |StopSteps(p)|, p.(running := false), done)
  }

  /** Whatever raises, what `stop` did is in shutdown order, and a second `stop` does
      nothing. */
  lemma StopOrdered(p: Plane, fault: Option<nat>, again: Option<nat>)
    ensures Ranked(Stop(p, fault).2)
    ensures var stopped := Stop(p, fault).1; Stop(stopped, again) == (true, stopped, [])
  {
  }

  /** `_signal_handler(sig, frame)`: a shutdown. */
  function SignalHandler(p: Plane, fault: Option<nat>): (r: (bool, Plane, seq<Step>))
    ensures !r.1.running
    ensures !p.running ==> r == (true, p, [])
  {
    Stop(p, fault)
  }

  /** A signal that arrives after a completed stop does nothing. */
  lemma SignalAfterStopIsNoop(p: Plane, fault: Option<nat>, later: Option<nat>)
    ensures SignalHandler(Stop(p, fault).1, later) == (true, Stop(p, fault).1, [])
  {
  }

  /** The steps `start` goes through; every front-end is handed the processor's command
      handler. */
  const StartSteps := [InstallSignals, StartApi(ProcessCommandOf(Processor)), StartScheduler(ProcessCommandOf(Processor)),
                       StartAudio(ProcessCommandOf(Processor))]

  /** The step of `start` that raises: the one `fault` names, or the audio listener's start
      when the listener or the processor is missing, whichever comes first. */
  function StartFault(p: Plane, fault: Option<nat>): (f: Option<nat>)
    ensures f.Some? ==> f.value < |StartSteps|
    ensures f.None? <==> (fault.None? || fault.value >= |StartSteps|) && p.audio && p.processor
  {
    var missing := !p.audio || !p.processor;
    if fault.Some? && fault.value < |StartSteps| && (!missing || fault.value < 3) then fault
    else if missing then Some(3)
    else None
  }

  /** `start()`: `true` with nothing done when already running. Otherwise sets the flag, then
      installs the signal handlers, starts the API and scheduler threads and the audio
      listener; when a step raises it calls `stop()` and answers `false`. */
  function Start(p: Plane, fault: Option<nat>, stopFault: Option<nat>): (r: (bool, Plane, seq<Step>))
    ensures p.running ==> r == (true, p, [])
    ensures !p.running ==> (r.0 <==> StartFault(p, fault).None?)
    ensures !p.running && r.0 ==> r.1 == p.(running := true) && r.2 == StartSteps
    ensures !p.running && !r.0 ==>
      && r.1 == p.(running := false)
      && r.2 == StartSteps[..StartFault(p, fault).value] + UpTo(StopSteps(p.(running := true)), stopFault)
  {
    if p.running then (true, p, [])
    else
      var q := p.(running := true);
      match StartFault(p, fault)
      case None => (true, q, StartSteps)
      case Some(k) =>
        var stopped := Stop(q, stopFault);
        (false, stopped.1, StartSteps[..k] + stopped.2)
  }

  /** The handler a step hands to a front-end, if it starts one. */
  function HandlerOf(s: Step): Option<Handler> {
    match s
    case StartApi(h) => Some(h)
    case StartScheduler(h) => Some(h)
    case StartAudio(h) => Some(h)
    case _ => None
  }

  /** Every step `start` takes is one of its own steps or a shutdown step. */
  lemma StartTraceSteps(p: Plane, fault: Option<nat>, stopFault: Option<nat>)
    ensures forall s :: s in Start(p, fault, stopFault).2 ==> s in StartSteps || s in Shutdown
  {
    var trace := Start(p, fault, stopFault).2;
    if !p.running && !Start(p, fault, stopFault).0 {
      var k := StartFault(p, fault).value;
      var steps := StopSteps(p.(running := true));
      var stops := UpTo(steps, stopFault);
      assert trace == StartSteps[..k] + stops;
      forall s | s in stops ensures s in Shutdown {
        assert s in steps;
      }
    }
  }

  /** Every front-end started is given the command processor's own `process_command`, not
      the plane's guarded one, so all of them share one handler. */
  lemma FrontEndsShareHandler(p: Plane, fault: Option<nat>, stopFault: Option<nat>)
    ensures forall s :: s in Start(p, fault, stopFault).2 && HandlerOf(s).Some? ==>
      HandlerOf(s) == Some(ProcessCommandOf(Processor))
    ensures forall s, t :: (s in Start(p, fault, stopFault).2 && t in Start(p, fault, stopFault).2
      && HandlerOf(s).Some? && HandlerOf(t).Some?) ==> HandlerOf(s) == HandlerOf(t)
  {
    StartTraceSteps(p, fault, stopFault);
    assert forall s :: s in Shutdown ==> HandlerOf(s).None?;
    assert forall s :: s in StartSteps && HandlerOf(s).Some? ==> HandlerOf(s) == Some(ProcessCommandOf(Processor));
  }

  /** A failed start leaves the plane stopped, with its shutdown steps in order. */
  lemma FailedStartUnwinds(p: Plane, fault: Option<nat>, stopFault: Option<nat>)
    requires !p.running && !Start(p, fault, stopFault).0
    ensures Start(p, fault, stopFault).1 == p
    ensures Ranked(Start(p, fault, stopFault).2[StartFault(p, fault).value..])
  {
    var k := StartFault(p, fault).value;
    var steps := StopSteps(p.(running := true));
    var stops := UpTo(steps, stopFault);
    var trace := Start(p, fault, stopFault).2;
    assert trace == StartSteps[..k] + stops;
    assert |StartSteps[..k]| == k;
    assert trace[k..] == stops;
    RankedPrefix(steps, |stops|);
  }

  /** After a failed start the plane can be started again, and the retry succeeds exactly
      when the listener and the processor exist. */
  lemma RetryAfterFailedStart(p: Plane, fault: Option<nat>, stopFault: Option<nat>, retryStop: Option<nat>)
    requires !p.running && !Start(p, fault, stopFault).0
    ensures Start(Start(p, fault, stopFault).1, None, retryStop).0 <==> p.audio && p.processor
  {
    FailedStartUnwinds(p, fault, stopFault);
  }

  /** A prefix of steps in shutdown order is in shutdown order. */
  lemma RankedPrefix(steps: seq<Step>, n: nat)
    requires Ranked(steps) && n <= |steps|
    ensures Ranked(steps[..n])
  {
    forall i, j | 0 <= i < j < n
      ensures Order(steps[..n][i]) < Order(steps[..n][j])
    {
      assert steps[..n][i] == steps[i] && steps[..n][j] == steps[j];
    }
  }

  const Unavailable := "Command processor is not available"

  /** `process_command(command)`: the processor's reply; a fixed notice when there is no
      processor. The processor's `initialize` both attaches the audio listener and registers
      the handlers, so an unwired processor neither speaks nor knows any intent. */
  function ProcessCommand(p: Plane, command: string, env: CommandProcessor.Env): (reply: string)
    ensures !p.processor ==> reply == Unavailable
    ensures p.processor ==> reply == CommandProcessor.Process(command, env, p.wired, p.wired).reply
  {
    if !p.processor then Unavailable else CommandProcessor.Process(command, env, p.wired, p.wired).reply
  }

  /** A processor that was created but not initialised, because a later step of
      `initialize` raised, does not speak and knows no intent: every hashable intent runs the
      general query on the command. This holds even when an earlier `initialize` had wired
      the processor it replaced. */
  lemma UnwiredProcessorFallsBack(p: Plane, fault: nat, command: string, env: CommandProcessor.Env)
    requires 2 <= fault < RaisingInitSteps
    ensures var q := Initialize(p, Some(fault)).1;
      && q.processor && !q.wired
      && ProcessCommand(q, command, env) == CommandProcessor.Process(command, env, false, false).reply
      && CommandProcessor.Process(command, env, false, false).spoken == []
  {
    var done := UpTo(InitSteps, Some(fault));
    assert done == InitSteps[..fault];
    assert done[1] == CreateProcessor;
  }

  /** Once `initialize` has succeeded, commands reach the processor, and its replies are
      spoken. */
  lemma InitializedProcessesCommands(p: Plane, command: string, env: CommandProcessor.Env)
    ensures var q := Initialize(p, None).1;
      && ProcessCommand(q, command, env) == CommandProcessor.Process(command, env, true, true).reply
      && CommandProcessor.Process(command, env, q.wired, q.wired).spoken == [ProcessCommand(q, command, env)]
  {
    var done := UpTo(InitSteps, None);
    assert done == InitSteps;
    assert CreateProcessor == done[1] && WireProcessor == done[4];
  }
}

=== FILE: home_assistant.dfy ===
/** The Home Assistant REST client: its entity and state caches, the domain-and-name entity
    filter, and the cache refresh that follows a successful service call. Every HTTP request
    is an oracle: the model receives what the request returned (`None` when the status was
    not 200 or the request raised). */
module HomeAssistant {
  import opened Base
  import opened Text
  import opened Values

  /** An entity as `/api/states` reports it; a missing `attributes` entry is the empty map.
      Every reported entity carries a string `state`. */
  datatype Entity = Entity(id: string, state: string, attributes: map<string, Value>)

  /** The client's `entities_cache` (ids in dict insertion order, plus the id-to-entity map)
      and its `states_cache`. */
  datatype Client = Client(order: seq<string>, entities: map<string, Entity>, states: map<string, string>)

  /** A freshly constructed client: both caches empty. */
  const Fresh := Client([], map[], map[])

  /** The state cache holds exactly the cached ids, each with its cached entity's state. */
  predicate StatesAgree(c: Client) {
    && c.states.Keys == c.entities.Keys
    && forall id :: id in c.entities ==> c.states[id] == c.entities[id].state
  }

  /** The insertion order lists every cached id exactly once, and the caches agree. */
  predicate Valid(c: Client) {
    && (forall i, j :: 0 <= i < j < |c.order| ==> c.order[i] != c.order[j])
    && (forall id :: id in c.order ==> id in c.entities)
    && (forall id :: id in c.entities ==> id in c.order)
    && StatesAgree(c)
  }

  /** `entities_cache[key] = e; states_cache[key] = e["state"]`: a new key goes to the end
      of the insertion order, an existing key keeps its place. */
  function Store(c: Client, key: string, e: Entity): (r: Client)
    requires Valid(c)
    ensures Valid(r)
    ensures r.entities == c.entities[key := e]
    ensures key in c.entities ==> r.order == c.order
    ensures key !in c.entities ==> r.order == c.order + [key]
  {
    var order := if key in c.entities then c.order else c.order + [key];
    Client(order, c.entities[key := e], c.states[key := e.state])
  }

  /** The caches `get_entities` builds from a fetched list with two dict comprehensions. */
  function Rebuild(es: seq<Entity>): (r: Client)
    ensures Valid(r)
  {
    if |es| == 0 then Fresh
    else Store(Rebuild(es[..|es| - 1]), es[|es| - 1].id, es[|es| - 1])
  }

  /** After a fetch the entity cache holds exactly the fetched ids. */
  lemma {:induction false} RebuildKeys(es: seq<Entity>)
    ensures forall id :: id in Rebuild(es).entities <==> exists k :: 0 <= k < |es| && es[k].id == id
  {
    if |es| > 0 {
      var init := es[..|es| - 1];
      RebuildKeys(init);
      forall id | id in Rebuild(es).entities
        ensures exists k :: 0 <= k < |es| && es[k].id == id
      {
        if id != es[|es| - 1].id {
          var k :| 0 <= k < |init| && init[k].id == id;
          assert es[k].id == id;
        }
      }
      forall k | 0 <= k < |es| ensures es[k].id in Rebuild(es).entities {
        if k < |es| - 1 {
          assert init[k] == es[k];
        }
      }
    }
  }

  /** Each fetched id is cached with the LAST fetched entity carrying it, and the state cache
      holds that entity's state. */
  lemma {:induction false} RebuildKeepsLastOccurrence(es: seq<Entity>, k: nat)
    requires k < |es|
    requires forall k' :: k < k' < |es| ==> es[k'].id != es[k].id
    ensures es[k].id in Rebuild(es).entities
    ensures Rebuild(es).entities[es[k].id] == es[k]
    ensures Rebuild(es).states[es[k].id] == es[k].state
  {
    if k < |es| - 1 {
      var init := es[..|es| - 1];
      assert init[k] == es[k];
      RebuildKeepsLastOccurrence(init, k);
    }
  }

  /** `list(entities_cache.values())`, in insertion order. */
  function CachedList(c: Client): (r: seq<Entity>)
    requires Valid(c)
    ensures |r| == |c.order|
    ensures forall i :: 0 <= i < |r| ==> r[i] == c.entities[c.order[i]]
  {
    seq(|c.order|, i requires 0 <= i < |c.order| => c.entities[c.order[i]])
  }

  /** `get_entities(force_refresh)`. A non-empty cache answers unless `force` is set;
      otherwise `fetched` is the result of `GET /api/states`. */
  function GetEntities(c: Client, force: bool, fetched: Option<seq<Entity>>): (r: (seq<Entity>, Client))
    requires Valid(c)
    ensures Valid(r.1)
    ensures !force && |c.entities| > 0 ==> r == (CachedList(c), c)
    ensures (force || |c.entities| == 0) && fetched.None? ==> r == ([], c)
    ensures (force || |c.entities| == 0) && fetched.Some? ==> r == (fetched.value, Rebuild(fetched.value))
  {
    if !force && |c.entities| > 0 then (CachedList(c), c)
    else match fetched
      case None => ([], c)
      case Some(es) => (es, Rebuild(es))
  }

  /** `get_entity(entity_id, force_refresh)`. A cached entity answers unless `force` is set;
      otherwise `fetched` is the result of `GET /api/states/<id>`, stored under `id`. */
  function GetEntity(c: Client, id: string, force: bool, fetched: Option<Entity>): (r: (Option<Entity>, Client))
    requires Valid(c)
    ensures Valid(r.1)
    ensures !force && id in c.entities ==> r == (Some(c.entities[id]), c)
    ensures (force || id !in c.entities) ==> r.0 == fetched
    ensures (force || id !in c.entities) && fetched.None? ==> r.1 == c
    ensures (force || id !in c.entities) && fetched.Some? ==>
      && r.1.entities == c.entities[id := fetched.value]
      && r.1.states[id] == fetched.value.state
  {
    if !force && id in c.entities then (Some(c.entities[id]), c)
    else match fetched
      case None => (None, c)
      case Some(e) => (Some(e), Store(c, id, e))
  }

  /** `get_entity_state(entity_id, force_refresh)`. */
  function GetEntityState(c: Client, id: string, force: bool, fetched: Option<Entity>): (r: (Option<string>, Client))
    requires Valid(c)
    ensures Valid(r.1)
    ensures !force && id in c.states ==> r == (Some(c.entities[id].state), c)
    ensures r.0.Some? ==> id in r.1.entities && r.0.value == r.1.states[id]
    ensures r.0.None? <==> (force || id !in c.entities) && fetched.None?
  {
    if !force && id in c.states then (Some(c.states[id]), c)
    else
      var (e, c') := GetEntity(c, id, force, fetched);
      match e
      case Some(entity) => (Some(entity.state), c')
      case None => (None, c')
  }

  /** `get_entity_attributes(entity_id, force_refresh)`. */
  function GetEntityAttributes(c: Client, id: string, force: bool, fetched: Option<Entity>): (r: (Option<map<string, Value>>, Client))
    requires Valid(c)
    ensures Valid(r.1)
    ensures !force && id in c.entities ==> r == (Some(c.entities[id].attributes), c)
    ensures (force || id !in c.entities) ==> r.0 == (if fetched.Some? then Some(fetched.value.attributes) else None)
    ensures r.0.Some? ==> id in r.1.entities && r.0.value == r.1.entities[id].attributes
  {
    var (e, c') := GetEntity(c, id, force, fetched);
    match e
    case Some(entity) => (Some(entity.attributes), c')
    case None => (None, c')
  }

  /** `get_entity_name(entity_id)`: the entity's `friendly_name` attribute when it has one,
      otherwise the id itself; the entity comes from the cache, or from `fetched` when the
      id is not cached. */
  function GetEntityName(c: Client, id: string, fetched: Option<Entity>): (r: (Value, Client))
    requires Valid(c)
    ensures Valid(r.1)
    ensures var seen := if id in c.entities then Some(c.entities[id]) else fetched;
      r.0 == (if seen.Some? && "friendly_name" in seen.value.attributes
              then seen.value.attributes["friendly_name"] else Str(id))
  {
    var (attributes, c') := GetEntityAttributes(c, id, false, fetched);
    if attributes.Some? && |attributes.value| > 0 && "friendly_name" in attributes.value
    then (attributes.value["friendly_name"], c')
    else (Str(id), c')
  }

  /** The id belongs to `domain`: it starts with `"<domain>."`. */
  predicate InDomain(id: string, domain: string) {
    StartsWith(id, domain + ".")
  }

  /** `attributes.get("friendly_name", "")`. */
  function FriendlyName(e: Entity): Value {
    Get(e.attributes, "friendly_name", Str(""))
  }

  /** The filter test of `find_entities` for an in-domain entity whose friendly name is a
      string: an empty filter matches everything, otherwise the lower-cased filter must occur
      in the lower-cased friendly name or the lower-cased id. */
  predicate NameMatches(id: string, e: Entity, filter: string)
    requires FriendlyName(e).Str?
  {
    filter == "" || Contains(Lower(FriendlyName(e).s), Lower(filter)) || Contains(Lower(id), Lower(filter))
  }

  /** The cached entity under `id` is one `find_entities(domain, filter)` returns. */
  predicate Selected(c: Client, id: string, domain: string, filter: string)
    requires id in c.entities
  {
    InDomain(id, domain) && FriendlyName(c.entities[id]).Str? && NameMatches(id, c.entities[id], filter)
  }

  /** The filter of `find_entities` as a test on ids: cached and selected. */
  function Keep(c: Client, domain: string, filter: string): string -> bool {
    id => id in c.entities && Selected(c, id, domain, filter)
  }

  /** Every position lies in `xs` and is kept. */
  predicate KeptPositions<T>(xs: seq<T>, keep: T -> bool, pos: seq<nat>) {
    forall k :: 0 <= k < |pos| ==> pos[k] < |xs| && keep(xs[pos[k]])
  }

  /** Every kept position of `xs` is listed. */
  predicate AllPositions<T>(xs: seq<T>, keep: T -> bool, pos: seq<nat>) {
    forall j :: 0 <= j < |xs| && keep(xs[j]) ==> j in pos
  }

  /** The positions strictly increase. */
  predicate Increasing(pos: seq<nat>) {
    forall a, b :: 0 <= a < b < |pos| ==> pos[a] < pos[b]
  }

  /** The positions in `xs` whose elements `keep` accepts: all of them, each once, in
      increasing order. */
  function Positions<T>(xs: seq<T>, keep: T -> bool): (pos: seq<nat>)
    ensures KeptPositions(xs, keep, pos) && AllPositions(xs, keep, pos) && Increasing(pos)
  {
    if |xs| == 0 then []
    else
      var rest := Positions(xs[1..], keep);
      var head: seq<nat> := if keep(xs[0]) then [0] else [];
      KeptStep(xs, keep, head, rest);
      AllStep(xs, keep, head, rest);
      IncreasingStep(head, rest);
      head + Shift(rest)
  }

  /** Every position moved one place on. */
  function Shift(pos: seq<nat>): (r: seq<nat>)
    ensures |r| == |pos| && forall k :: 0 <= k < |pos| ==> r[k] == pos[k] + 1
  {
    seq(|pos|, k requires 0 <= k < |pos| => pos[k] + 1)
  }

  /** Prepending the first position, when kept, to the tail's positions moved one place on
      keeps every listed position in range and kept. */
  lemma KeptStep<T>(xs: seq<T>, keep: T -> bool, head: seq<nat>, rest: seq<nat>)
    requires |xs| > 0 && head == (if keep(xs[0]) then [0] else [])
    requires KeptPositions(xs[1..], keep, rest)
    ensures KeptPositions(xs, keep, head + Shift(rest))
  {
    var pos := head + Shift(rest);
    forall k | 0 <= k < |pos| ensures pos[k] < |xs| && keep(xs[pos[k]]) {
      if k >= |head| {
        assert pos[k] == rest[k - |head|] + 1;
        assert xs[1..][rest[k - |head|]] == xs[pos[k]];
      }
    }
  }

  /** ... and lists every kept position. */
  lemma AllStep<T>(xs: seq<T>, keep: T -> bool, head: seq<nat>, rest: seq<nat>)
    requires |xs| > 0 && head == (if keep(xs[0]) then [0] else [])
    requires AllPositions(xs[1..], keep, rest)
    ensures AllPositions(xs, keep, head + Shift(rest))
  {
    var pos := head + Shift(rest);
    forall j | 0 <= j < |xs| && keep(xs[j]) ensures j in pos {
      if j == 0 {
        assert pos[0] == 0;
      } else {
        assert xs[1..][j - 1] == xs[j];
        var k :| 0 <= k < |rest| && rest[k] == j - 1;
        assert pos[|head| + k] == j;
      }
    }
  }

  /** ... and keeps the positions strictly increasing. */
  lemma IncreasingStep(head: seq<nat>, rest: seq<nat>)
    requires head == [] || head == [0]
    requires Increasing(rest)
    ensures Increasing(head + Shift(rest))
  {
    var pos := head + Shift(rest);
    forall a, b | 0 <= a < b < |pos| ensures pos[a] < pos[b] {
      if a >= |head| {
        assert pos[a] == rest[a - |head|] + 1 && pos[b] == rest[b - |head|] + 1;
      } else {
        assert pos[a] == 0 && pos[b] == rest[b - |head|] + 1;
      }
    }
  }

  /** The cached entities at the given positions of `ids`, in that order. */
  function Pick(c: Client, ids: seq<string>, pos: seq<nat>): (es: seq<Entity>)
    requires forall id :: id in ids ==> id in c.entities
    requires forall k :: 0 <= k < |pos| ==> pos[k] < |ids|
    ensures |es| == |pos| && forall k :: 0 <= k < |pos| ==> es[k] == c.entities[ids[pos[k]]]
  {
    seq(|pos|, k requires 0 <= k < |pos| => c.entities[ids[pos[k]]])
  }

  /** The loop of `find_entities` over the ids `ids`: `None` when `.lower()` raises on an
      in-domain entity whose friendly name is not a string. */
  function Scan(c: Client, ids: seq<string>, domain: string, filter: string): (r: Option<seq<Entity>>)
    requires forall id :: id in ids ==> id in c.entities
    ensures r.None? <==> exists id :: id in ids && InDomain(id, domain) && !FriendlyName(c.entities[id]).Str?
    ensures r.Some? ==> |r.value| <= |ids|
    ensures r.Some? ==> forall e :: e in r.value <==>
      exists id :: id in ids && Selected(c, id, domain, filter) && e == c.entities[id]
    ensures r.Some? ==> r.value == Pick(c, ids, Positions(ids, Keep(c, domain, filter)))
  {
    if |ids| == 0 then Some([])
    else
      var id := ids[0];
      var e := c.entities[id];
      var rest := Scan(c, ids[1..], domain, filter);
      assert forall x :: x in ids <==> x == id || x in ids[1..];
      if InDomain(id, domain) then
        if !FriendlyName(e).Str? then None
        else if rest.None? then None
        else
          ScanPick(c, ids, domain, filter);
          Some((if NameMatches(id, e, filter) then [e] else []) + rest.value)
      else
        ScanPick(c, ids, domain, filter);
        rest
  }

  /** Picking the first position, if listed, and the tail's positions moved one place on
      picks the first entity, if listed, and then what the tail's positions pick from the
      remaining ids. */
  lemma PickShift(c: Client, ids: seq<string>, head: seq<nat>, rest: seq<nat>)
    requires |ids| > 0 && forall id :: id in ids ==> id in c.entities
    requires head == [] || head == [0]
    requires forall k :: 0 <= k < |rest| ==> rest[k] < |ids| - 1
    ensures Pick(c, ids, head + Shift(rest)) ==
      (if head == [] then [] else [c.entities[ids[0]]]) + Pick(c, ids[1..], rest)
  {
    var pos := head + Shift(rest);
    var left := Pick(c, ids, pos);
    var right := (if head == [] then [] else [c.entities[ids[0]]]) + Pick(c, ids[1..], rest);
    var tail := Pick(c, ids[1..], rest);
    forall k | 0 <= k < |left| ensures left[k] == right[k] {
      if k < |head| {
        assert pos[k] == 0;
      } else {
        var i := k - |head|;
        assert pos[k] == Shift(rest)[i] == rest[i] + 1;
        assert right[k] == tail[i] == c.entities[ids[1..][rest[i]]];
        assert ids[1..][rest[i]] == ids[pos[k]];
      }
    }
    assert left == right;
  }

  /** The entities at the kept positions are the first entity, when kept, followed by those
      at the kept positions of the remaining ids. */
  lemma PickStep(c: Client, ids: seq<string>, keep: string -> bool)
    requires |ids| > 0 && forall id :: id in ids ==> id in c.entities
    ensures Pick(c, ids, Positions(ids, keep)) ==
      (if keep(ids[0]) then [c.entities[ids[0]]] else []) + Pick(c, ids[1..], Positions(ids[1..], keep))
  {
    var rest := Positions(ids[1..], keep);
    var head: seq<nat> := if keep(ids[0]) then [0] else [];
    assert Positions(ids, keep) == head + Shift(rest);
    PickShift(c, ids, head, rest);
  }

  /** `PickStep` for the filter of `find_entities`. */
  lemma ScanPick(c: Client, ids: seq<string>, domain: string, filter: string)
    requires |ids| > 0 && forall id :: id in ids ==> id in c.entities
    ensures Pick(c, ids, Positions(ids, Keep(c, domain, filter))) ==
      (if Selected(c, ids[0], domain, filter) then [c.entities[ids[0]]] else [])
      + Pick(c, ids[1..], Positions(ids[1..], Keep(c, domain, filter)))
  {
    PickStep(c, ids, Keep(c, domain, filter));
    assert Keep(c, domain, filter)(ids[0]) == Selected(c, ids[0], domain, filter);
  }

  /** `find_entities(domain, name_filter)`. An empty cache is first filled by
      `get_entities()` from `fetched`. A filter that is not a string makes `.lower()` raise,
      and the exception yields `[]`. */
  function FindEntities(c: Client, domain: string, filter: Value, fetched: Option<seq<Entity>>): (r: (seq<Entity>, Client))
    requires Valid(c)
    ensures Valid(r.1)
    ensures |c.entities| > 0 ==> r.1 == c
    ensures !filter.Str? ==> r.0 == []
    ensures forall e :: e in r.0 ==> exists id :: id in r.1.entities && InDomain(id, domain) && e == r.1.entities[id]
  {
    var c' := if |c.entities| == 0 then GetEntities(c, false, fetched).1 else c;
    if !filter.Str? then ([], c')
    else
      match Scan(c', c'.order, domain, filter.s)
      case None => ([], c')
      case Some(es) => (es, c')
  }

  /** `find_entities` returns exactly the cached entities in the domain that match the filter,
      each once and in the cache's insertion order, or `[]` when the filter is not a string or
      an in-domain friendly name is not a string; it consults the server only when the cache
      is empty. */
  lemma FindEntitiesSelects(c: Client, domain: string, filter: Value, fetched: Option<seq<Entity>>)
    requires Valid(c)
    ensures var (found, c') := FindEntities(c, domain, filter, fetched);
      && Valid(c')
      && (|c.entities| > 0 ==> c' == c)
      && (!filter.Str? ==> found == [])
      && ((filter.Str? && exists id :: id in c'.entities && InDomain(id, domain) && !FriendlyName(c'.entities[id]).Str?)
          ==> found == [])
      && ((filter.Str? && forall id :: id in c'.entities && InDomain(id, domain) ==> FriendlyName(c'.entities[id]).Str?)
          ==> && (forall e :: e in found <==>
                    exists id :: id in c'.entities && Selected(c', id, domain, filter.s) && e == c'.entities[id])
              && found == Pick(c', c'.order, Positions(c'.order, Keep(c', domain, filter.s))))
  {
  }

  /** With an empty filter, `find_entities` returns every cached entity of the domain. */
  lemma FindEntitiesEmptyFilter(c: Client, domain: string, fetched: Option<seq<Entity>>)
    requires Valid(c)
    requires |c.entities| > 0
    requires forall id :: id in c.entities && InDomain(id, domain) ==> FriendlyName(c.entities[id]).Str?
    ensures forall id :: id in c.entities && InDomain(id, domain) ==>
      c.entities[id] in FindEntities(c, domain, Str(""), fetched).0
  {
    FindEntitiesSelects(c, domain, Str(""), fetched);
  }

  /** The `entity_id` entry of a service call's data. */
  datatype Target = NoTarget | One(id: string) | Many(ids: seq<string>)

  /** The ids to refresh: a single string id becomes a one-element list. */
  function TargetIds(t: Target): (ids: seq<string>)
    ensures t.One? ==> ids == [t.id]
    ensures t.NoTarget? ==> ids == []
  {
    match t
    case NoTarget => []
    case One(id) => [id]
    case Many(ids) => ids
  }

  /** `get_entity(id, force_refresh=True)` for each id in turn; `refresh(id)` is what the
      server returned for it. */
  function RefreshAll(c: Client, ids: seq<string>, refresh: string -> Option<Entity>): (r: Client)
    requires Valid(c)
    ensures Valid(r)
    decreases |ids|
  {
    if |ids| == 0 then c
    else RefreshAll(GetEntity(c, ids[0], true, refresh(ids[0])).1, ids[1..], refresh)
  }

  /** Refreshing stores what the server returned for every listed id it answered for, and
      leaves every other cached entity as it was. */
  lemma {:induction false} RefreshAllEffect(c: Client, ids: seq<string>, refresh: string -> Option<Entity>)
    requires Valid(c)
    ensures var r := RefreshAll(c, ids, refresh);
      && (forall id :: id in ids && refresh(id).Some? ==> id in r.entities && r.entities[id] == refresh(id).value)
      && (forall id :: id !in ids || refresh(id).None? ==>
            (id in r.entities <==> id in c.entities) && (id in c.entities ==> r.entities[id] == c.entities[id]))
    decreases |ids|
  {
    if |ids| > 0 {
      var c' := GetEntity(c, ids[0], true, refresh(ids[0])).1;
      RefreshAllEffect(c', ids[1..], refresh);
      assert forall id :: id in ids <==> id == ids[0] || id in ids[1..];
    }
  }

  /** `call_service(domain, service, data)`. `status` is the HTTP status of the POST (`None`
      when it raised). On 200 or 201 each targeted entity is force-refreshed and the call
      reports success; otherwise it reports failure and the caches are untouched. */
  function CallService(c: Client, target: Target, status: Option<int>, refresh: string -> Option<Entity>): (r: (bool, Client))
    requires Valid(c)
    ensures Valid(r.1)
    ensures r.0 <==> status == Some(200) || status == Some(201)
    ensures !r.0 ==> r.1 == c
    ensures r.0 ==> forall id :: id in TargetIds(target) && refresh(id).Some? ==>
      id in r.1.entities && r.1.entities[id] == refresh(id).value && r.1.states[id] == refresh(id).value.state
    ensures forall id :: id !in TargetIds(target) ==>
      (id in r.1.entities <==> id in c.entities) && (id in c.entities ==> r.1.entities[id] == c.entities[id])
  {
    if status == Some(200) || status == Some(201) then
      RefreshAllEffect(c, TargetIds(target), refresh);
      (true, RefreshAll(c, TargetIds(target), refresh))
    else (false, c)
  }
}

=== FILE: home_handlers.dfy ===
/** The command processor's home-automation handlers: light, switch and climate control,
    device status and weather. Each is a decision tree over the parameter map and what the
    Home Assistant client answers; the client is an oracle. */
module HomeHandlers {
  import opened Base
  import opened Text
  import opened Values
  import HomeAssistant

  /** A service call: domain, service and service data (which holds `"entity_id"`). */
  datatype ServiceCall = ServiceCall(domain: string, service: string, data: map<string, Value>)

  /** The Home Assistant client as the handlers see it: `find_entities`, `call_service`
      (success), `get_entity_name`, `get_entity_state` and `get_entity_attributes`. None of
      these raises: the client catches its own errors. */
  datatype Home = Home(
    find: (string, Value) -> seq<HomeAssistant.Entity>,
    call: ServiceCall -> bool,
    name: string -> Value,
    state: string -> Option<string>,
    attributes: string -> Option<map<string, Value>>)

  const Unavailable := "Home Assistant integration is not available"

  /** `{state}` in an f-string, where the state may be `None`. */
  function RenderState(state: Option<string>): string {
    match state
    case None => "None"
    case Some(s) => s
  }

  /** The entity ids of a list of entities. */
  function Ids(es: seq<HomeAssistant.Entity>): (ids: seq<string>)
    ensures |ids| == |es|
    ensures forall k :: 0 <= k < |es| ==> ids[k] == es[k].id
  {
    seq(|es|, k requires 0 <= k < |es| => es[k].id)
  }

  /** The strings of a list of string values. */
  function Strings(vs: seq<Value>): (r: seq<string>)
    requires forall k :: 0 <= k < |vs| ==> vs[k].Str?
    ensures |r| == |vs| && forall k :: 0 <= k < |vs| ==> vs[k] == Str(r[k])
  {
    seq(|vs|, k requires 0 <= k < |vs| => vs[k].s)
  }

  /** The reply's list of names: `", ".join(names[:-1]) + " and " + names[-1]` for several
      names, the single name itself for one. `None` where Python raises: no names at all
      (`names[0]` on an empty list), or several names that are not all strings. */
  function JoinNames(names: seq<Value>): (r: Option<string>)
    ensures |names| == 0 ==> r.None?
    ensures |names| == 1 ==> r == Some(Render(names[0]))
    ensures |names| > 1 ==> (r.Some? <==> forall k :: 0 <= k < |names| ==> names[k].Str?)
  {
    var n := |names|;
    if n == 0 then None
    else if n == 1 then Some(Render(names[0]))
    else if forall k :: 0 <= k < n ==> names[k].Str? then
      var strs := Strings(names);
      Some(Join(", ", strs[..n - 1]) + " and " + strs[n - 1])
    else None
  }

  /** Joined names end with `" and "` and the last name, and every name appears in them. */
  lemma JoinNamesShape(names: seq<Value>)
    requires |names| > 1 && forall k :: 0 <= k < |names| ==> names[k].Str?
    ensures var r := JoinNames(names).value;
      && |r| >= |names[|names| - 1].s| + 5
      && r[|r| - |names[|names| - 1].s| - 5..] == " and " + names[|names| - 1].s
      && forall k :: 0 <= k < |names| ==> Contains(r, names[k].s)
  {
    var n := |names|;
    var strs := Strings(names);
    var front := Join(", ", strs[..n - 1]);
    var r := front + " and " + strs[n - 1];
    assert JoinNames(names) == Some(r);
    assert r[|r| - |strs[n - 1]| - 5..] == " and " + strs[n - 1];
    forall k | 0 <= k < n
      ensures Contains(r, names[k].s)
    {
      if k == n - 1 {
        assert OccursAt(strs[k], strs[k], 0);
        ContainsInRight(front + " and ", strs[k], strs[k]);
      } else {
        JoinContainsEach(", ", strs[..n - 1], k);
        assert strs[..n - 1][k] == strs[k];
        ContainsInLeft(front, " and ", strs[k]);
        ContainsInLeft(front + " and ", strs[n - 1], strs[k]);
      }
    }
  }

  /** What a handler does to each matched entity: the service and the extra service data,
      and the reply once every call succeeded, which is `before`, the joined names, then
      `after`. */
  datatype Plan = Plan(service: string, extra: map<string, Value>, before: string, after: string)

  /** The service calls a plan makes, one per matched entity, in order. */
  function Calls(domain: string, plan: Plan, ids: seq<string>): (calls: seq<ServiceCall>)
    ensures |calls| == |ids|
    ensures forall k :: 0 <= k < |ids| ==>
      calls[k] == ServiceCall(domain, plan.service, plan.extra["entity_id" := Str(ids[k])])
  {
    seq(|ids|, k requires 0 <= k < |ids| => ServiceCall(domain, plan.service, plan.extra["entity_id" := Str(ids[k])]))
  }

  /** The friendly names of the entities a plan acted on. */
  function Names(h: Home, ids: seq<string>): (names: seq<Value>)
    ensures |names| == |ids| && forall k :: 0 <= k < |ids| ==> names[k] == h.name(ids[k])
  {
    seq(|ids|, k requires 0 <= k < |ids| => h.name(ids[k]))
  }

  /** The reply after acting on the matched entities: every call is made; if one failed,
      `trouble`; otherwise the plan's reply for the joined names, or `sorry` when joining
      raised (which includes an unrecognised action, where no call was made). */
  function BatchReply(h: Home, domain: string, plan: Option<Plan>, ids: seq<string>, trouble: string, sorry: string): (reply: string)
    ensures plan.None? ==> reply == sorry
    ensures plan.Some? && (exists k :: 0 <= k < |ids| && !h.call(Calls(domain, plan.value, ids)[k])) ==> reply == trouble
    ensures plan.Some? && (forall k :: 0 <= k < |ids| ==> h.call(Calls(domain, plan.value, ids)[k])) ==>
      reply == (match JoinNames(Names(h, ids)) case Some(n) => plan.value.before + n + plan.value.after case None => sorry)
  {
    match plan
    case None => sorry
    case Some(pl) =>
      var calls := Calls(domain, pl, ids);
      if exists k :: 0 <= k < |calls| && !h.call(calls[k]) then trouble
      else
        match JoinNames(Names(h, ids))
        case Some(n) => pl.before + n + pl.after
        case None => sorry
  }

  /** The fixed replies of one device handler: the domain it searches, the plural it names
      in "couldn't find", the reply for a missing device, for a failed call, and for an
      exception. */
  datatype Wording = Wording(domain: string, plural: string, missing: string, trouble: string, sorry: string)

  /** What a device handler answers for a parameter map, given the plan its action makes: a
      falsy device is asked for; no match is reported with the device as given; otherwise
      every matched entity gets the plan's call, and the reply is `trouble` when one failed
      and the plan's reply for the joined names when all succeeded. An action without a plan
      makes no call, and the name join over no names raises, so it ends in `sorry`. */
  predicate DeviceReply(h: Home, e: map<string, Value>, w: Wording, plan: Option<Plan>, reply: string) {
    var device := Get(e, "device", Str(""));
    var ids := Ids(h.find(w.domain, device));
    if !Truthy(device) then reply == w.missing
    else if ids == [] then reply == "I couldn't find any " + w.plural + " matching '" + Render(device) + "'"
    else
      && (plan.None? ==> reply == w.sorry)
      && (plan.Some? && (exists k :: 0 <= k < |ids| && !h.call(Calls(w.domain, plan.value, ids)[k])) ==> reply == w.trouble)
      && (plan.Some? && (forall k :: 0 <= k < |ids| ==> h.call(Calls(w.domain, plan.value, ids)[k])) ==>
            reply == (match JoinNames(Names(h, ids)) case Some(n) => plan.value.before + n + plan.value.after case None => w.sorry))
  }

  /** The body the three device handlers share. */
  function DeviceControl(home: Option<Home>, p: Params, w: Wording, plan: Option<Plan>): (reply: string)
    ensures home.None? ==> reply == Unavailable
    ensures home.Some? && p.NotADict? ==> reply == w.sorry
    ensures home.Some? && p.Dict? ==> DeviceReply(home.value, p.entries, w, plan, reply)
  {
    match home
    case None => Unavailable
    case Some(h) =>
      match p
      case NotADict => w.sorry
      case Dict(e) =>
        var device := Get(e, "device", Str(""));
        if !Truthy(device) then w.missing
        else
          var found := h.find(w.domain, device);
          if found == [] then "I couldn't find any " + w.plural + " matching '" + Render(device) + "'"
          else BatchReply(h, w.domain, plan, Ids(found), w.trouble, w.sorry)
  }

  /** The plan for a light or switch action: turn on, turn off or toggle. A light turned on
      also carries `brightness_pct` when a brightness is given and `color_name` when a
      colour is. */
  function OnOffPlan(action: Value, extraOn: map<string, Value>): (plan: Option<Plan>)
    ensures plan.None? <==> !IsOneOf(action, ["on", "turn_on", "off", "turn_off", "toggle"])
    ensures IsOneOf(action, ["on", "turn_on"]) ==> plan == Some(Plan("turn_on", extraOn, "Turned on ", ""))
    ensures IsOneOf(action, ["off", "turn_off"]) ==> plan == Some(Plan("turn_off", map[], "Turned off ", ""))
    ensures IsOneOf(action, ["toggle"]) ==> plan == Some(Plan("toggle", map[], "Toggled ", ""))
  {
    if IsOneOf(action, ["on", "turn_on"]) then Some(Plan("turn_on", extraOn, "Turned on ", ""))
    else if IsOneOf(action, ["off", "turn_off"]) then Some(Plan("turn_off", map[], "Turned off ", ""))
    else if IsOneOf(action, ["toggle"]) then Some(Plan("toggle", map[], "Toggled ", ""))
    else None
  }

  /** The extra data for turning a light on. */
  function LightExtras(brightness: Value, color: Value): (extra: map<string, Value>)
    ensures "brightness_pct" in extra <==> brightness != Null
    ensures "color_name" in extra <==> Truthy(color)
    ensures "brightness_pct" in extra ==> extra["brightness_pct"] == brightness
    ensures "color_name" in extra ==> extra["color_name"] == color
    ensures "entity_id" !in extra
  {
    var withBrightness: map<string, Value> := if brightness != Null then map["brightness_pct" := brightness] else map[];
    if Truthy(color) then withBrightness["color_name" := color] else withBrightness
  }

  const LightWording := Wording("light", "lights", "Please specify which light you want to control",
    "I had trouble controlling some of the lights", "Sorry, I had trouble controlling the lights")

  /** The plan a light action makes from the parameter map. */
  function LightPlan(e: map<string, Value>): Option<Plan> {
    OnOffPlan(Get(e, "action", Str("")), LightExtras(Get(e, "brightness", Null), Get(e, "color", Null)))
  }

  /** `_handle_light_control(parameters)`. */
  function LightControl(home: Option<Home>, p: Params): (reply: string)
    ensures home.None? ==> reply == Unavailable
    ensures home.Some? && p.NotADict? ==> reply == LightWording.sorry
    ensures home.Some? && p.Dict? ==> DeviceReply(home.value, p.entries, LightWording, LightPlan(p.entries), reply)
  {
    DeviceControl(home, p, LightWording, if p.Dict? then LightPlan(p.entries) else None)
  }

  /** The light handler's replies for each action once lights matched: turning on calls
      `turn_on` with the brightness and colour extras and answers "Turned on <names>",
      turning off and toggling call their service without extras and answer "Turned off
      <names>" and "Toggled <names>"; one failed call answers the trouble reply. */
  lemma LightControlReplies(h: Home, e: map<string, Value>)
    requires Truthy(Get(e, "device", Str(""))) && h.find("light", Get(e, "device", Str(""))) != []
    ensures var ids := Ids(h.find("light", Get(e, "device", Str(""))));
      var action := Get(e, "action", Str(""));
      var extra := LightExtras(Get(e, "brightness", Null), Get(e, "color", Null));
      var service := if IsOneOf(action, ["on", "turn_on"]) then "turn_on" else if IsOneOf(action, ["off", "turn_off"]) then "turn_off" else "toggle";
      var data := if IsOneOf(action, ["on", "turn_on"]) then extra else map[];
      var done := if IsOneOf(action, ["on", "turn_on"]) then "Turned on " else if IsOneOf(action, ["off", "turn_off"]) then "Turned off " else "Toggled ";
      IsOneOf(action, ["on", "turn_on", "off", "turn_off", "toggle"]) ==>
        && ((exists k :: 0 <= k < |ids| && !h.call(ServiceCall("light", service, data["entity_id" := Str(ids[k])]))) ==>
              LightControl(Some(h), Dict(e)) == LightWording.trouble)
        && ((forall k :: 0 <= k < |ids| ==> h.call(ServiceCall("light", service, data["entity_id" := Str(ids[k])])))
              && JoinNames(Names(h, ids)).Some? ==>
              LightControl(Some(h), Dict(e)) == done + JoinNames(Names(h, ids)).value)
  {
    var ids := Ids(h.find("light", Get(e, "device", Str(""))));
    var action := Get(e, "action", Str(""));
    var plan := LightPlan(e);
    if plan.Some? {
      var calls := Calls("light", plan.value, ids);
      assert DeviceReply(h, e, LightWording, plan, LightControl(Some(h), Dict(e)));
      assert plan.value.after == "";
    }
  }

  const SwitchWording := Wording("switch", "switches", "Please specify which switch you want to control",
    "I had trouble controlling some of the switches", "Sorry, I had trouble controlling the switches")

  /** `_handle_switch_control(parameters)`: as the light handler, without extras. */
  function SwitchControl(home: Option<Home>, p: Params): (reply: string)
    ensures home.None? ==> reply == Unavailable
    ensures home.Some? && p.NotADict? ==> reply == SwitchWording.sorry
    ensures home.Some? && p.Dict? ==>
      DeviceReply(home.value, p.entries, SwitchWording, OnOffPlan(Get(p.entries, "action", Str("")), map[]), reply)
  {
    DeviceControl(home, p, SwitchWording, if p.Dict? then OnOffPlan(Get(p.entries, "action", Str("")), map[]) else None)
  }

  /** Switches act like lights without brightness or colour: a toggle of a single matched
      switch names it when the call succeeds. */
  lemma SwitchToggleOne(h: Home, e: map<string, Value>, sw: HomeAssistant.Entity)
    requires Truthy(Get(e, "device", Str(""))) && h.find("switch", Get(e, "device", Str(""))) == [sw]
    requires Get(e, "action", Str("")) == Str("toggle")
    ensures h.call(ServiceCall("switch", "toggle", map["entity_id" := Str(sw.id)])) ==>
      SwitchControl(Some(h), Dict(e)) == "Toggled " + Render(h.name(sw.id))
    ensures !h.call(ServiceCall("switch", "toggle", map["entity_id" := Str(sw.id)])) ==>
      SwitchControl(Some(h), Dict(e)) == "I had trouble controlling some of the switches"
  {
    var ids := Ids([sw]);
    assert ids == [sw.id];
    var calls := Calls("switch", OnOffPlan(Str("toggle"), map[]).value, ids);
    assert calls[0] == ServiceCall("switch", "toggle", map["entity_id" := Str(sw.id)]);
    assert Names(h, ids) == [h.name(sw.id)];
  }

  /** The plan for a climate action: a temperature (only with a temperature given), an HVAC
      mode (only with a truthy mode), or off. */
  function ClimatePlan(action: Value, temperature: Value, mode: Value): (plan: Option<Plan>)
    ensures plan.Some? <==>
      || (IsOneOf(action, ["set_temperature"]) && temperature != Null)
      || (IsOneOf(action, ["set_mode"]) && Truthy(mode))
      || IsOneOf(action, ["off", "turn_off"])
    ensures plan.Some? && IsOneOf(action, ["set_temperature"]) ==>
      plan.value == Plan("set_temperature", map["temperature" := temperature],
                         "Set temperature to " + Render(temperature) + " degrees for ", "")
    ensures plan.Some? && IsOneOf(action, ["set_mode"]) ==>
      plan.value == Plan("set_hvac_mode", map["hvac_mode" := mode], "Set ", " to " + Render(mode) + " mode")
    ensures plan.Some? && IsOneOf(action, ["off", "turn_off"]) ==>
      plan.value == Plan("set_hvac_mode", map["hvac_mode" := Str("off")], "Turned off ", "")
  {
    if IsOneOf(action, ["set_temperature"]) && temperature != Null then
      Some(Plan("set_temperature", map["temperature" := temperature], "Set temperature to " + Render(temperature) + " degrees for ", ""))
    else if IsOneOf(action, ["set_mode"]) && Truthy(mode) then
      Some(Plan("set_hvac_mode", map["hvac_mode" := mode], "Set ", " to " + Render(mode) + " mode"))
    else if IsOneOf(action, ["off", "turn_off"]) then
      Some(Plan("set_hvac_mode", map["hvac_mode" := Str("off")], "Turned off ", ""))
    else None
  }

  const ClimateWording := Wording("climate", "climate devices", "Please specify which climate device you want to control",
    "I had trouble controlling the climate devices", "Sorry, I had trouble controlling the climate devices")

  /** The plan a climate action makes from the parameter map. */
  function ClimatePlanOf(e: map<string, Value>): Option<Plan> {
    ClimatePlan(Get(e, "action", Str("")), Get(e, "temperature", Null), Get(e, "mode", Null))
  }

  /** `_handle_climate_control(parameters)`. */
  function ClimateControl(home: Option<Home>, p: Params): (reply: string)
    ensures home.None? ==> reply == Unavailable
    ensures home.Some? && p.NotADict? ==> reply == ClimateWording.sorry
    ensures home.Some? && p.Dict? ==> DeviceReply(home.value, p.entries, ClimateWording, ClimatePlanOf(p.entries), reply)
  {
    DeviceControl(home, p, ClimateWording, if p.Dict? then ClimatePlanOf(p.entries) else None)
  }

  /** Asking to set a temperature without giving one makes no call and ends in the apology. */
  lemma ClimateNeedsTemperature(h: Home, e: map<string, Value>)
    requires Truthy(Get(e, "device", Str(""))) && h.find("climate", Get(e, "device", Str(""))) != []
    requires Get(e, "action", Str("")) == Str("set_temperature") && Get(e, "temperature", Null) == Null
    ensures ClimateControl(Some(h), Dict(e)) == "Sorry, I had trouble controlling the climate devices"
  {
  }

  /** The domains `device_status` searches, in order. */
  const StatusDomains: seq<string> := ["light", "switch", "climate", "sensor", "binary_sensor"]

  /** Every entity the status query finds: the matches in each domain, concatenated in order. */
  function FoundEntities(h: Home, device: Value): (es: seq<HomeAssistant.Entity>)
    ensures es == h.find("light", device) + h.find("switch", device) + h.find("climate", device)
      + h.find("sensor", device) + h.find("binary_sensor", device)
  {
    h.find(StatusDomains[0], device) + h.find(StatusDomains[1], device) + h.find(StatusDomains[2], device)
      + h.find(StatusDomains[3], device) + h.find(StatusDomains[4], device)
  }

  /** "on" when the state is exactly "on", "off" for anything else, including no state. */
  function OnOff(state: Option<string>): (r: string)
    ensures r == "on" <==> state == Some("on")
    ensures r == "on" || r == "off"
  {
    if state == Some("on") then "on" else "off"
  }

  /** The status line for one entity, chosen by SUBSTRING tests on its id in the order light
      or switch, climate, sensor, binary sensor; `Raised` where the attributes are missing
      and `.get` is called on `None`; `Ok(None)` when no test matches. */
  function StatusLine(h: Home, id: string): (r: Try<Option<string>>)
  {
    var name := Render(h.name(id));
    var state := h.state(id);
    if Contains(id, "light.") || Contains(id, "switch.") then Ok(Some(name + " is " + OnOff(state)))
    else if Contains(id, "climate.") then
      if state == Some("off") then Ok(Some(name + " is off"))
      else
        match h.attributes(id)
        case None => Raised
        case Some(a) =>
          Ok(Some(name + " is " + RenderState(state)
            + ", current temperature: " + Render(Get(a, "current_temperature", Str("unknown"))) + "\U{00B0}"
            + ", target: " + Render(Get(a, "temperature", Str("unknown"))) + "\U{00B0}"))
    else if Contains(id, "sensor.") then
      match h.attributes(id)
      case None => Raised
      case Some(a) => Ok(Some(name + ": " + RenderState(state) + Render(Get(a, "unit_of_measurement", Str("")))))
    else if Contains(id, "binary_sensor.") then Ok(Some(name + " is " + OnOff(state)))
    else Ok(None)
  }

  /** A binary sensor's id contains "sensor.", so its status line is always the sensor's
      "name: state unit" line (or the sensor's failure), never "is on/off". */
  lemma BinarySensorReadAsSensor(h: Home, id: string)
    requires Contains(id, "binary_sensor.")
    requires !Contains(id, "light.") && !Contains(id, "switch.") && !Contains(id, "climate.")
    ensures h.attributes(id).None? ==> StatusLine(h, id) == Raised
    ensures h.attributes(id).Some? ==>
      StatusLine(h, id) == Ok(Some(Render(h.name(id)) + ": " + RenderState(h.state(id))
        + Render(Get(h.attributes(id).value, "unit_of_measurement", Str("")))))
  {
    assert "binary_" + "sensor." == "binary_sensor.";
    ContainsSuffixOf(id, "binary_", "sensor.");
  }

  /** The status lines of the found entities, in order; `Raised` if any line raised. */
  function StatusLines(h: Home, es: seq<HomeAssistant.Entity>): (r: Try<seq<string>>)
    ensures r.Ok? <==> forall k :: 0 <= k < |es| ==> StatusLine(h, es[k].id).Ok?
    ensures r.Ok? ==> |r.value| <= |es|
    ensures r.Ok? && (forall k :: 0 <= k < |es| ==> StatusLine(h, es[k].id).value.Some?) ==> |r.value| == |es|
  {
    if |es| == 0 then Ok([])
    else
      match StatusLine(h, es[0].id)
      case Raised => Raised
      case Ok(line) =>
        assert forall k :: 1 <= k < |es| ==> es[k] == es[1..][k - 1];
        match StatusLines(h, es[1..])
        case Raised => Raised
        case Ok(rest) => Ok((if line.Some? then [line.value] else []) + rest)
  }

  /** `_handle_device_status(parameters)`. */
  function DeviceStatus(home: Option<Home>, p: Params): (reply: string)
    ensures home.None? ==> reply == Unavailable
    ensures home.Some? && p.NotADict? ==> reply == "Sorry, I had trouble getting the device status"
    ensures home.Some? && p.Dict? ==>
      var device := Get(p.entries, "device", Str(""));
      var found := FoundEntities(home.value, device);
      && (!Truthy(device) ==> reply == "Please specify which device you want to check")
      && (Truthy(device) && found == [] ==> reply == "I couldn't find any devices matching '" + Render(device) + "'")
      && (Truthy(device) && found != [] && StatusLines(home.value, found).Raised? ==>
            reply == "Sorry, I had trouble getting the device status")
      && (Truthy(device) && found != [] && StatusLines(home.value, found).Ok? ==>
            var lines := StatusLines(home.value, found).value;
            reply == (if lines == [] then "I couldn't get the status of " + Render(device) else Join("\n", lines)))
  {
    match home
    case None => Unavailable
    case Some(h) =>
      match p
      case NotADict => "Sorry, I had trouble getting the device status"
      case Dict(e) =>
        var device := Get(e, "device", Str(""));
        if !Truthy(device) then "Please specify which device you want to check"
        else
          var found := FoundEntities(h, device);
          if found == [] then "I couldn't find any devices matching '" + Render(device) + "'"
          else
            match StatusLines(h, found)
            case Raised => "Sorry, I had trouble getting the device status"
            case Ok(lines) =>
              if lines == [] then "I couldn't get the status of " + Render(device)
              else Join("\n", lines)
  }

  /** The id of an entity found in one of the searched domains contains that domain's "d."
      tag, so it yields a status line; when every found entity is in its domain, the "couldn't
      get the status" reply cannot occur. */
  lemma StatusLineForDomainEntity(h: Home, id: string, d: string)
    requires d in StatusDomains && StartsWith(id, d + ".")
    ensures StatusLine(h, id).Ok? ==> StatusLine(h, id).value.Some?
  {
    var tag := d + ".";
    assert OccursAt(id, tag, 0);
    assert Contains(id, tag);
    if d == "light" {
      assert tag == "light.";
    } else if d == "switch" {
      assert tag == "switch.";
    } else if d == "climate" {
      assert tag == "climate.";
    } else if d == "sensor" {
      assert tag == "sensor.";
    } else {
      assert "binary_" + "sensor." == tag;
      ContainsSuffixOf(id, "binary_", "sensor.");
    }
  }

  /** When the search only returns entities of the domain asked for, as `find_entities`
      does, every found device gets its own status line: the reply lists one line per
      device, or apologises when a line raised; "couldn't get the status" never occurs. */
  lemma DeviceStatusOneLineEach(h: Home, e: map<string, Value>)
    requires Truthy(Get(e, "device", Str("")))
    requires forall d, x :: d in StatusDomains && x in h.find(d, Get(e, "device", Str(""))) ==> StartsWith(x.id, d + ".")
    ensures var found := FoundEntities(h, Get(e, "device", Str("")));
      found != [] && StatusLines(h, found).Ok? ==>
        |StatusLines(h, found).value| == |found| && DeviceStatus(Some(h), Dict(e)) == Join("\n", StatusLines(h, found).value)
  {
    var device := Get(e, "device", Str(""));
    var found := FoundEntities(h, device);
    forall k | 0 <= k < |found|
      ensures StatusLine(h, found[k].id).Ok? ==> StatusLine(h, found[k].id).value.Some?
    {
      var x := found[k];
      assert x in found;
      var d :| d in StatusDomains && x in h.find(d, device) by {
        assert StatusDomains == ["light", "switch", "climate", "sensor", "binary_sensor"];
        if x in h.find("light", device) {
        } else if x in h.find("switch", device) {
        } else if x in h.find("climate", device) {
        } else if x in h.find("sensor", device) {
        } else {
          assert x in h.find("binary_sensor", device);
        }
      }
      StatusLineForDomainEntity(h, x.id, d);
    }
  }

  /** The weather report's forecast part: only a non-empty list whose first element is an
      object yields a line; any other truthy value makes `len` or `.get` raise. */
  function ForecastPart(forecast: Value): (r: Try<string>)
    ensures !Truthy(forecast) ==> r == Ok("")
    ensures Truthy(forecast) ==> (r.Ok? <==> forecast.Array? && forecast.items[0].Object?)
  {
    if !Truthy(forecast) then Ok("")
    else match forecast
      case Array(items, _) =>
        (match items[0]
         case Object(f, _) =>
           var low := Get(f, "temperature_low", Null);
           var high := Get(f, "temperature", Null);
           Ok("\nTomorrow: " + Render(Get(f, "condition", Null))
             + (if low != Null && high != Null then ", " + Render(low) + "\U{00B0} to " + Render(high) + "\U{00B0}"
                else if high != Null then ", high of " + Render(high) + "\U{00B0}"
                else ""))
         case _ => Raised)
      case _ => Raised
  }

  /** `_handle_weather(parameters)`: the first weather entity's state and attributes; the
      parameters are never read. */
  function Weather(home: Option<Home>): (reply: string)
    ensures home.None? ==> reply == Unavailable
    ensures home.Some? && home.value.find("weather", Str("")) == [] ==> reply == "I couldn't find any weather information"
    ensures home.Some? && home.value.find("weather", Str("")) != [] ==>
      var h := home.value;
      var id := h.find("weather", Str(""))[0].id;
      var a := h.attributes(id);
      && (a.None? || a.value == map[] ==> reply == "I couldn't get the weather information")
      && (a.Some? && a.value != map[] && ForecastPart(Get(a.value, "forecast", Array([], "[]"))).Raised? ==>
            reply == "Sorry, I couldn't get the weather information")
      && (a.Some? && a.value != map[] && ForecastPart(Get(a.value, "forecast", Array([], "[]"))).Ok? ==>
            && StartsWith(reply, "Current weather: " + RenderState(h.state(id)))
            && reply == "Current weather: " + RenderState(h.state(id))
                 + Part(Get(a.value, "temperature", Null), ", temperature: ", "\U{00B0}")
                 + Part(Get(a.value, "humidity", Null), ", humidity: ", "%")
                 + Part(Get(a.value, "wind_speed", Null), ", wind: ", "")
                 + ForecastPart(Get(a.value, "forecast", Array([], "[]"))).value)
  {
    match home
    case None => Unavailable
    case Some(h) =>
      var entities := h.find("weather", Str(""));
      if entities == [] then "I couldn't find any weather information"
      else
        var id := entities[0].id;
        var state := h.state(id);
        match h.attributes(id)
        case None => "I couldn't get the weather information"
        case Some(a) =>
          if a == map[] then "I couldn't get the weather information"
          else
            var head := "Current weather: " + RenderState(state);
            var current := head
              + Part(Get(a, "temperature", Null), ", temperature: ", "\U{00B0}")
              + Part(Get(a, "humidity", Null), ", humidity: ", "%")
              + Part(Get(a, "wind_speed", Null), ", wind: ", "");
            match ForecastPart(Get(a, "forecast", Array([], "[]")))
            case Raised => "Sorry, I couldn't get the weather information"
            case Ok(tail) =>
              assert (current + tail)[..|head|] == head;
              current + tail
  }

  /** A report that is read without raising ends with the forecast part: tomorrow's outlook
      always follows the current conditions. */
  lemma WeatherEndsWithForecast(h: Home)
    requires h.find("weather", Str("")) != []
    requires var a := h.attributes(h.find("weather", Str(""))[0].id);
      a.Some? && a.value != map[] && ForecastPart(Get(a.value, "forecast", Array([], "[]"))).Ok?
    ensures var a := h.attributes(h.find("weather", Str(""))[0].id);
      EndsWith(Weather(Some(h)), ForecastPart(Get(a.value, "forecast", Array([], "[]"))).value)
  {
    var id := h.find("weather", Str(""))[0].id;
    var a := h.attributes(id).value;
    var current := "Current weather: " + RenderState(h.state(id))
      + Part(Get(a, "temperature", Null), ", temperature: ", "\U{00B0}")
      + Part(Get(a, "humidity", Null), ", humidity: ", "%")
      + Part(Get(a, "wind_speed", Null), ", wind: ", "");
    EndsWithAppend(current, ForecastPart(Get(a, "forecast", Array([], "[]"))).value);
  }

  /** One optional clause of the current conditions: nothing when the attribute is `None`,
      otherwise the lead text, the value and its unit. */
  function Part(v: Value, lead: string, unit: string): (r: string)
    ensures v == Null ==> r == ""
    ensures v != Null ==> StartsWith(r, lead) && EndsWith(r, unit) && |r| == |lead| + |Render(v)| + |unit|
  {
    if v == Null then ""
    else
      EndsWithAppend(lead + Render(v), unit);
      assert (lead + Render(v) + unit)[..|lead|] == lead;
      lead + Render(v) + unit
  }



  /** A weather entity with attributes and no forecast reports its current conditions,
      starting with its state. */
  lemma WeatherReportStartsWithState(h: Home)
    requires h.find("weather", Str("")) != []
    requires var a := h.attributes(h.find("weather", Str(""))[0].id);
      a.Some? && a.value != map[] && "forecast" !in a.value
    ensures StartsWith(Weather(Some(h)), "Current weather: " + RenderState(h.state(h.find("weather", Str(""))[0].id)))
  {
    var id := h.find("weather", Str(""))[0].id;
    var head := "Current weather: " + RenderState(h.state(id));
    var r := Weather(Some(h));
    assert r[..|head|] == head;
  }
}

=== FILE: info_handlers.dfy ===
/** The command processor's remaining handlers: TV control, time, general questions and
    system control. The clock and the text generator are oracles. */
module InfoHandlers {
  import opened Base
  import opened Text
  import opened Values
  import opened IntentParse

  /** The current time as `_handle_time` formats it: `time` is `%I:%M %p`, `date` is
      `%A, %B %d, %Y`. */
  datatype Clock = Clock(time: string, date: string)

  /** `_handle_tv_control(parameters)`: not implemented, whatever the parameters. */
  function TvControl(p: Params): (reply: string)
    ensures reply == "TV control is not implemented yet"
  {
    "TV control is not implemented yet"
  }

  /** `_handle_time(parameters)`; the action defaults to the time. */
  function Time(clock: Clock, p: Params): (reply: string)
    ensures p.NotADict? ==> reply == "Sorry, I couldn't get the time information"
    ensures p.Dict? ==> TimeReply(clock, Get(p.entries, "action", Str("get_time")), reply)
  {
    match p
    case NotADict => "Sorry, I couldn't get the time information"
    case Dict(e) =>
      var action := Get(e, "action", Str("get_time"));
      if IsOneOf(action, ["get_time", "current_time"]) then "The current time is " + clock.time
      else if IsOneOf(action, ["get_date", "current_date"]) then "Today is " + clock.date
      else if IsOneOf(action, ["get_datetime", "current_datetime"]) then "It's " + clock.time + " on " + clock.date
      else "Unknown time action: " + Render(action)
  }

  /** The reply for a time action: the time for "get_time" or "current_time", the date for
      "get_date" or "current_date", both for "get_datetime" or "current_datetime", and the
      action echoed back as unknown otherwise. */
  predicate TimeReply(clock: Clock, action: Value, reply: string) {
    && (IsOneOf(action, ["get_time", "current_time"]) ==> reply == "The current time is " + clock.time)
    && (IsOneOf(action, ["get_date", "current_date"]) ==> reply == "Today is " + clock.date)
    && (IsOneOf(action, ["get_datetime", "current_datetime"]) ==> reply == "It's " + clock.time + " on " + clock.date)
    && (!IsOneOf(action, ["get_time", "current_time", "get_date", "current_date", "get_datetime", "current_datetime"]) ==>
          reply == "Unknown time action: " + Render(action))
  }

  /** A time reply reports an unknown action exactly when the action is none of the six
      recognised ones. */
  lemma TimeUnknownExactly(clock: Clock, e: map<string, Value>)
    ensures StartsWith(Time(clock, Dict(e)), "Unknown time action: ") <==>
      !IsOneOf(Get(e, "action", Str("get_time")), ["get_time", "current_time", "get_date", "current_date", "get_datetime", "current_datetime"])
  {
    var r := Time(clock, Dict(e));
    var unknown := "Unknown time action: ";
    if StartsWith(r, unknown) {
      assert r[0] == 'U';
    }
  }

  /** With no action at all the handler tells the time. */
  lemma TimeDefaultsToTime(clock: Clock)
    ensures Time(clock, Dict(map[])) == "The current time is " + clock.time
  {
  }

  /** `_handle_general_query(parameters)`: a falsy query is not asked; otherwise the
      generator's text is the reply, verbatim, even when it is empty. */
  function GeneralQuery(llm: Generator, p: Params): (reply: string)
    ensures p.Dict? && !Truthy(Get(p.entries, "query", Str(""))) ==> reply == "I'm not sure what you're asking"
    ensures p.Dict? && Truthy(Get(p.entries, "query", Str(""))) ==> reply == llm(Question(Get(p.entries, "query", Str(""))))
    ensures p.NotADict? ==> reply == "Sorry, I couldn't answer that question"
  {
    match p
    case NotADict => "Sorry, I couldn't answer that question"
    case Dict(e) =>
      var query := Get(e, "query", Str(""));
      if !Truthy(query) then "I'm not sure what you're asking"
      else llm(Question(query))
  }

  /** The system command each system action maps to. */
  function SystemCommand(action: Value): (r: Option<string>)
    ensures r.Some? <==> IsOneOf(action, ["stop", "shutdown", "exit", "restart", "mute", "mute_on", "unmute", "mute_off"])
    ensures IsOneOf(action, ["stop", "shutdown", "exit"]) ==> r == Some("SHUTDOWN")
    ensures IsOneOf(action, ["restart"]) ==> r == Some("RESTART")
    ensures IsOneOf(action, ["mute", "mute_on"]) ==> r == Some("MUTE")
    ensures IsOneOf(action, ["unmute", "mute_off"]) ==> r == Some("UNMUTE")
  {
    if IsOneOf(action, ["stop", "shutdown", "exit"]) then Some("SHUTDOWN")
    else if IsOneOf(action, ["restart"]) then Some("RESTART")
    else if IsOneOf(action, ["mute", "mute_on"]) then Some("MUTE")
    else if IsOneOf(action, ["unmute", "mute_off"]) then Some("UNMUTE")
    else None
  }

  const SystemPrefix := "SYSTEM_COMMAND:"

  /** `_handle_system_control(parameters)`. */
  function SystemControl(p: Params): (reply: string)
    ensures p.NotADict? ==> reply == "Sorry, I couldn't process that system command"
    ensures p.Dict? && SystemCommand(Get(p.entries, "action", Str(""))).Some? ==>
      reply == SystemPrefix + SystemCommand(Get(p.entries, "action", Str(""))).value
    ensures p.Dict? && SystemCommand(Get(p.entries, "action", Str(""))).None? ==>
      reply == "Unknown system command: " + Render(Get(p.entries, "action", Str("")))
  {
    match p
    case NotADict => "Sorry, I couldn't process that system command"
    case Dict(e) =>
      var action := Get(e, "action", Str(""));
      match SystemCommand(action)
      case Some(cmd) => SystemPrefix + cmd
      case None => "Unknown system command: " + Render(action)
  }

  /** A reply is a system command exactly when the action is one of the eight recognised
      ones; any other action is reported back as unknown. */
  lemma SystemControlReplies(e: map<string, Value>)
    ensures StartsWith(SystemControl(Dict(e)), SystemPrefix) <==> SystemCommand(Get(e, "action", Str(""))).Some?
    ensures SystemCommand(Get(e, "action", Str(""))).Some? ==>
      SystemControl(Dict(e)) == SystemPrefix + SystemCommand(Get(e, "action", Str(""))).value
    ensures SystemCommand(Get(e, "action", Str(""))).None? ==>
      SystemControl(Dict(e)) == "Unknown system command: " + Render(Get(e, "action", Str("")))
  {
    var action := Get(e, "action", Str(""));
    var r := SystemControl(Dict(e));
    match SystemCommand(action)
    case Some(cmd) =>
      assert r[..|SystemPrefix|] == SystemPrefix;
    case None =>
      assert r[0] == 'U' != SystemPrefix[0];
  }
}

=== FILE: intent_parse.dfy ===
/** `CommandProcessor._parse_command`: ask the generator for a JSON description of the
    command, pull the JSON candidate out of its reply, and fall back to a general query. The
    generator and `json.loads` are oracles. */
module IntentParse {
  import opened Base
  import opened Text
  import opened Values

  /** The two things the system asks the text generator. */
  datatype Prompt =
    | ParseRequest(text: string)   // the parsing prompt built from a command
    | Question(query: Value)       // a general question, passed through as given

  /** The text generator (`LLMService.generate`): it never raises and answers `""` when the
      request fails. */
  type Generator = Prompt -> string

  /** The prompt `_parse_command` sends for a command. */
  function ParsePrompt(command: string): string {
    "Parse this voice command: '" + command + "'\nExtract the intent and parameters as JSON."
  }

  /** What `json.loads` made of a candidate: its `"intent"` and `"parameters"` entries, when
      present. The candidate starts with `{` and ends with `}`, so a successful decode is
      always a JSON object. */
  datatype Decoded = Decoded(intent: Option<Value>, parameters: Option<Value>)

  /** `json.loads`: `None` when it raises. */
  type Decoder = string -> Option<Decoded>

  /** The index of the first `c` in `s`. */
  function FirstIndex(s: string, c: char): (r: Option<nat>)
    ensures r.None? <==> c !in s
    ensures r.Some? ==> r.value < |s| && s[r.value] == c && forall k :: 0 <= k < r.value ==> s[k] != c
  {
    if |s| == 0 then None
    else if s[0] == c then Some(0)
    else
      var r := FirstIndex(s[1..], c);
      assert forall k :: 1 <= k < |s| ==> s[k] == s[1..][k - 1];
      if r.Some? then Some(r.value + 1) else None
  }

  /** The index of the last `c` in `s`. */
  function LastIndex(s: string, c: char): (r: Option<nat>)
    ensures r.None? <==> c !in s
    ensures r.Some? ==> r.value < |s| && s[r.value] == c && forall k :: r.value < k < |s| ==> s[k] != c
  {
    if |s| == 0 then None
    else if s[|s| - 1] == c then Some(|s| - 1)
    else
      var r := LastIndex(s[..|s| - 1], c);
      assert forall k :: 0 <= k < |s| - 1 ==> s[k] == s[..|s| - 1][k];
      r
  }

  /** `re.search(r'\{.*\}', reply, re.DOTALL)`: the leftmost `{` starts the match and the
      greedy `.*` runs it to the LAST `}` after it. The span is not a balanced object. */
  function ExtractJson(reply: string): Option<string> {
    match (FirstIndex(reply, '{'), LastIndex(reply, '}'))
    case (Some(i), Some(j)) => if i < j then Some(reply[i..j + 1]) else None
    case _ => None
  }

  /** There is a match exactly when some `{` precedes some `}`; the match starts at a `{`,
      ends at a `}`, has no `{` before it and no `}` after it in the reply. */
  lemma ExtractJsonSpan(reply: string)
    ensures ExtractJson(reply).None? <==>
      !exists i, j :: 0 <= i < j < |reply| && reply[i] == '{' && reply[j] == '}'
    ensures ExtractJson(reply).Some? ==>
      var t := ExtractJson(reply).value;
      && |t| >= 2 && t[0] == '{' && t[|t| - 1] == '}'
      && exists a :: OccursAt(reply, t, a)
          && (forall k :: 0 <= k < a ==> reply[k] != '{')
          && (forall k :: a + |t| <= k < |reply| ==> reply[k] != '}')
  {
    var fi := FirstIndex(reply, '{');
    var lj := LastIndex(reply, '}');
    if exists i, j :: 0 <= i < j < |reply| && reply[i] == '{' && reply[j] == '}' {
      var i, j :| 0 <= i < j < |reply| && reply[i] == '{' && reply[j] == '}';
      assert reply[i] in reply && reply[j] in reply;
      assert fi.value <= i && j <= lj.value;
    }
    if ExtractJson(reply).Some? {
      var a := fi.value;
      var t := reply[a..lj.value + 1];
      assert OccursAt(reply, t, a);
    }
  }

  /** Two objects in one reply are taken as one candidate spanning both, which `json.loads`
      rejects. */
  lemma GreedyExtraction()
    ensures ExtractJson("{} {}") == Some("{} {}")
    ensures ExtractJson("} {") == None
  {
    var two := "{} {}";
    assert FirstIndex(two, '{') == Some(0);
    assert LastIndex(two, '}') == Some(4);
    assert two[0..5] == two;
    assert LastIndex("} {", '}') == Some(0);
  }

  /** The outcome of parsing: the intent as decoded (any JSON value) and the parameters. */
  datatype Parsed = Parsed(intent: Value, params: Params)

  /** The fallback `("general_query", {"query": command})`. */
  function Fallback(command: string): (p: Parsed)
    ensures p.intent == Str("general_query")
    ensures p.params.Dict? && p.params.entries == map["query" := Str(command)]
  {
    Parsed(Str("general_query"), Dict(map["query" := Str(command)]))
  }

  /** `_parse_command(command)`. */
  function Parse(command: string, llm: Generator, decode: Decoder): (p: Parsed)
    ensures ExtractJson(llm(ParseRequest(ParsePrompt(command)))).None? ==> p == Fallback(command)
    ensures var span := ExtractJson(llm(ParseRequest(ParsePrompt(command))));
      span.Some? && decode(span.value).None? ==> p == Fallback(command)
    ensures var span := ExtractJson(llm(ParseRequest(ParsePrompt(command))));
      span.Some? && decode(span.value).Some? ==>
        && p.intent == decode(span.value).value.intent.GetOr(Str("general_query"))
        && p.params == ToParams(decode(span.value).value.parameters)
  {
    match ExtractJson(llm(ParseRequest(ParsePrompt(command))))
    case None => Fallback(command)
    case Some(span) =>
      match decode(span)
      case None => Fallback(command)
      case Some(d) => Parsed(d.intent.GetOr(Str("general_query")), ToParams(d.parameters))
  }

  /** A decoded object without `"intent"` is a general query with its own parameters (`{}`
      when those are absent too), not the fallback `{"query": command}`. */
  lemma MissingIntent(command: string, llm: Generator, decode: Decoder)
    requires var span := ExtractJson(llm(ParseRequest(ParsePrompt(command))));
      span.Some? && decode(span.value).Some? && decode(span.value).value.intent.None?
    ensures var p := Parse(command, llm, decode);
      && p.intent == Str("general_query")
      && (decode(ExtractJson(llm(ParseRequest(ParsePrompt(command)))).value).value.parameters.None? ==>
            p.params == Dict(map[]))
  {
  }

  /** A generator that fails (answers `""`) always leads to the fallback. */
  lemma SilentGeneratorFallsBack(command: string, llm: Generator, decode: Decoder)
    requires llm(ParseRequest(ParsePrompt(command))) == ""
    ensures Parse(command, llm, decode) == Fallback(command)
  {
  }
}

=== FILE: media.dfy ===
/** The media controller: every playback control tries MPD first and falls back to
    Spotify; volume is clamped; mute saves the volume that unmute restores; MPD playback
    resolves playlists and builds search terms; Spotify playback picks a device. The MPD and
    Spotify libraries are oracles: the model receives what their calls returned. */
module Media {
  import opened Base
  import opened Text
  import opened Values

  datatype Backend = Mpd | Spotify

  /** The controller's state: whether each client object exists, and the volume each backend
      saved on its last mute (the `_mpd_volume_before_mute` / `_spotify_volume_before_mute`
      attributes, absent until first set). */
  datatype Controller = Controller(mpd: bool, spotify: bool, mpdSaved: Option<int>, spotifySaved: Option<int>)

  /** How the MPD half of one call went. `Done(v)`: `connect_mpd` kept or re-made the
      connection and the MPD calls returned `v`. `Raised`: an MPD call raised. `Lost`:
      `connect_mpd` failed to reconnect and dropped the client, so the MPD call raised on
      `None`. */
  datatype MpdStep<T> = Done(value: T) | Raised | Lost

  /** The controller after the MPD half of a call: a lost connection drops the MPD client. */
  function AfterMpd<T>(c: Controller, step: MpdStep<T>): (r: Controller)
    ensures r.mpd <==> c.mpd && !step.Lost?
    ensures r.spotify == c.spotify && r.mpdSaved == c.mpdSaved && r.spotifySaved == c.spotifySaved
  {
    if c.mpd && step.Lost? then c.(mpd := false) else c
  }

  /** A playback control. */
  datatype Command = Pause | Resume | Next | Previous | SetVolume(level: int) | Shuffle(on: bool) | Repeat(on: bool)

  /** The result of a control: success, the controller afterwards, the backend that carried
      it out, and the command the backends were sent. */
  datatype Outcome = Outcome(ok: bool, after: Controller, servedBy: Option<Backend>, sent: Command)

  /** `max(0, min(100, level))`. */
  function Clamp(level: int): (r: int)
    ensures 0 <= r <= 100
    ensures 0 <= level <= 100 ==> r == level
    ensures level < 0 ==> r == 0
    ensures level > 100 ==> r == 100
  {
    if level < 0 then 0 else if level > 100 then 100 else level
  }

  /** The command actually sent to a backend: `set_volume` clamps its level before any
      backend call, every other command goes out unchanged. */
  function Issued(cmd: Command): (r: Command)
    ensures r.SetVolume? <==> cmd.SetVolume?
    ensures r.SetVolume? ==> r.level == Clamp(cmd.level)
    ensures !cmd.SetVolume? ==> r == cmd
  {
    if cmd.SetVolume? then SetVolume(Clamp(cmd.level)) else cmd
  }

  /** `pause`, `play`, `next`, `previous`, `set_volume`, `set_shuffle` and `set_repeat`:
      MPD when its client exists, then Spotify when MPD is absent or raised (`spotifyOk`: the
      Spotify call did not raise), else failure. */
  function Control(c: Controller, cmd: Command, step: MpdStep<()>, spotifyOk: bool): (r: Outcome)
    ensures r.sent == Issued(cmd)
    ensures r.ok <==> r.servedBy.Some?
    ensures r.servedBy == Some(Mpd) <==> c.mpd && step.Done?
    ensures r.servedBy == Some(Spotify) <==> !(c.mpd && step.Done?) && c.spotify && spotifyOk
    ensures r.after == AfterMpd(c, step)
  {
    var c' := AfterMpd(c, step);
    if c.mpd && step.Done? then Outcome(true, c', Some(Mpd), Issued(cmd))
    else if c.spotify && spotifyOk then Outcome(true, c', Some(Spotify), Issued(cmd))
    else Outcome(false, c', None, Issued(cmd))
  }

  /** Spotify is only ever consulted when MPD did not carry out the command, and the call
      fails exactly when neither backend did. */
  lemma FallbackOrder(c: Controller, cmd: Command, step: MpdStep<()>, spotifyOk: bool)
    ensures var r := Control(c, cmd, step, spotifyOk);
      && (c.mpd && step.Done? ==> r.servedBy == Some(Mpd))
      && (!r.ok <==> !(c.mpd && step.Done?) && !(c.spotify && spotifyOk))
      && (!c.mpd && !c.spotify ==> !r.ok && r.after == c)
  {
  }

  /** `get_volume()`: the MPD status volume when MPD reports one, otherwise Spotify's device
      volume when Spotify reports one (`spotify`), otherwise `None`. */
  function GetVolume(c: Controller, step: MpdStep<Option<int>>, spotify: Option<int>): (r: (Option<int>, Controller))
    ensures c.mpd && step.Done? && step.value.Some? ==> r.0 == step.value
    ensures r.0.None? <==> !(c.mpd && step.Done? && step.value.Some?) && !(c.spotify && spotify.Some?)
    ensures r.1 == AfterMpd(c, step)
  {
    var c' := AfterMpd(c, step);
    if c.mpd && step.Done? && step.value.Some? then (step.value, c')
    else if c.spotify && spotify.Some? then (spotify, c')
    else (None, c')
  }

  /** One backend's half of `set_mute`: the volume it reported before muting (`None` when it
      reported none or the status request raised) and whether the volume change completed. */
  datatype MuteStep = MuteStep(reported: Option<int>, completed: bool)

  /** The result of `set_mute`: success, the controller afterwards, the backend that carried
      it out, and the volume that backend was set to. */
  datatype MuteOutcome = MuteOutcome(ok: bool, after: Controller, servedBy: Option<Backend>, level: int)

  /** The volume unmuting restores: the last saved one, or 50 when none was ever saved. */
  function RestoreLevel(saved: Option<int>): (r: int)
    ensures saved.Some? ==> r == saved.value
    ensures saved.None? ==> r == 50
  {
    saved.GetOr(50)
  }

  /** `set_mute(mute)`. Muting saves the reported volume (keeping the old one when none is
      reported, even if the volume change then fails) and sets 0; unmuting sets the saved
      volume or 50. MPD first, then Spotify. */
  function SetMute(c: Controller, mute: bool, mpd: MpdStep<MuteStep>, spotify: MuteStep): (r: MuteOutcome)
    ensures r.ok <==> r.servedBy.Some?
    ensures r.servedBy == Some(Mpd) <==> c.mpd && mpd.Done? && mpd.value.completed
    ensures r.servedBy == Some(Spotify) <==> !(c.mpd && mpd.Done? && mpd.value.completed) && c.spotify && spotify.completed
    ensures r.after.mpd <==> c.mpd && !mpd.Lost?
    ensures mute && r.ok ==> r.level == 0
    ensures !mute && r.servedBy == Some(Mpd) ==> r.level == RestoreLevel(c.mpdSaved)
    ensures !mute && r.servedBy == Some(Spotify) ==> r.level == RestoreLevel(c.spotifySaved)
    ensures !mute ==> r.after.mpdSaved == c.mpdSaved && r.after.spotifySaved == c.spotifySaved
    ensures mute && c.mpd && mpd.Done? && mpd.value.reported.Some? ==> r.after.mpdSaved == mpd.value.reported
    ensures mute && c.spotify && !(c.mpd && mpd.Done? && mpd.value.completed) && spotify.reported.Some? ==>
      r.after.spotifySaved == spotify.reported
  {
    var c1 :=
      if mute && c.mpd && mpd.Done? && mpd.value.reported.Some?
      then AfterMpd(c, mpd).(mpdSaved := mpd.value.reported)
      else AfterMpd(c, mpd);
    if c.mpd && mpd.Done? && mpd.value.completed then
      MuteOutcome(true, c1, Some(Mpd), if mute then 0 else RestoreLevel(c.mpdSaved))
    else if c.spotify then
      var c2 := if mute && spotify.reported.Some? then c1.(spotifySaved := spotify.reported) else c1;
      if spotify.completed then MuteOutcome(true, c2, Some(Spotify), if mute then 0 else RestoreLevel(c.spotifySaved))
      else MuteOutcome(false, c2, None, 0)
    else MuteOutcome(false, c1, None, 0)
  }

  /** Muting through MPD while it reports volume `v`, then unmuting through MPD, sets the
      volume back to `v`. */
  lemma MuteThenUnmuteRestores(c: Controller, v: int, unmuteStep: MpdStep<MuteStep>, s1: MuteStep, s2: MuteStep)
    requires c.mpd && unmuteStep.Done? && unmuteStep.value.completed
    ensures var muted := SetMute(c, true, Done(MuteStep(Some(v), true)), s1);
      SetMute(muted.after, false, unmuteStep, s2).level == v
  {
  }

  /** What `play_mpd` was asked for; absent arguments are `None`. */
  datatype MpdRequest = MpdRequest(artist: Value, album: Value, title: Value, genre: Value, playlist: Value)

  /** `play_mpd`'s search query: the truthy ones among artist, album, title and genre, in
      that order. */
  function SearchTerms(req: MpdRequest): (terms: seq<(string, Value)>)
    ensures |terms| <= 4
    ensures forall t :: t in terms ==> Truthy(t.1)
    ensures ("artist", req.artist) in terms <==> Truthy(req.artist)
    ensures ("album", req.album) in terms <==> Truthy(req.album)
    ensures ("title", req.title) in terms <==> Truthy(req.title)
    ensures ("genre", req.genre) in terms <==> Truthy(req.genre)
    ensures forall t :: t in terms ==> t.0 in ["artist", "album", "title", "genre"]
    ensures terms == [] <==> !Truthy(req.artist) && !Truthy(req.album) && !Truthy(req.title) && !Truthy(req.genre)
  {
    (if Truthy(req.artist) then [("artist", req.artist)] else [])
    + (if Truthy(req.album) then [("album", req.album)] else [])
    + (if Truthy(req.title) then [("title", req.title)] else [])
    + (if Truthy(req.genre) then [("genre", req.genre)] else [])
  }

  /** The partial-match test for playlist names: case-insensitive substring. */
  predicate PartialMatch(wanted: string, name: string) {
    Contains(Lower(name), Lower(wanted))
  }

  /** The first playlist name that partially matches `wanted`. */
  function FirstPartial(wanted: string, names: seq<string>): (r: Option<string>)
    ensures r.None? <==> forall k :: 0 <= k < |names| ==> !PartialMatch(wanted, names[k])
    ensures r.Some? ==>
      exists k :: 0 <= k < |names| && names[k] == r.value
        && PartialMatch(wanted, names[k]) && forall j :: 0 <= j < k ==> !PartialMatch(wanted, names[j])
  {
    if |names| == 0 then None
    else if PartialMatch(wanted, names[0]) then Some(names[0])
    else
      var r := FirstPartial(wanted, names[1..]);
      assert forall k :: 1 <= k < |names| ==> names[k] == names[1..][k - 1];
      if r.Some? then
        var k :| 0 <= k < |names[1..]| && names[1..][k] == r.value
          && PartialMatch(wanted, names[1..][k]) && forall j :: 0 <= j < k ==> !PartialMatch(wanted, names[1..][j]);
        assert names[k + 1] == r.value && forall j :: 0 <= j < k + 1 ==> !PartialMatch(wanted, names[j]);
        r
      else r
  }

  /** The playlist `play_mpd` loads: the exact name when the server has it, otherwise the
      first case-insensitive partial match, otherwise none. */
  function ResolvePlaylist(wanted: string, names: seq<string>): (r: Option<string>)
    ensures r.Some? ==> r.value in names
    ensures r.Some? && r.value != wanted ==> PartialMatch(wanted, r.value)
    ensures wanted in names ==> r == Some(wanted)
  {
    if wanted in names then Some(wanted) else FirstPartial(wanted, names)
  }

  /** An exact match wins even over an earlier partial match; without one the first partial
      match is chosen; with neither nothing is loaded. */
  lemma ResolvePlaylistChoice(wanted: string, names: seq<string>)
    ensures wanted in names ==> ResolvePlaylist(wanted, names) == Some(wanted)
    ensures wanted !in names && ResolvePlaylist(wanted, names).Some? ==>
      exists k :: 0 <= k < |names| && names[k] == ResolvePlaylist(wanted, names).value
        && PartialMatch(wanted, names[k]) && forall j :: 0 <= j < k ==> !PartialMatch(wanted, names[j])
    ensures ResolvePlaylist(wanted, names).None? <==>
      wanted !in names && forall k :: 0 <= k < |names| ==> !PartialMatch(wanted, names[k])
  {
  }

  /** The MPD server as `play_mpd` sees it: its stored playlists, the files a search
      returns, and whether all its calls go through (`healthy`; one that raises makes
      `play_mpd` return `False`). */
  datatype MpdServer = MpdServer(playlists: seq<string>, search: seq<(string, Value)> -> seq<string>, healthy: bool)

  /** The result of `play_mpd`: whether playback started, the playlist loaded, the files
      queued, and the controller afterwards. */
  datatype MpdPlay = MpdPlay(ok: bool, loaded: Option<string>, queued: seq<string>, after: Controller)

  /** `play_mpd(...)`: `reconnected` is what `connect_mpd` reported when the client exists. */
  function PlayMpd(c: Controller, req: MpdRequest, reconnected: bool, server: MpdServer): (r: MpdPlay)
    ensures r.ok <==>
      && c.mpd && reconnected && server.healthy
      && (if Truthy(req.playlist)
          then req.playlist.Str? && ResolvePlaylist(req.playlist.s, server.playlists).Some?
          else SearchTerms(req) == [] || server.search(SearchTerms(req)) != [])
    ensures r.after.mpd <==> c.mpd && reconnected
    ensures Truthy(req.playlist) ==> r.queued == []
    ensures Truthy(req.playlist) && r.ok ==>
      r.loaded.Some? && req.playlist.Str? && r.loaded == ResolvePlaylist(req.playlist.s, server.playlists)
    ensures !Truthy(req.playlist) ==> r.loaded.None?
    ensures !Truthy(req.playlist) && r.ok && SearchTerms(req) != [] ==> r.queued == server.search(SearchTerms(req))
    ensures !Truthy(req.playlist) && r.ok && SearchTerms(req) == [] ==> r.queued == [""]
  {
    if !c.mpd then MpdPlay(false, None, [], c)
    else if !reconnected then MpdPlay(false, None, [], c.(mpd := false))
    else if !server.healthy then MpdPlay(false, None, [], c)
    else if Truthy(req.playlist) then
      match req.playlist
      case Str(wanted) =>
        var choice := ResolvePlaylist(wanted, server.playlists);
        MpdPlay(choice.Some?, choice, [], c)
      case _ => MpdPlay(false, None, [], c)
    else
      var terms := SearchTerms(req);
      if terms == [] then MpdPlay(true, None, [""], c)
      else
        var files := server.search(terms);
        if files == [] then MpdPlay(false, None, [], c)
        else MpdPlay(true, None, files, c)
  }

  /** A search that finds nothing reports failure and queues nothing, so playback never
      starts; without any search field everything is queued. */
  lemma PlayMpdEmptySearch(c: Controller, req: MpdRequest, server: MpdServer)
    requires !Truthy(req.playlist)
    ensures SearchTerms(req) != [] && server.search(SearchTerms(req)) == [] ==>
      var r := PlayMpd(c, req, true, server); !r.ok && r.queued == []
    ensures c.mpd && server.healthy && SearchTerms(req) == [] ==>
      var r := PlayMpd(c, req, true, server); r.ok && r.queued == [""]
  {
  }

  /** A Spotify Connect device. */
  datatype Device = Device(id: string, active: bool)

  /** The device `play_spotify` targets: the first active one, or the first one if none is
      active. */
  function ChooseDevice(ds: seq<Device>): (d: Device)
    requires |ds| > 0
    ensures d in ds
    ensures (exists k :: 0 <= k < |ds| && ds[k].active) ==>
      d.active && exists k :: 0 <= k < |ds| && ds[k] == d && forall j :: 0 <= j < k ==> !ds[j].active
    ensures (forall k :: 0 <= k < |ds| ==> !ds[k].active) ==> d == ds[0]
  {
    if ds[0].active || |ds| == 1 then ds[0]
    else
      var rest := ChooseDevice(ds[1..]);
      assert forall k :: 1 <= k < |ds| ==> ds[k] == ds[1..][k - 1];
      if (exists k :: 0 <= k < |ds| && ds[k].active) then
        var k :| 0 <= k < |ds[1..]| && ds[1..][k] == rest && forall j :: 0 <= j < k ==> !ds[1..][j].active;
        assert ds[k + 1] == rest && forall j :: 0 <= j < k + 1 ==> !ds[j].active;
        rest
      else ds[0]
  }

  /** What `play_spotify` was asked for; absent arguments are `None`. */
  datatype SpotifyRequest = SpotifyRequest(artist: Value, album: Value, track: Value, playlist: Value, genre: Value)

  datatype SearchKind = TrackSearch | AlbumSearch | ArtistSearch | PlaylistSearch

  /** A Spotify search: the item type and the query text. */
  datatype SpotifyQuery = SpotifyQuery(kind: SearchKind, text: string)

  /** The search `play_spotify` runs for a request: a track when artist and track are given,
      an album when artist and album are, the artist alone, a playlist by name, a playlist by
      genre; none when nothing usable was given. */
  function QueryFor(req: SpotifyRequest): (q: Option<SpotifyQuery>)
    ensures q.None? <==> !Truthy(req.artist) && !Truthy(req.playlist) && !Truthy(req.genre)
    ensures Truthy(req.artist) && Truthy(req.track) ==> q.Some? && q.value.kind == TrackSearch
    ensures q.Some? && q.value.kind == ArtistSearch ==> q.value.text == Render(req.artist)
  {
    if Truthy(req.artist) && Truthy(req.track) then
      Some(SpotifyQuery(TrackSearch, "artist:" + Render(req.artist) + " track:" + Render(req.track)))
    else if Truthy(req.artist) && Truthy(req.album) then
      Some(SpotifyQuery(AlbumSearch, "artist:" + Render(req.artist) + " album:" + Render(req.album)))
    else if Truthy(req.artist) then Some(SpotifyQuery(ArtistSearch, Render(req.artist)))
    else if Truthy(req.playlist) then Some(SpotifyQuery(PlaylistSearch, Render(req.playlist)))
    else if Truthy(req.genre) then Some(SpotifyQuery(PlaylistSearch, "genre:" + Render(req.genre)))
    else None
  }

  /** The result of `play_spotify`: whether playback started, on which device, with which
      item. */
  datatype SpotifyPlay = SpotifyPlay(ok: bool, device: Option<string>, uri: Option<string>)

  /** `play_spotify(...)`. `devices` is the device list (`None` when the request raised or
      returned nothing), `search` the URI of the first hit of a search, `playbackOk` whether
      `start_playback` went through. */
  function PlaySpotify(c: Controller, req: SpotifyRequest, devices: Option<seq<Device>>,
                       search: SpotifyQuery -> Option<string>, playbackOk: bool): (r: SpotifyPlay)
    ensures r.device.Some? <==> c.spotify && devices.Some? && devices.value != []
    ensures r.device.Some? ==> r.device.value == ChooseDevice(devices.value).id
    ensures r.uri == (if r.device.Some? && QueryFor(req).Some? then search(QueryFor(req).value) else None)
    ensures r.ok <==> r.uri.Some? && playbackOk
  {
    if !c.spotify then SpotifyPlay(false, None, None)
    else match devices
      case None => SpotifyPlay(false, None, None)
      case Some(ds) =>
        if ds == [] then SpotifyPlay(false, None, None)
        else
          var target := ChooseDevice(ds).id;
          match QueryFor(req)
          case None => SpotifyPlay(false, Some(target), None)
          case Some(q) =>
            match search(q)
            case None => SpotifyPlay(false, Some(target), None)
            case Some(uri) => SpotifyPlay(playbackOk, Some(target), Some(uri))
  }
}

=== FILE: media_handlers.dfy ===
/** The command processor's media handlers: play music, playback control and volume. Each
    is a decision tree over the parameter map and what the media controller answers; the
    controller is an oracle whose requests are the ones the controller model describes. */
module MediaHandlers {
  import opened Base
  import opened Text
  import opened Values
  import Media

  /** The media controller as the handlers see it: `play_mpd`, `play_spotify`, the playback
      controls, `get_volume` and `set_mute`, each with the result it returned. */
  datatype MediaEnv = MediaEnv(
    playMpd: Media.MpdRequest -> bool,
    playSpotify: Media.SpotifyRequest -> bool,
    control: Media.Command -> bool,
    volume: Option<int>,
    mute: bool -> bool)

  const Unavailable := "Media controller is not available"

  /** The Spotify request `_handle_play_music` makes: a track, an album, an artist, a
      playlist or a genre, in that order of preference; `None` when none is given. */
  function SpotifyRequestFor(artist: Value, album: Value, track: Value, playlist: Value, genre: Value): (r: Option<Media.SpotifyRequest>)
    ensures r.None? <==> !Truthy(artist) && !Truthy(playlist) && !Truthy(genre)
    ensures r.Some? ==> Media.QueryFor(r.value).Some?
    ensures Truthy(artist) && Truthy(track) ==> r == Some(Media.SpotifyRequest(artist, Null, track, Null, Null))
  {
    if Truthy(artist) && Truthy(track) then Some(Media.SpotifyRequest(artist, Null, track, Null, Null))
    else if Truthy(artist) && Truthy(album) then Some(Media.SpotifyRequest(artist, album, Null, Null, Null))
    else if Truthy(artist) then Some(Media.SpotifyRequest(artist, Null, Null, Null, Null))
    else if Truthy(playlist) then Some(Media.SpotifyRequest(Null, Null, Null, playlist, Null))
    else if Truthy(genre) then Some(Media.SpotifyRequest(Null, Null, Null, Null, genre))
    else None
  }

  /** The reply after Spotify started playback. It is chosen by which fields are truthy,
      independently of the request made, so a track given with a playlist but no artist
      reads "Playing <track> by  on Spotify". */
  function SpotifySuccess(artist: Value, album: Value, track: Value, playlist: Value, genre: Value): (reply: string)
    ensures StartsWith(reply, "Playing ")
    ensures EndsWith(reply, " on Spotify")
    ensures Truthy(track) ==> reply == "Playing " + Render(track) + " by " + Render(artist) + " on Spotify"
  {
    var what :=
      if Truthy(track) then "Playing " + Render(track) + " by " + Render(artist)
      else if Truthy(album) then "Playing album " + Render(album) + " by " + Render(artist)
      else if Truthy(artist) then "Playing music by " + Render(artist)
      else if Truthy(playlist) then "Playing playlist " + Render(playlist)
      else "Playing " + Render(genre) + " music";
    EndsWithAppend(what, " on Spotify");
    what + " on Spotify"
  }

  /** The MPD request `_handle_play_music` makes: artist with track, artist with album,
      artist, album, track or genre, in that order; with none, play anything. It never asks
      MPD for a playlist. */
  function MpdRequestFor(artist: Value, album: Value, track: Value, genre: Value): (r: Media.MpdRequest)
    ensures r.playlist == Null
    ensures |Media.SearchTerms(r)| <= 2
    ensures Media.SearchTerms(r) == [] <==> !Truthy(artist) && !Truthy(album) && !Truthy(track) && !Truthy(genre)
  {
    if Truthy(artist) && Truthy(track) then Media.MpdRequest(artist, Null, track, Null, Null)
    else if Truthy(artist) && Truthy(album) then Media.MpdRequest(artist, album, Null, Null, Null)
    else if Truthy(artist) then Media.MpdRequest(artist, Null, Null, Null, Null)
    else if Truthy(album) then Media.MpdRequest(Null, album, Null, Null, Null)
    else if Truthy(track) then Media.MpdRequest(Null, Null, track, Null, Null)
    else if Truthy(genre) then Media.MpdRequest(Null, Null, Null, genre, Null)
    else Media.MpdRequest(Null, Null, Null, Null, Null)
  }

  /** The reply after MPD started playback. */
  function MpdSuccess(artist: Value, album: Value, track: Value, genre: Value): (reply: string)
    ensures StartsWith(reply, "Playing ")
    ensures !Truthy(artist) && !Truthy(album) && !Truthy(track) && !Truthy(genre) ==> reply == "Playing music"
    ensures Truthy(artist) && Truthy(track) ==> reply == "Playing " + Render(track) + " by " + Render(artist)
  {
    if Truthy(track) && Truthy(artist) then "Playing " + Render(track) + " by " + Render(artist)
    else if Truthy(album) && Truthy(artist) then "Playing album " + Render(album) + " by " + Render(artist)
    else if Truthy(artist) then "Playing music by " + Render(artist)
    else if Truthy(track) then "Playing " + Render(track)
    else if Truthy(album) then "Playing album " + Render(album)
    else if Truthy(genre) then "Playing " + Render(genre) + " music"
    else "Playing music"
  }

  /** The Spotify branch of `_handle_play_music`: without an artist, playlist or genre the
      user is asked what to play; otherwise the request's outcome picks the reply. */
  function SpotifyReply(m: MediaEnv, e: map<string, Value>): (reply: string)
    ensures var request := SpotifyRequestFor(Get(e, "artist", Str("")), Get(e, "album", Str("")), Get(e, "track", Str("")),
                                             Get(e, "playlist", Str("")), Get(e, "genre", Str("")));
      && (request.None? ==> reply == "Please specify what you'd like to play on Spotify")
      && (request.Some? && m.playSpotify(request.value) ==>
            reply == SpotifySuccess(Get(e, "artist", Str("")), Get(e, "album", Str("")), Get(e, "track", Str("")),
                                    Get(e, "playlist", Str("")), Get(e, "genre", Str(""))))
      && (request.Some? && !m.playSpotify(request.value) ==> reply == "Sorry, I couldn't play that on Spotify")
  {
    var artist := Get(e, "artist", Str(""));
    var album := Get(e, "album", Str(""));
    var track := Get(e, "track", Str(""));
    var playlist := Get(e, "playlist", Str(""));
    var genre := Get(e, "genre", Str(""));
    match SpotifyRequestFor(artist, album, track, playlist, genre)
    case None => "Please specify what you'd like to play on Spotify"
    case Some(req) =>
      if m.playSpotify(req) then SpotifySuccess(artist, album, track, playlist, genre)
      else "Sorry, I couldn't play that on Spotify"
  }

  /** The MPD branch of `_handle_play_music`: MPD is always asked, with search terms from
      the fields given, and its outcome picks the reply. */
  function MpdReply(m: MediaEnv, e: map<string, Value>): (reply: string)
    ensures var artist, album, track, genre :=
        Get(e, "artist", Str("")), Get(e, "album", Str("")), Get(e, "track", Str("")), Get(e, "genre", Str(""));
      && (m.playMpd(MpdRequestFor(artist, album, track, genre)) ==> reply == MpdSuccess(artist, album, track, genre))
      && (!m.playMpd(MpdRequestFor(artist, album, track, genre)) ==> reply == "Sorry, I couldn't play that music")
  {
    var artist := Get(e, "artist", Str(""));
    var album := Get(e, "album", Str(""));
    var track := Get(e, "track", Str(""));
    var genre := Get(e, "genre", Str(""));
    if m.playMpd(MpdRequestFor(artist, album, track, genre)) then MpdSuccess(artist, album, track, genre)
    else "Sorry, I couldn't play that music"
  }

  /** `_handle_play_music(parameters)`: the source must be a string (`.lower()` raises on
      anything else); "spotify" in any case plays on Spotify, "mpd" or nothing on MPD, and any
      other source is refused. */
  function PlayMusic(media: Option<MediaEnv>, p: Params): (reply: string)
    ensures media.None? ==> reply == Unavailable
    ensures media.Some? && (p.NotADict? || !Get(p.entries, "source", Str("")).Str?) ==>
      reply == "Sorry, I had trouble playing the music"
    ensures (media.Some? && p.Dict? && Get(p.entries, "source", Str("")).Str?
             && Lower(Get(p.entries, "source", Str("")).s) == "spotify") ==>
      reply == SpotifyReply(media.value, p.entries)
    ensures (media.Some? && p.Dict? && Get(p.entries, "source", Str("")).Str?
             && Lower(Get(p.entries, "source", Str("")).s) in ["mpd", ""]) ==>
      reply == MpdReply(media.value, p.entries)
    ensures (media.Some? && p.Dict? && Get(p.entries, "source", Str("")).Str?
             && Lower(Get(p.entries, "source", Str("")).s) !in ["spotify", "mpd", ""]) ==>
      reply == "Sorry, I don't support playing music from " + Lower(Get(p.entries, "source", Str("")).s)
  {
    match media
    case None => Unavailable
    case Some(m) =>
      match p
      case NotADict => "Sorry, I had trouble playing the music"
      case Dict(e) =>
        var sourceValue := Get(e, "source", Str(""));
        if !sourceValue.Str? then "Sorry, I had trouble playing the music"
        else
          var source := Lower(sourceValue.s);
          if source == "spotify" then SpotifyReply(m, e)
          else if source == "mpd" || source == "" then MpdReply(m, e)
          else "Sorry, I don't support playing music from " + source
  }


  /** Where music plays: a Spotify request is made only for source "spotify" (any case); MPD
      is asked for any source that lowers to "mpd" or is empty; other sources are refused by
      name. */
  lemma PlayMusicRouting(m: MediaEnv, e: map<string, Value>, source: string)
    requires Get(e, "source", Str("")) == Str(source)
    ensures (Lower(source) == "spotify" && !Truthy(Get(e, "artist", Str(""))) && !Truthy(Get(e, "playlist", Str("")))
             && !Truthy(Get(e, "genre", Str("")))) ==>
        PlayMusic(Some(m), Dict(e)) == "Please specify what you'd like to play on Spotify"
    ensures (Lower(source) == "mpd" || source == "") ==>
      var r := PlayMusic(Some(m), Dict(e));
      var req := MpdRequestFor(Get(e, "artist", Str("")), Get(e, "album", Str("")), Get(e, "track", Str("")), Get(e, "genre", Str("")));
      (m.playMpd(req) ==> r == MpdSuccess(Get(e, "artist", Str("")), Get(e, "album", Str("")), Get(e, "track", Str("")), Get(e, "genre", Str(""))))
      && (!m.playMpd(req) ==> r == "Sorry, I couldn't play that music")
    ensures Lower(source) != "spotify" && Lower(source) != "mpd" && source != "" ==>
      PlayMusic(Some(m), Dict(e)) == "Sorry, I don't support playing music from " + Lower(source)
  {
    if source == "" {
      assert Lower(source) == "";
    }
    if Lower(source) == "" {
      assert |source| == 0;
    }
  }

  /** A track named with a playlist but no artist asks Spotify for the playlist and, on
      success, replies as if the track were playing, with an empty artist. */
  lemma SpotifyReplyFollowsFields(m: MediaEnv, e: map<string, Value>)
    requires Get(e, "source", Str("")) == Str("spotify")
    requires Get(e, "artist", Str("")) == Str("") && Truthy(Get(e, "track", Str("")))
    requires Truthy(Get(e, "playlist", Str("")))
    requires m.playSpotify(Media.SpotifyRequest(Null, Null, Null, Get(e, "playlist", Str("")), Null))
    ensures PlayMusic(Some(m), Dict(e)) == "Playing " + Render(Get(e, "track", Str(""))) + " by  on Spotify"
  {
    assert Lower("spotify") == "spotify";
    var artist, album, track, playlist, genre :=
      Get(e, "artist", Str("")), Get(e, "album", Str("")), Get(e, "track", Str("")), Get(e, "playlist", Str("")), Get(e, "genre", Str(""));
    assert SpotifyRequestFor(artist, album, track, playlist, genre) == Some(Media.SpotifyRequest(Null, Null, Null, playlist, Null));
    var t := Render(track);
    assert Render(artist) == "";
    assert "Playing " + t + " by " + Render(artist) + " on Spotify" == "Playing " + t + " by  on Spotify" by {
      assert "Playing " + t + " by " + Render(artist) == "Playing " + t + " by ";
      assert " by " + " on Spotify" == " by  on Spotify";
    }
    assert PlayMusic(Some(m), Dict(e)) == SpotifyReply(m, e);
  }

  /** The playback command and the two replies for a `media_control` action. */
  datatype Control = Control(cmd: Media.Command, done: string, failed: string)

  /** The control for each recognised `media_control` action. */
  function ControlFor(action: Value): (c: Option<Control>)
    ensures c.Some? <==> IsOneOf(action, ["pause", "stop", "play", "resume", "next", "skip", "previous", "back",
                                          "shuffle", "shuffle_on", "shuffle_off", "repeat", "repeat_on", "repeat_off"])
    ensures c.Some? ==> !c.value.cmd.SetVolume?
  {
    if IsOneOf(action, ["pause", "stop"]) then Some(Control(Media.Pause, "Paused", "Failed to pause"))
    else if IsOneOf(action, ["play", "resume"]) then Some(Control(Media.Resume, "Resumed playback", "Failed to resume playback"))
    else if IsOneOf(action, ["next", "skip"]) then Some(Control(Media.Next, "Skipped to next track", "Failed to skip to next track"))
    else if IsOneOf(action, ["previous", "back"]) then Some(Control(Media.Previous, "Went back to previous track", "Failed to go back"))
    else if IsOneOf(action, ["shuffle", "shuffle_on"]) then Some(Control(Media.Shuffle(true), "Shuffle mode enabled", "Failed to enable shuffle mode"))
    else if IsOneOf(action, ["shuffle_off"]) then Some(Control(Media.Shuffle(false), "Shuffle mode disabled", "Failed to disable shuffle mode"))
    else if IsOneOf(action, ["repeat", "repeat_on"]) then Some(Control(Media.Repeat(true), "Repeat mode enabled", "Failed to enable repeat mode"))
    else if IsOneOf(action, ["repeat_off"]) then Some(Control(Media.Repeat(false), "Repeat mode disabled", "Failed to disable repeat mode"))
    else None
  }

  /** `_handle_media_control(parameters)`. */
  function MediaControl(media: Option<MediaEnv>, p: Params): (reply: string)
    ensures media.None? ==> reply == Unavailable
    ensures media.Some? && p.NotADict? ==> reply == "Sorry, I had trouble controlling the media"
    ensures media.Some? && p.Dict? && ControlFor(Get(p.entries, "action", Str(""))).None? ==>
      reply == "Unknown media control action: " + Render(Get(p.entries, "action", Str("")))
    ensures media.Some? && p.Dict? && ControlFor(Get(p.entries, "action", Str(""))).Some? ==>
      var c := ControlFor(Get(p.entries, "action", Str(""))).value;
      reply == (if media.value.control(c.cmd) then c.done else c.failed)
  {
    match media
    case None => Unavailable
    case Some(m) =>
      match p
      case NotADict => "Sorry, I had trouble controlling the media"
      case Dict(e) =>
        var action := Get(e, "action", Str(""));
        match ControlFor(action)
        case None => "Unknown media control action: " + Render(action)
        case Some(c) => if m.control(c.cmd) then c.done else c.failed
  }

  /** `_handle_volume_control(parameters)`. `set` passes the requested level through (the
      controller clamps it, but the reply repeats it unclamped); `up` and `down` move the
      current volume by `step` (10 when absent) and cap the result at 100 and 0. A level or
      step that is not a number makes the arithmetic raise. */
  function VolumeControl(media: Option<MediaEnv>, p: Params): (reply: string)
    ensures media.None? ==> reply == Unavailable
    ensures media.Some? && p.NotADict? ==> reply == "Sorry, I had trouble controlling the volume"
    ensures media.Some? && p.Dict? ==> VolumeReply(media.value, p.entries, reply)
  {
    match media
    case None => Unavailable
    case Some(m) =>
      match p
      case NotADict => "Sorry, I had trouble controlling the volume"
      case Dict(e) =>
        var action := Get(e, "action", Str(""));
        var level := Get(e, "level", Null);
        var step := Get(e, "step", Int(10));
        if IsOneOf(action, ["set", "set_volume"]) && level != Null then
          match AsNumber(level)
          case None => "Sorry, I had trouble controlling the volume"
          case Some(n) => if m.control(Media.SetVolume(n)) then "Volume set to " + Render(level) + "%" else "Failed to set volume"
        else if IsOneOf(action, ["up", "increase"]) then
          match m.volume
          case None => "Failed to get current volume"
          case Some(current) =>
            match AsNumber(step)
            case None => "Sorry, I had trouble controlling the volume"
            case Some(s) =>
              var target := StepUp(current, s);
              if m.control(Media.SetVolume(target)) then "Volume increased to " + IntToString(target) + "%"
              else "Failed to increase volume"
        else if IsOneOf(action, ["down", "decrease"]) then
          match m.volume
          case None => "Failed to get current volume"
          case Some(current) =>
            match AsNumber(step)
            case None => "Sorry, I had trouble controlling the volume"
            case Some(s) =>
              var target := StepDown(current, s);
              if m.control(Media.SetVolume(target)) then "Volume decreased to " + IntToString(target) + "%"
              else "Failed to decrease volume"
        else if IsOneOf(action, ["mute", "mute_on"]) then
          if m.mute(true) then "Muted" else "Failed to mute"
        else if IsOneOf(action, ["unmute", "mute_off"]) then
          if m.mute(false) then "Unmuted" else "Failed to unmute"
        else "Unknown volume control action: " + Render(action)
  }

  /** The volume handler's replies for a parameter map: a level is set as given; up and down
      need the current volume and move it by the step within 0-100; mute and unmute report
      the controller's answer; "set" without a level, like any other action, is unknown. */
  predicate VolumeReply(m: MediaEnv, e: map<string, Value>, reply: string) {
    var action := Get(e, "action", Str(""));
    var level := Get(e, "level", Null);
    var step := AsNumber(Get(e, "step", Int(10)));
    if IsOneOf(action, ["set", "set_volume"]) && level != Null then
      && (AsNumber(level).None? ==> reply == "Sorry, I had trouble controlling the volume")
      && (AsNumber(level).Some? ==>
            reply == (if m.control(Media.SetVolume(AsNumber(level).value)) then "Volume set to " + Render(level) + "%" else "Failed to set volume"))
    else if IsOneOf(action, ["up", "increase", "down", "decrease"]) then
      && (m.volume.None? ==> reply == "Failed to get current volume")
      && (m.volume.Some? && step.None? ==> reply == "Sorry, I had trouble controlling the volume")
      && (m.volume.Some? && step.Some? && IsOneOf(action, ["up", "increase"]) ==>
            var target := StepUp(m.volume.value, step.value);
            target <= 100 && reply == (if m.control(Media.SetVolume(target)) then "Volume increased to " + IntToString(target) + "%" else "Failed to increase volume"))
      && (m.volume.Some? && step.Some? && IsOneOf(action, ["down", "decrease"]) ==>
            var target := StepDown(m.volume.value, step.value);
            target >= 0 && reply == (if m.control(Media.SetVolume(target)) then "Volume decreased to " + IntToString(target) + "%" else "Failed to decrease volume"))
    else if IsOneOf(action, ["mute", "mute_on"]) then reply == (if m.mute(true) then "Muted" else "Failed to mute")
    else if IsOneOf(action, ["unmute", "mute_off"]) then reply == (if m.mute(false) then "Unmuted" else "Failed to unmute")
    else reply == "Unknown volume control action: " + Render(action)
  }

  /** "set" without a level is not a set: it falls through to the unknown-action reply. */
  lemma VolumeSetWithoutLevel(m: MediaEnv)
    ensures VolumeControl(Some(m), Dict(map["action" := Str("set")])) == "Unknown volume control action: set"
  {
    assert !IsOneOf(Str("set"), ["up", "increase", "down", "decrease"]);
  }

  /** `min(100, current + step)`. */
  function StepUp(current: int, step: int): (r: int)
    ensures r <= 100
    ensures r == current + step || r == 100
    ensures current + step <= 100 ==> r == current + step
  {
    if current + step < 100 then current + step else 100
  }

  /** `max(0, current - step)`. */
  function StepDown(current: int, step: int): (r: int)
    ensures r >= 0
    ensures r == current - step || r == 0
    ensures current - step >= 0 ==> r == current - step
  {
    if current - step > 0 then current - step else 0
  }

  /** Turning the volume up by the default step from `v` asks for `min(100, v + 10)`; an
      unknown current volume stops the handler before any change. */
  lemma VolumeUpDefaultStep(m: MediaEnv, v: int)
    requires m.volume == Some(v)
    ensures var e := map["action" := Str("up")];
      var target := if v + 10 < 100 then v + 10 else 100;
      VolumeControl(Some(m), Dict(e)) ==
        (if m.control(Media.SetVolume(target)) then "Volume increased to " + IntToString(target) + "%" else "Failed to increase volume")
    ensures VolumeControl(Some(m.(volume := None)), Dict(map["action" := Str("down")])) == "Failed to get current volume"
  {
  }

  /** Setting a level outside 0-100 reports the requested level, although the controller
      clamps it before any backend call. */
  lemma VolumeSetReportsUnclamped(m: MediaEnv)
    requires m.control(Media.SetVolume(150))
    ensures VolumeControl(Some(m), Dict(map["action" := Str("set"), "level" := Int(150)])) == "Volume set to 150%"
    ensures Media.Issued(Media.SetVolume(150)) == Media.SetVolume(100)
  {
    assert NatToString(150) == NatToString(15) + [DigitChar(0)];
    assert NatToString(15) == NatToString(1) + [DigitChar(5)];
  }
}

=== FILE: stt.dfy ===
/** `SpeechToText`: the silence-terminated capture loop, the transcription conventions and
    the recording flag. Audio frames are abstracted to their samples and a per-frame
    "silent" verdict (the mean-amplitude threshold test); the microphone and Whisper are
    oracles. */
module SpeechToText {
  import opened Base
  import opened Text

  const SampleRate: nat := 16000
  const ChunkSize: nat := 1024

  /** `int(seconds * RATE / CHUNK)` for a duration given in milliseconds: the number of whole
      chunks that fit in it. */
  function ChunksFor(ms: nat): (n: nat)
    ensures n * 1000 * ChunkSize <= ms * SampleRate < (n + 1) * 1000 * ChunkSize
  {
    ms * SampleRate / (1000 * ChunkSize)
  }

  /** One second of silence is 15 chunks (15.625 truncated) and ten seconds of recording are
      156 chunks. */
  lemma DefaultChunkCounts()
    ensures ChunksFor(1000) == 15
    ensures ChunksFor(10000) == 156
    ensures ChunksFor(5000) == 78
  {
  }

  /** One chunk read from the microphone: its samples and whether it counts as silent. */
  datatype Frame = Frame(samples: seq<int>, silent: bool)

  /** The number of silent frames at the end of `fs`. */
  function TrailingSilent(fs: seq<Frame>): (n: nat)
    ensures n <= |fs|
    ensures n > 0 ==> fs[|fs| - 1].silent
  {
    if |fs| == 0 || !fs[|fs| - 1].silent then 0 else TrailingSilent(fs[..|fs| - 1]) + 1
  }

  /** The silence rule fires after `fs`: its last frame is silent and the run of silent
      frames it ends has reached `required`. */
  predicate SilenceStop(fs: seq<Frame>, required: nat) {
    |fs| > 0 && fs[|fs| - 1].silent && TrailingSilent(fs) >= required
  }

  /** `kept` is what the capture loop of `record_audio` keeps from `mic`: a prefix of it, at
      most `maxChunks` long and no longer than the reads before a stop request, that the
      silence rule did not end early, and that ended because the maximum was reached, the
      microphone failed, a stop was requested, or the silence rule fired on its last frame. */
  predicate Recorded(mic: seq<Frame>, maxChunks: nat, required: nat, stopAt: Option<nat>, kept: seq<Frame>) {
    && |kept| <= |mic| && kept == mic[..|kept|]
    && |kept| <= maxChunks
    && (stopAt.Some? ==> |kept| <= stopAt.value)
    && (forall j :: 1 <= j < |kept| ==> !SilenceStop(mic[..j], required))
    && (|| |kept| == maxChunks
        || |kept| == |mic|
        || (stopAt.Some? && |kept| == stopAt.value)
        || SilenceStop(kept, required))
  }

  /** No capture ends before another one of the same microphone input. */
  lemma RecordedEndsFirst(mic: seq<Frame>, maxChunks: nat, required: nat, stopAt: Option<nat>, a: seq<Frame>, b: seq<Frame>)
    requires Recorded(mic, maxChunks, required, stopAt, a)
    requires Recorded(mic, maxChunks, required, stopAt, b)
    ensures |b| <= |a|
  {
    assert 1 <= |a| < |b| ==> !SilenceStop(a, required);
  }

  /** The capture is determined by the input: two captures of the same frames under the same
      limits are equal. */
  lemma RecordedUnique(mic: seq<Frame>, maxChunks: nat, required: nat, stopAt: Option<nat>, a: seq<Frame>, b: seq<Frame>)
    requires Recorded(mic, maxChunks, required, stopAt, a)
    requires Recorded(mic, maxChunks, required, stopAt, b)
    ensures a == b
  {
    RecordedEndsFirst(mic, maxChunks, required, stopAt, a, b);
    RecordedEndsFirst(mic, maxChunks, required, stopAt, b, a);
  }

  /** Without silence, without a stop and within the maximum, every frame is captured. */
  lemma RecordedKeepsSpeech(mic: seq<Frame>, maxChunks: nat, required: nat, stopAt: Option<nat>, kept: seq<Frame>)
    requires Recorded(mic, maxChunks, required, stopAt, kept)
    requires forall k :: 0 <= k < |mic| ==> !mic[k].silent
    requires |mic| <= maxChunks
    requires stopAt.None? || stopAt.value >= |mic|
    ensures kept == mic
  {
    assert 0 < |kept| ==> kept[|kept| - 1] == mic[|kept| - 1];
  }

  /** `record_audio`: read up to `maxChunks` chunks of `mic`. Recording ends early when the
      recording flag is found cleared before a read (`stopAt`: the number of reads after
      which `stop_recording` cleared it), when a read fails (`mic` is exhausted), or right
      after the silent chunk that brings the silence counter to `required`. Returns the
      chunks read and whether the counter ended at or above `required`. */
  method RecordAudio(mic: seq<Frame>, maxChunks: nat, required: nat, stopAt: Option<nat>)
    returns (kept: seq<Frame>, bySilence: bool)
    ensures Recorded(mic, maxChunks, required, stopAt, kept)
    ensures bySilence <==> TrailingSilent(kept) >= required
    ensures required == 0 ==> bySilence
  {
    kept := [];
    var silentChunks := 0;
    var i := 0;
    while i < maxChunks
      invariant i <= maxChunks && i <= |mic|
      invariant kept == mic[..i]
      invariant silentChunks == TrailingSilent(kept)
      invariant stopAt.Some? ==> i <= stopAt.value
      invariant forall j :: 1 <= j <= i ==> !SilenceStop(mic[..j], required)
    {
      if stopAt.Some? && stopAt.value <= i {
        break;
      }
      if i == |mic| {
        break;
      }
      assert (kept + [mic[i]])[..i] == kept;
      kept := kept + [mic[i]];
      assert kept == mic[..i + 1];
      if mic[i].silent {
        silentChunks := silentChunks + 1;
        if silentChunks >= required {
          i := i + 1;
          break;
        }
      } else {
        silentChunks := 0;
      }
      i := i + 1;
    }
    bySilence := silentChunks >= required;
  }

  /** The samples of the recorded chunks, in order (`b''.join(frames)`). */
  function Samples(fs: seq<Frame>): (s: seq<int>)
    ensures s == [] <==> forall k :: 0 <= k < |fs| ==> fs[k].samples == []
  {
    if |fs| == 0 then []
    else
      assert forall k :: 0 <= k < |fs| - 1 ==> fs[..|fs| - 1][k] == fs[k];
      Samples(fs[..|fs| - 1]) + fs[|fs| - 1].samples
  }

  /** What Whisper is asked to transcribe: recorded samples (through a temporary WAV file)
      or an audio file. */
  datatype Source = Recording(samples: seq<int>) | AudioFile(path: string)

  /** Whisper's transcription text; `None` when the model could not be loaded or
      transcription raised. */
  type Whisper = Source -> Option<string>

  /** `transcribe_audio(audio_data, audio_file)`: samples when given, else an audio file
      that is named and exists, else nothing; the stripped text, or `""` when there is
      nothing to transcribe or transcription fails. */
  function TranscribeAudio(data: Option<seq<int>>, file: Option<string>, exists_: string -> bool, whisper: Whisper): (text: string)
    ensures data.None? && (file.None? || file.value == "" || !exists_(file.value)) ==> text == ""
    ensures data.Some? && whisper(Recording(data.value)).None? ==> text == ""
    ensures data.Some? && whisper(Recording(data.value)).Some? ==> text == Strip(whisper(Recording(data.value)).value)
    ensures data.None? && file.Some? && file.value != "" && exists_(file.value) ==>
      text == (match whisper(AudioFile(file.value)) case Some(t) => Strip(t) case None => "")
    ensures text == "" || (!IsSpace(text[0]) && !IsSpace(text[|text| - 1]))
  {
    if data.Some? then Whispered(whisper(Recording(data.value)))
    else if file.Some? && file.value != "" && exists_(file.value) then Whispered(whisper(AudioFile(file.value)))
    else ""
  }

  /** The text Whisper's answer gives: stripped, or `""` when transcription failed. */
  function Whispered(answer: Option<string>): (text: string)
    ensures answer.None? ==> text == ""
    ensures answer.Some? ==> text == Strip(answer.value)
    ensures text == "" || (!IsSpace(text[0]) && !IsSpace(text[|text| - 1]))
  {
    match answer
    case None => ""
    case Some(t) => StripWindow(t); Strip(t)
  }

  /** The seconds `listen_and_transcribe` records at most, and the silence that ends it. */
  const ListenMs: nat := 10000
  const SilenceMs: nat := 1000

  /** What `listen_and_transcribe` answers for a capture: `""` when no samples were recorded,
      otherwise the transcription of the recorded samples. */
  function Heard(captured: seq<Frame>, whisper: Whisper): (text: string)
    ensures Samples(captured) == [] ==> text == ""
    ensures Samples(captured) != [] ==> text == Whispered(whisper(Recording(Samples(captured))))
  {
    var audio := Samples(captured);
    if |audio| > 0 then TranscribeAudio(Some(audio), None, _ => false, whisper) else ""
  }

  /** `listen_and_transcribe(max_duration=10)`: record with a ten-second maximum and the
      one-second silence rule, then transcribe the samples unless nothing was captured.
      `openOk` says whether the microphone stream opens; `audio.open` runs before the
      recording's `try`, so a failed open (or an audio interface that `initialize` could not
      create) escapes as an exception. */
  method ListenAndTranscribe(mic: seq<Frame>, openOk: bool, stopAt: Option<nat>, whisper: Whisper)
    returns (captured: seq<Frame>, text: Try<string>)
    ensures !openOk ==> captured == [] && text == Raised
    ensures openOk ==> Recorded(mic, ChunksFor(ListenMs), ChunksFor(SilenceMs), stopAt, captured)
    ensures openOk ==> text == Ok(Heard(captured, whisper))
    ensures openOk && (forall k :: 0 <= k < |mic| ==> mic[k].samples == []) ==> text == Ok("")
  {
    if !openOk {
      return [], Raised;
    }
    var bySilence;
    captured, bySilence := RecordAudio(mic, ChunksFor(ListenMs), ChunksFor(SilenceMs), stopAt);
    assert forall k :: 0 <= k < |captured| ==> captured[k] == mic[k];
    text := Ok(Heard(captured, whisper));
  }

  /** The recorder's flags: whether a recording is in progress and whether the audio
      interface is open. */
  datatype Recorder = Recorder(recording: bool, audioOpen: bool)

  /** `stop_recording()`: clears the flag the capture loop checks before each read. */
  function StopRecording(r: Recorder): (s: Recorder)
    ensures !s.recording && s.audioOpen == r.audioOpen
  {
    r.(recording := false)
  }

  /** `cleanup()`: releases the audio interface if it is open. */
  function Cleanup(r: Recorder): (s: Recorder)
    ensures !s.audioOpen && s.recording == r.recording
  {
    r.(audioOpen := false)
  }

  /** Stopping and cleaning up are idempotent. */
  lemma StopAndCleanupIdempotent(r: Recorder)
    ensures StopRecording(StopRecording(r)) == StopRecording(r)
    ensures Cleanup(Cleanup(r)) == Cleanup(r)
  {
  }
}

=== FILE: text.dfy ===
/** The handful of Python `str` operations the system relies on, over `seq<char>`.
    Case mapping and whitespace are modelled for the ASCII range only. */
module Text {

  /** `c.isspace()` for ASCII characters: tab through carriage return, the four
      separator controls 0x1C-0x1F, and the blank. */
  predicate IsSpace(c: char) {
    ('\t' <= c <= '\r') || ('\U{1C}' <= c <= '\U{1F}') || c == ' '
  }

  /** `c.lower()` for ASCII characters. */
  function LowerChar(c: char): char {
    if 'A' <= c <= 'Z' then (c as int + 32) as char else c
  }

  /** `s.lower()`. */
  function Lower(s: string): (r: string)
    ensures |r| == |s|
    ensures forall i :: 0 <= i < |s| ==> r[i] == LowerChar(s[i])
  {
    if |s| == 0 then "" else [LowerChar(s[0])] + Lower(s[1..])
  }

  /** Lower-casing is idempotent. */
  lemma LowerIdempotent(s: string)
    ensures Lower(Lower(s)) == Lower(s)
  {
    assert forall i :: 0 <= i < |s| ==> LowerChar(LowerChar(s[i])) == LowerChar(s[i]);
  }

  /** `needle` occurs in `hay` starting at index `i`. */
  predicate OccursAt(hay: string, needle: string, i: int) {
    0 <= i <= |hay| - |needle| && hay[i..i + |needle|] == needle
  }

  /** `needle in hay`: some window of `hay` equals `needle`; the empty needle occurs everywhere. */
  predicate Contains(hay: string, needle: string) {
    exists i | 0 <= i <= |hay| - |needle| :: OccursAt(hay, needle, i)
  }

  /** A window that holds `a + b` also holds `b`, so `b` occurs wherever `a + b` does. */
  lemma ContainsSuffixOf(hay: string, a: string, b: string)
    requires Contains(hay, a + b)
    ensures Contains(hay, b)
  {
    var ab := a + b;
    var i :| 0 <= i <= |hay| - |ab| && OccursAt(hay, ab, i);
    assert hay[i..i + |ab|] == ab;
    var j := i + |a|;
    assert hay[j..j + |b|] == hay[i..i + |ab|][|a|..];
    assert OccursAt(hay, b, j);
  }

  /** Whatever occurs in `a` occurs in `a + b`. */
  lemma ContainsInLeft(a: string, b: string, needle: string)
    requires Contains(a, needle)
    ensures Contains(a + b, needle)
  {
    var i :| 0 <= i <= |a| - |needle| && OccursAt(a, needle, i);
    assert (a + b)[i..i + |needle|] == a[i..i + |needle|];
    assert OccursAt(a + b, needle, i);
  }

  /** Whatever occurs in `b` occurs in `a + b`. */
  lemma ContainsInRight(a: string, b: string, needle: string)
    requires Contains(b, needle)
    ensures Contains(a + b, needle)
  {
    var i :| 0 <= i <= |b| - |needle| && OccursAt(b, needle, i);
    assert (a + b)[|a| + i..|a| + i + |needle|] == b[i..i + |needle|];
    assert OccursAt(a + b, needle, |a| + i);
  }

  /** `s.endswith(suffix)`. */
  predicate EndsWith(s: string, suffix: string) {
    |suffix| <= |s| && s[|s| - |suffix|..] == suffix
  }

  /** A concatenation ends with its right part. */
  lemma EndsWithAppend(a: string, b: string)
    ensures EndsWith(a + b, b)
  {
    assert (a + b)[|a|..] == b;
  }

  /** `s.startswith(prefix)`. */
  predicate StartsWith(s: string, prefix: string) {
    |prefix| <= |s| && s[..|prefix|] == prefix
  }

  /** `s.lstrip()`: drops the leading run of whitespace and nothing else. */
  function TrimStart(s: string): (r: string)
    ensures |r| <= |s| && r == s[|s| - |r|..]
    ensures forall i :: 0 <= i < |s| - |r| ==> IsSpace(s[i])
    ensures r == "" || !IsSpace(r[0])
  {
    if |s| > 0 && IsSpace(s[0]) then TrimStart(s[1..]) else s
  }

  /** `s.rstrip()`: drops the trailing run of whitespace and nothing else. */
  function TrimEnd(s: string): (r: string)
    ensures |r| <= |s| && r == s[..|r|]
    ensures forall i :: |r| <= i < |s| ==> IsSpace(s[i])
    ensures r == "" || !IsSpace(r[|r| - 1])
  {
    if |s| > 0 && IsSpace(s[|s| - 1]) then TrimEnd(s[..|s| - 1]) else s
  }

  /** `s.strip()`. */
  function Strip(s: string): (r: string)
  {
    TrimEnd(TrimStart(s))
  }

  /** The stripped text sits in `s` right after the leading whitespace. */
  lemma StripOccurs(s: string)
    ensures OccursAt(s, Strip(s), |s| - |TrimStart(s)|)
  {
    var t := TrimStart(s);
    var r := TrimEnd(t);
    var a := |s| - |t|;
    assert t == s[a..];
    assert r == t[..|r|];
    assert s[a..][..|r|] == s[a..a + |r|];
  }

  /** Everything after the stripped text is whitespace. */
  lemma StripTrailing(s: string)
    ensures forall i :: |s| - |TrimStart(s)| + |Strip(s)| <= i < |s| ==> IsSpace(s[i])
  {
    var t := TrimStart(s);
    var r := TrimEnd(t);
    var a := |s| - |t|;
    forall i | a + |r| <= i < |s| ensures IsSpace(s[i]) {
      assert s[i] == t[i - a];
    }
  }

  /** The stripped text is the window of `s` left after removing whitespace from both ends:
      it neither starts nor ends with whitespace and everything cut away was whitespace. */
  lemma StripWindow(s: string)
    ensures var r := Strip(s);
      && (exists a :: OccursAt(s, r, a)
            && (forall i :: 0 <= i < a ==> IsSpace(s[i]))
            && (forall i :: a + |r| <= i < |s| ==> IsSpace(s[i])))
      && (r == "" || (!IsSpace(r[0]) && !IsSpace(r[|r| - 1])))
  {
    var t := TrimStart(s);
    var r := Strip(s);
    var a := |s| - |t|;
    StripOccurs(s);
    StripTrailing(s);
    assert OccursAt(s, r, a)
      && (forall i :: 0 <= i < a ==> IsSpace(s[i]))
      && (forall i :: a + |r| <= i < |s| ==> IsSpace(s[i]));
    if r != "" {
      assert r[0] == t[0];
    }
  }

  /** Stripping twice strips nothing more. */
  lemma StripIdempotent(s: string)
    ensures Strip(Strip(s)) == Strip(s)
  {
    var r := Strip(s);
    StripWindow(s);
    assert TrimStart(r) == r;
    assert TrimEnd(r) == r;
  }

  /** `sep.join(parts)`. */
  function Join(sep: string, parts: seq<string>): string
    decreases |parts|
  {
    if |parts| == 0 then ""
    else if |parts| == 1 then parts[0]
    else Join(sep, parts[..|parts| - 1]) + sep + parts[|parts| - 1]
  }

  /** Every part occurs in the joined text. */
  lemma {:induction false} JoinContainsEach(sep: string, parts: seq<string>, k: int)
    requires 0 <= k < |parts|
    ensures Contains(Join(sep, parts), parts[k])
    decreases |parts|
  {
    var n := |parts|;
    if n == 1 {
      assert OccursAt(parts[0], parts[0], 0);
    } else {
      var front := Join(sep, parts[..n - 1]);
      if k == n - 1 {
        assert OccursAt(parts[k], parts[k], 0);
        ContainsInRight(front + sep, parts[k], parts[k]);
      } else {
        JoinContainsEach(sep, parts[..n - 1], k);
        assert parts[..n - 1][k] == parts[k];
        ContainsInLeft(front, sep, parts[k]);
        ContainsInLeft(front + sep, parts[n - 1], parts[k]);
      }
    }
  }

  /** `s.split(sep)[-1]`: the text after the last `sep`, or all of `s` when there is none. */
  function LastSegment(s: string, sep: char): (r: string)
    ensures |r| <= |s| && r == s[|s| - |r|..]
    ensures sep !in r
    ensures |r| == |s| || s[|s| - |r| - 1] == sep
  {
    if |s| == 0 then ""
    else if s[|s| - 1] == sep then ""
    else LastSegment(s[..|s| - 1], sep) + [s[|s| - 1]]
  }

  /** The decimal digit character for `d`. */
  function DigitChar(d: nat): char
    requires d < 10
  {
    "0123456789"[d]
  }

  /** `str(n)` for a natural number: its decimal digits, most significant first. */
  function NatToString(n: nat): (r: string)
    ensures |r| > 0
    ensures forall i :: 0 <= i < |r| ==> '0' <= r[i] <= '9'
  {
    if n < 10 then [DigitChar(n)] else NatToString(n / 10) + [DigitChar(n % 10)]
  }

  /** The number a string of decimal digits denotes. */
  function DigitsValue(s: string): int
  {
    if |s| == 0 then 0 else DigitsValue(s[..|s| - 1]) * 10 + (s[|s| - 1] as int - '0' as int)
  }

  /** Printing a natural number and reading its digits back gives the number. */
  lemma {:induction false} NatToStringRoundTrip(n: nat)
    ensures DigitsValue(NatToString(n)) == n
  {
    if n >= 10 {
      var s := NatToString(n / 10) + [DigitChar(n % 10)];
      assert s[..|s| - 1] == NatToString(n / 10);
      NatToStringRoundTrip(n / 10);
    }
  }

  /** `str(i)` for a Python int. */
  function IntToString(i: int): string
  {
    if i < 0 then "-" + NatToString(-i) else NatToString(i)
  }
}

=== FILE: tts.dfy ===
/** `TextToSpeech`: engine selection, the Piper model path, the `speak` return conventions,
    `initialize` and `cleanup`. The synthesis engines, the file system and playback are oracles. */
module TextToSpeech {
  import opened Base
  import opened Text

  datatype Engine = Piper | Coqui

  /** `use_piper`: Piper exactly when "piper" occurs in the lower-cased model name. */
  function SelectEngine(model: string): (e: Engine)
    ensures e == Piper <==> Contains(Lower(model), "piper")
  {
    if Contains(Lower(model), "piper") then Piper else Coqui
  }

  /** The choice ignores case: a model name selects the same engine as its lower-cased
      form. */
  lemma EngineIgnoresCase(model: string)
    ensures SelectEngine(Lower(model)) == SelectEngine(model)
  {
    LowerIdempotent(model);
  }

  /** The Piper voice: the last "/"-separated segment of the model setting. `split` always
      yields at least one part, so the fallback voice name in the source is never used. */
  function PiperModelName(model: string): (name: string)
    ensures '/' !in name
    ensures |name| <= |model| && name == model[|model| - |name|..]
    ensures |name| == |model| || model[|model| - |name| - 1] == '/'
  {
    LastSegment(model, '/')
  }

  const PiperModelDir := "/app/models/piper/"

  /** The model file Piper is run with. */
  function PiperModelPath(model: string): (path: string)
    ensures StartsWith(path, PiperModelDir)
    ensures path == PiperModelDir + PiperModelName(model) + ".onnx"
  {
    var path := PiperModelDir + PiperModelName(model) + ".onnx";
    assert path[..|PiperModelDir|] == PiperModelDir;
    path
  }

  /** A model name without a slash is its own voice name. */
  lemma PiperNameOfPlainModel(model: string)
    requires '/' !in model
    ensures PiperModelName(model) == model
  {
  }

  /** One synthesis run: the engine, the model file (Piper only), the output file and the
      text. */
  datatype SynthRequest = PiperRun(modelPath: string, output: string, text: string) | CoquiRun(output: string, text: string)

  /** The run `synthesize(text, output_file)` starts: into `output_file` when one is given,
      otherwise into a fresh temporary file `temp`. */
  function Request(model: string, text: string, outputFile: string, temp: string): (req: SynthRequest)
    ensures req.PiperRun? <==> SelectEngine(model) == Piper
    ensures req.PiperRun? ==> req.modelPath == PiperModelPath(model)
    ensures req.output == (if outputFile != "" then outputFile else temp)
    ensures req.text == text
  {
    var output := if outputFile != "" then outputFile else temp;
    match SelectEngine(model)
    case Piper => PiperRun(PiperModelPath(model), output, text)
    case Coqui => CoquiRun(output, text)
  }

  /** `synthesize(text, output_file)`: the output file when the engine succeeds (`run`),
      `""` when it fails. */
  function Synthesize(model: string, text: string, outputFile: string, temp: string, run: SynthRequest -> bool): (path: string)
    ensures path == "" || path == Request(model, text, outputFile, temp).output
    ensures path != "" ==> run(Request(model, text, outputFile, temp))
  {
    var req := Request(model, text, outputFile, temp);
    if run(req) then req.output else ""
  }

  /** What `speak` did: the synthesis it started, the file it played, the temporary file it
      deleted, and what it returned. */
  datatype Spoken = Spoken(requested: Option<SynthRequest>, played: Option<string>, deleted: Option<string>, returned: Option<string>)

  /** `speak(text, save_to_file)`; `exists` says which files exist after synthesis. */
  function Speak(model: string, text: string, saveTo: string, temp: string,
                 run: SynthRequest -> bool, exists_: string -> bool): (r: Spoken)
    ensures text == "" ==> r == Spoken(None, None, None, None)
    ensures text != "" ==> r.requested == Some(Request(model, text, saveTo, temp))
    ensures r.played.Some? <==>
      (text != "" && run(Request(model, text, saveTo, temp))
       && Request(model, text, saveTo, temp).output != "" && exists_(Request(model, text, saveTo, temp).output))
    ensures r.played.Some? ==> r.played.value == Request(model, text, saveTo, temp).output
    ensures r.deleted.Some? <==> r.played.Some? && saveTo == ""
    ensures r.returned.Some? <==> r.played.Some? && saveTo != ""
    ensures r.returned.Some? ==> r.returned.value == saveTo
  {
    if text == "" then Spoken(None, None, None, None)
    else
      var req := Request(model, text, saveTo, temp);
      var output := Synthesize(model, text, saveTo, temp, run);
      if output == "" || !exists_(output) then Spoken(Some(req), None, None, None)
      else Spoken(Some(req), Some(output), if saveTo == "" then Some(output) else None, if saveTo != "" then Some(output) else None)
  }

  /** `speak` only ever returns the file it was asked to save to, and only a file it
      played. */
  lemma SpeakReturnsSavedFile(model: string, text: string, saveTo: string, temp: string,
                              run: SynthRequest -> bool, exists_: string -> bool)
    ensures var r := Speak(model, text, saveTo, temp, run, exists_);
      r.returned.Some? ==> r.returned == r.played && r.played == Some(saveTo) && exists_(saveTo)
    ensures saveTo == "" ==> Speak(model, text, saveTo, temp, run, exists_).returned.None?
  {
  }

  /** The engine handle and the audio interface. */
  datatype Resources = Resources(engine: bool, audio: bool)

  /** What `initialize` meets: whether the engine comes up (the Coqui model loads, or the
      `piper --help` probe succeeds) and whether the PyAudio interface opens. */
  datatype Setup = Setup(engineOk: bool, audioOk: bool)

  /** `initialize()`: loads the Coqui engine, or only probes for the Piper binary, then opens
      the audio interface. A missing Piper binary answers `false` before the audio interface
      is opened; a Coqui model or audio interface that raises is caught and answers `false`,
      and a Coqui engine loaded before a failed audio interface stays. */
  function Initialize(r: Resources, model: string, s: Setup): (res: (bool, Resources))
    ensures res.0 <==> s.engineOk && s.audioOk
    ensures res.1.engine == (r.engine || (SelectEngine(model) == Coqui && s.engineOk))
    ensures res.1.audio == (r.audio || res.0)
  {
    if !s.engineOk then (false, r)
    else
      var loaded := if SelectEngine(model) == Coqui then r.(engine := true) else r;
      if s.audioOk then (true, loaded.(audio := true)) else (false, loaded)
  }

  /** Piper runs as a subprocess per request, so initialising it never holds an engine. */
  lemma PiperHoldsNoEngine(model: string, s: Setup)
    requires Contains(Lower(model), "piper")
    ensures !Initialize(Resources(false, false), model, s).1.engine
  {
  }

  /** `cleanup()` releases whatever `initialize()` acquired, successful or not. */
  lemma CleanupAfterInitialize(r: Resources, model: string, s: Setup)
    ensures Cleanup(Initialize(r, model, s).1) == Cleanup(r)
  {
  }

  /** `cleanup()`: terminates the audio interface when open and drops the engine. */
  function Cleanup(r: Resources): (s: Resources)
    ensures !s.engine && !s.audio
  {
    Resources(false, false)
  }

  /** Cleaning up twice is the same as once. */
  lemma CleanupIdempotent(r: Resources)
    ensures Cleanup(Cleanup(r)) == Cleanup(r)
  {
  }
}

=== FILE: values.dfy ===
/** Decoded JSON values as the Python code sees them: what is truthy, what is hashable,
    and how an f-string prints them. */
module Values {
  import opened Base
  import opened Text

  /** A JSON value after `json.loads`. Arrays and objects keep their elements and also the
      text Python's `str()` prints for them, which the decoder supplies (a Python dict prints
      in insertion order, which a map does not record). Numbers with a fractional part are
      not modelled. */
  datatype Value =
    | Null
    | Bool(b: bool)
    | Int(i: int)
    | Str(s: string)
    | Array(items: seq<Value>, text: string)
    | Object(fields: map<string, Value>, text: string)

  /** Python truthiness: `None`, `False`, `0`, `""`, `[]` and `{}` are false, the rest true. */
  predicate Truthy(v: Value) {
    match v
    case Null => false
    case Bool(b) => b
    case Int(i) => i != 0
    case Str(s) => s != ""
    case Array(items, _) => |items| > 0
    case Object(fields, _) => |fields| > 0
  }

  /** Lists and dicts are unhashable: a dict-membership test on one raises `TypeError`. */
  predicate Hashable(v: Value) {
    !v.Array? && !v.Object?
  }

  /** `str(v)`, which is what an f-string interpolates. */
  function Render(v: Value): string {
    match v
    case Null => "None"
    case Bool(b) => if b then "True" else "False"
    case Int(i) => IntToString(i)
    case Str(s) => s
    case Array(_, text) => text
    case Object(_, text) => text
  }

  /** `x in ["a", "b", ...]`: equality with one of the listed strings (a number or `None`
      never equals a string). */
  predicate IsOneOf(v: Value, options: seq<string>) {
    v.Str? && v.s in options
  }

  /** `v` as an operand of `+`, `-`, `min` and `max` against an int: ints, and booleans as
      0 and 1; anything else makes Python raise `TypeError`. */
  function AsNumber(v: Value): (r: Option<int>)
    ensures r.Some? <==> v.Int? || v.Bool?
    ensures v.Int? ==> r == Some(v.i)
  {
    match v
    case Int(i) => Some(i)
    case Bool(b) => Some(if b then 1 else 0)
    case _ => None
  }

  /** A handler's `parameters` argument: a dict, or any other JSON value, on which `.get`
      raises `AttributeError`. */
  datatype Params = Dict(entries: map<string, Value>) | NotADict

  /** `d.get(key, default)`. */
  function Get(entries: map<string, Value>, key: string, default: Value): Value {
    if key in entries then entries[key] else default
  }

  /** The parameters a decoded `"parameters"` entry yields; an absent entry is `{}`. */
  function ToParams(v: Option<Value>): (p: Params)
    ensures v.None? ==> p == Dict(map[])
    ensures v.Some? && v.value.Object? ==> p == Dict(v.value.fields)
    ensures p.NotADict? <==> v.Some? && !v.value.Object?
  {
    match v
    case None => Dict(map[])
    case Some(Object(fields, _)) => Dict(fields)
    case Some(_) => NotADict
  }
}

=== FILE: wake_word.dfy ===
/** `WakeWordDetector`: keyword selection, the detection loop behind `start`, `stop` and
    `cleanup`. The keyword engine is abstracted to the keyword index it reports for each
    frame; the microphone stream and the file system are oracles. */
module WakeWord {
  import opened Base

  /** What the engine was created with: a custom keyword file or a built-in keyword. */
  datatype Keyword = CustomFile(path: string) | BuiltIn(name: string)

  const DefaultKeyword := "computer"

  /** The keyword `initialize` creates the engine with: the configured file when the path is
      set and the file exists, the built-in "computer" otherwise. */
  function SelectKeyword(path: string, exists_: string -> bool): (k: Keyword)
    ensures k.CustomFile? <==> path != "" && exists_(path)
    ensures k.CustomFile? ==> k.path == path
    ensures k.BuiltIn? ==> k.name == DefaultKeyword
  {
    if path != "" && exists_(path) then CustomFile(path) else BuiltIn(DefaultKeyword)
  }

  /** The detector's fields: the engine (with the keyword it listens for), whether the audio
      interface and the input stream are open, the running flag and whether a callback is
      stored. */
  datatype Detector = Detector(engine: Option<Keyword>, audio: bool, stream: bool, running: bool, callback: bool)

  /** `stop()`: clears the running flag and closes the stream if one is open. */
  function Stop(d: Detector): (s: Detector)
    ensures !s.running && !s.stream
    ensures s.engine == d.engine && s.audio == d.audio && s.callback == d.callback
  {
    d.(running := false, stream := false)
  }

  /** `cleanup()`: `stop()`, then the engine and the audio interface are released. */
  function Cleanup(d: Detector): (s: Detector)
    ensures s.engine.None? && !s.audio && !s.running && !s.stream
    ensures s.callback == d.callback
  {
    Stop(d).(engine := None, audio := false)
  }

  /** Stopping and cleaning up may be repeated; cleaning up includes stopping. */
  lemma StopAndCleanupIdempotent(d: Detector)
    ensures Stop(Stop(d)) == Stop(d)
    ensures Cleanup(Cleanup(d)) == Cleanup(d)
    ensures Cleanup(Stop(d)) == Cleanup(d)
    ensures Stop(Cleanup(d)) == Cleanup(d)
  {
  }

  /** The configuration `initialize` reads, and whether the engine could be created. */
  datatype Config = Config(keywordPath: string, exists_: string -> bool, createOk: bool)

  /** `initialize()`: the engine with the selected keyword and the audio interface; when
      creation fails the detector is cleaned up and the exception propagates. */
  function Initialize(d: Detector, cfg: Config): (r: Try<Detector>)
    ensures r.Ok? <==> cfg.createOk
    ensures r.Ok? ==> r.value == d.(engine := Some(SelectKeyword(cfg.keywordPath, cfg.exists_)), audio := true)
  {
    if cfg.createOk then Ok(d.(engine := Some(SelectKeyword(cfg.keywordPath, cfg.exists_)), audio := true))
    else Raised
  }

  /** The frames the detection loop acted on: the index of every frame whose keyword index
      was non-negative, in order. */
  function Detections(indices: seq<int>): (fired: seq<nat>)
    ensures forall k :: k in fired <==> 0 <= k < |indices| && indices[k] >= 0
    ensures forall a, b :: 0 <= a < b < |fired| ==> fired[a] < fired[b]
  {
    if |indices| == 0 then []
    else
      var front := Detections(indices[..|indices| - 1]);
      assert forall a :: 0 <= a < |front| ==> front[a] in front && front[a] < |indices| - 1;
      if indices[|indices| - 1] >= 0 then front + [|indices| - 1] else front
  }

  /** What a call to `start` did: the detector afterwards, whether an exception escaped, the
      number of frames processed and the frames after which the callback ran. */
  datatype Started = Started(after: Detector, raised: bool, processed: nat, fired: seq<nat>)

  /** The engine `start` listens with: the existing one, or the one `initialize` creates. */
  function EngineFor(d: Detector, cfg: Config): (e: Option<Keyword>)
    ensures e.Some?
    ensures d.engine.Some? ==> e == d.engine
  {
    if d.engine.Some? then d.engine else Some(SelectKeyword(cfg.keywordPath, cfg.exists_))
  }

  /** Whether `start` has an audio interface to open the stream on: the existing one, or the
      one `initialize` opens. */
  predicate AudioFor(d: Detector) {
    d.engine.None? || d.audio
  }

  /** The number of frames the loop reads before it stops: up to the external `stop()` when
      that comes first, else every frame (the read past the end raises). */
  function Reads(frames: seq<int>, stopAt: Option<nat>): (n: nat)
    ensures n <= |frames|
    ensures stopAt.Some? ==> n <= stopAt.value
    ensures n == |frames| || (stopAt.Some? && n == stopAt.value)
  {
    if stopAt.Some? && stopAt.value < |frames| then stopAt.value else |frames|
  }

  /** `start(callback)`. `hasCallback` says whether the callback given is callable;
      `openOk` whether the input stream opens; `frames` are the keyword indices the engine
      reports for the frames read, a read past the end failing; `stopAt` is the number of
      reads after which another thread called `stop()`. */
  method Start(d: Detector, cfg: Config, hasCallback: bool, openOk: bool, frames: seq<int>, stopAt: Option<nat>)
    returns (r: Started)
    ensures d.running ==> r == Started(d, false, 0, [])
    ensures r.raised <==> !d.running && d.engine.None? && !cfg.createOk
    ensures r.raised ==> r == Started(Cleanup(d), true, 0, [])
    ensures !d.running && !r.raised ==>
      r.after == Detector(EngineFor(d, cfg), AudioFor(d), false, false, hasCallback)
    ensures !d.running && !r.raised ==>
      r.processed == (if AudioFor(d) && openOk then Reads(frames, stopAt) else 0)
    ensures r.fired == (if hasCallback then Detections(frames[..r.processed]) else [])
  {
    if d.running {
      return Started(d, false, 0, []);
    }
    var det := d;
    if det.engine.None? {
      match Initialize(det, cfg)
      case Raised =>
        return Started(Cleanup(d), true, 0, []);
      case Ok(ready) =>
        det := ready;
    }
    det := det.(callback := hasCallback, running := true);
    if !det.audio || !openOk {
      return Started(Stop(det), false, 0, []);
    }
    var after, n, fired := Listen(det.(stream := true), hasCallback, frames, stopAt);
    return Started(after, false, n, fired);
  }

  /** The `while self.running` loop of `start` on an open stream: it reads frames until the
      external `stop()` or a failing read ends it, then stops the detector. */
  method Listen(d: Detector, hasCallback: bool, frames: seq<int>, stopAt: Option<nat>)
    returns (after: Detector, n: nat, fired: seq<nat>)
    requires d.running && d.stream
    ensures after == Stop(d)
    ensures n == Reads(frames, stopAt)
    ensures fired == (if hasCallback then Detections(frames[..n]) else [])
  {
    var det := d;
    fired := [];
    var i := 0;
    while det.running
      invariant i <= |frames|
      invariant stopAt.Some? ==> i <= stopAt.value
      invariant det.running ==> det == d
      invariant !det.running ==> det == Stop(d) && i == Reads(frames, stopAt)
      invariant fired == (if hasCallback then Detections(frames[..i]) else [])
      decreases |frames| - i, det.running
    {
      if stopAt.Some? && stopAt.value <= i {
        det := Stop(det);
      } else if i == |frames| {
        det := Stop(det);
      } else {
        assert frames[..i + 1][..i] == frames[..i];
        if frames[i] >= 0 && hasCallback {
          fired := fired + [i];
        }
        i := i + 1;
      }
    }
    return det, i, fired;
  }
}
